=== FILE: README.md ===
# Stripe dashboard metrics — a Dafny model

This project models the computational core of a small Stripe dashboard written
in Python for a water-polo club. The dashboard pulls charges and subscriptions
from Stripe and shows revenue, subscription and fee figures. Everything here
works on in-memory records:

- **Record normalisers.** Subscription items, amount, billing interval, plan
  name and status label; the product and customer labels of a charge; the
  human-readable payment-method label.
- **Metrics.** Monthly and annual recurring revenue (MRR/ARR), churn and trial
  conversion, customer lifetime value (CLV), the month-by-month revenue
  forecast, and the Stripe fee estimate with its per-method breakdown and
  recommendations.
- **Chart tallies.** Subscriptions counted by status, and revenue grouped by
  plan.
- **Transactions view.** The default start date, the status filter options,
  the revenue and average metrics, and the customer and category labels.
- **Small stores.** The customer tag and note store, the time-limited memo
  cache around Stripe fetches, and the page layout of the PDF report.

Amounts are whole cents (`nat`) and dollars are exact `real`s. Python's
"truthiness" is explicit: an optional field that is `None`, `0` or `""`
counts as absent. Each module follows one source file:

| module | source file |
|---|---|
| `Records`, `Money`, `Text`, `Calendar`, `Tally`, `Wrappers` | shared record types and helpers |
| `Helpers` | utils/helpers.py |
| `Charts` | analytics/charts.py |
| `Calculations` | analytics/calculations.py |
| `Fees` | analytics/fees.py; analytics/calculations.py:226-301 is identical to it but for a comment and is modelled by the same members |
| `StripeService` | services/stripe_service.py |
| `Formatters` | utils/formatters.py |
| `Transactions` | dashboard/transactions.py |
| `CustomerData` | models/customer_data.py |
| `CacheService` | services/cache_service.py |
| `PdfExport` | exports/pdf_export.py |
| `AppOriginal` | the versions in app_original.py that differ from the modules above |

The loops of the source are methods with loop invariants. Each is proved equal
to a recursive specification function, and the properties are lemmas about
that function. This covers the MRR loop, the fee accumulation, the chart
tallies, the charge filter, month grouping, growth rates and the forecast
loop, the tag search, the cache clearing and the PDF word-wrap. The tag store
and the cache are classes whose methods update their fields.

## Model

| member | source | states |
|---|---|---|
| Records.Quantity | utils/helpers.py:35-40 | an item's quantity defaults to 1 when it is missing |
| Records.First | utils/helpers.py:24-25 | the first item exists exactly when the list is non-empty |
| Records.UnitOrLegacyCents | utils/helpers.py:43-46 | a truthy `unit_amount` wins; else a truthy legacy `amount`; none exactly when both are falsy; never 0 |
| Records.RawInterval | utils/helpers.py:70-73 | `recurring.interval` when present, else the legacy `interval` |
| Money.Round2 | analytics/fees.py:70-75 | `round(x, 2)` lands within half a cent of `x` |
| Money.Round2OfCents | analytics/calculations.py:135-139 | rounding a whole number of cents in dollars changes nothing |
| Money.Round2Monotone | analytics/calculations.py:156 | rounding keeps order, so rounded bounds follow from unrounded ones |
| Money.CentsTextRoundTrip | app_original.py:917-924 | the two-decimal text of a cent amount parses back to the same cents |
| Money.CentsTextZero | app_original.py:921-925 | zero cents is written "0.00" |
| Calendar.MonthOfIndex | analytics/calculations.py:208-213 | the month of a month index is always in 1..12 |
| Calendar.IndexRoundTrip | analytics/calculations.py:208-213 | year*12+month-1 gives back the same year and month |
| Helpers.ItemsData | utils/helpers.py:1-17 | `items.data` for a list object, the elements of an iterable, [] otherwise |
| Helpers.FirstPrice | utils/helpers.py:24-31 | there is a price exactly when the first item carries a price object |
| Helpers.Amount | utils/helpers.py:19-51 | first item's unit or legacy cents / 100 × quantity; 0.0 without price or amount; never negative |
| Helpers.Interval | utils/helpers.py:53-78 | the price's interval when present, otherwise "month" |
| Helpers.SubscriptionStatusInfo | utils/helpers.py:80-107 | echoes the status; gray and "Unknown status" exactly for statuses outside the tables; fixed entries for active and canceled |
| Helpers.StatusTablesAgree | utils/helpers.py:82-100 | the color and description tables cover the same seven statuses |
| Helpers.PlanNameCandidates | utils/helpers.py:109-141 | the fallback chain always ends with "Plan (" + last 8 chars of the subscription id + ")" |
| Helpers.PlanNameIsFirstCandidate | analytics/charts.py:254-288 | the plan name is the first available candidate of the chain; the charts copy is the same function |
| Helpers.PlanName | utils/helpers.py:109-141 | the price's own name when it has one, otherwise "Plan (" + last 8 chars of the subscription id + ")" |
| Charts.MonthlyAmount | analytics/charts.py:290-341 | never negative; 0 without a price or without a unit or legacy amount |
| Charts.MonthlyAmountIsScaledAmount | analytics/charts.py:322-336 | the monthly amount is the helper amount times the interval factor (year 1/12, week 4.33, day 30, otherwise 1) |
| Charts.Statuses | analytics/charts.py:208-209 | one status per subscription, in order |
| Charts.CountStatusIsMultiplicity | analytics/charts.py:207-210 | the count of a status is its multiplicity among the subscriptions' statuses |
| Charts.CountStatus | analytics/charts.py:207-210 | a status is counted at most once per subscription |
| Charts.CountStatusStep | analytics/charts.py:209-210 | reading one more subscription adds one to its own status and nothing to the others |
| Charts.StatusesCounted | analytics/charts.py:207-210 | a status has a positive count exactly when some subscription carries it |
| Charts.CountedExact | analytics/charts.py:207-210 | counting one subscription at a time yields exact counts, keys equal to the statuses in first-seen order, summing to the number read |
| Charts.StatusCounts | analytics/charts.py:207-210 | the loop counts each status exactly; its keys are the statuses in first-seen order; the counts sum to the number of subscriptions |
| Charts.PlanEntries | analytics/charts.py:226-230 | one non-negative (plan, monthly amount) entry per active or trialing subscription |
| Charts.PlanEntriesIgnoreOthers | analytics/charts.py:227 | subscriptions that are neither active nor trialing add no plan entries |
| Charts.GroupSumAtMostTotal | analytics/charts.py:231-233 | one plan's revenue lies between 0 and the total |
| Charts.TotalNonNegative | analytics/charts.py:231-233 | the total plan revenue is never negative |
| Charts.PlanTallyAccumulates | analytics/charts.py:225-233 | reading the subscriptions one by one adds up exactly their plan entries |
| Charts.PlanRevenue | analytics/charts.py:225-233 | each plan's total is the sum of its entries; the keys are the plan names in first-seen order; the totals sum to the overall total |
| Tally.FirstSeenOrder | analytics/charts.py:209-210 | first-seen keys are exactly the values seen, distinct, and a key listed earlier first occurs earlier (Python dictionary insertion order) |
| Calculations.FirstItemPrice | analytics/calculations.py:21-51 | only the first item is read; none for no items |
| Calculations.ItemAmount | analytics/calculations.py:53-65 | unit, else legacy cents / 100 × quantity; else `unit_amount_decimal` / 100 × quantity; 0.0 when no amount is present |
| Calculations.MonthlyContribution | analytics/calculations.py:78-87 | a month, year, week or day amount is scaled by the charts' monthly factor; any other or missing interval adds 0; never negative for a non-negative amount |
| Calculations.SubscriptionMrr | analytics/calculations.py:12-87 | 0 for a subscription that is not active or trialing or has no usable first-item price; otherwise the item amount scaled to a month |
| Calculations.Mrr | analytics/calculations.py:8-87 | 0 for no subscriptions; one subscription gives its own share (additivity is MrrAppend) |
| Calculations.SubscriptionShare | analytics/calculations.py:13-87 | one loop step adds the subscription's monthly contribution |
| Calculations.MrrArr | analytics/calculations.py:6-94 | the loop's MRR is the sum of contributions, and ARR = MRR × 12 |
| Calculations.CalculateMrrArr | analytics/calculations.py:6-94 | the same with the helper normaliser; (0, 0) for no subscriptions |
| Calculations.MrrAppend | analytics/calculations.py:10-91 | MRR of a concatenation is the sum of the parts' MRR |
| Calculations.MrrIgnoresInactive | analytics/calculations.py:13 | subscriptions that are neither active nor trialing contribute nothing |
| Calculations.MrrShareMatchesChartsAmount | analytics/calculations.py:67-87 | for month/year/week/day a subscription's MRR share equals the charts module's monthly amount; otherwise MRR adds 0 while charts keep the amount |
| Calculations.ChurnMetricsRounded | analytics/calculations.py:96-117 | total = number of subscriptions; active, trialing and canceled are each status's multiplicity; both ratios are the rounded percentages, within [0, 100] |
| Calculations.ChurnMetricsUnrounded | app_original.py:419-440 | the same counts, at most the total together; churn is canceled as a percentage of all and conversion active as a percentage of active + trialing, unrounded, within [0, 100] |
| Calculations.ChurnRate | analytics/calculations.py:104 | rate × total = canceled × 100 when there are subscriptions; 0 without; within [0, 100] for a part of the whole |
| Calculations.ConversionRate | analytics/calculations.py:108 | the conversion rate is active as a percentage of active + trialing |
| Calculations.StatusCountsBounded | analytics/calculations.py:98-101 | active + trialing + canceled never exceed the total |
| Calculations.PercentageInRange | analytics/calculations.py:104-108 | a guarded ratio of a part to its whole is in [0, 100], before and after rounding |
| Calculations.ChurnExample | analytics/calculations.py:96-117 | two active, one trialing, two canceled give churn 40.0 and conversion 66.67 |
| Calculations.CustomerCharges | analytics/calculations.py:123-129 | a charge is kept exactly when it is a succeeded charge of that customer: every kept charge matches, and every matching charge is kept |
| Calculations.MinCreated | analytics/calculations.py:141-142 | the earliest creation time: no charge is earlier, and some charge has it |
| Calculations.MaxCreated | analytics/calculations.py:141-143 | the latest creation time: no charge is later, and some charge has it |
| Calculations.TotalDollars | analytics/calculations.py:135 | the total revenue is never negative |
| Calculations.MonthsActive | analytics/calculations.py:147 | months active is at least 1 |
| Calculations.ProjectionBound | analytics/calculations.py:147-154 | the 24-month projection lies between 0 and 24 × total |
| Calculations.MonthsActiveAtMost24 | analytics/calculations.py:147 | 730 days are at most 24 months of 30.44 days |
| Calculations.ProjectionAtLeastTotal | analytics/calculations.py:147-154 | over at most 730 days (under 24 average months) the projection is at least the total |
| Calculations.CustomerLifetimeValue | analytics/calculations.py:119-159 | CLV is never negative, and 0.0 when the customer has no succeeded charge |
| Calculations.CustomerChargesAppend | analytics/calculations.py:123-129 | the customer filter distributes over concatenation |
| Calculations.CustomerChargesNone | analytics/calculations.py:123-129 | charges of other customers or other statuses are all dropped |
| Calculations.ClvIgnoresOtherCharges | analytics/calculations.py:123-129 | charges of other customers around the input never change the CLV |
| Calculations.ClvAtLeastTotal | tests/unit/analytics/test_calculations.py:80-97 | with two or more charges spread over at most 730 days, CLV ≥ total paid, the projection promised to exceed what was spent |
| Calculations.ClvAtMostTwentyFourTimesTotal | analytics/calculations.py:142-156 | with two or more charges, CLV ≤ 24 × total paid (the total is whole cents, so rounding cannot push past it) |
| Calculations.TotalIsWholeCents | analytics/calculations.py:135 | the total revenue is a whole number of cents, so rounding it to two decimals keeps it |
| Calculations.ClvSingleCharge | analytics/calculations.py:138-139 | with one charge, CLV is that charge's dollar amount |
| Calculations.ClvFiltersCustomer | analytics/calculations.py:119-139 | a $10 charge of the customer beside another customer's charge gives 10.0 |
| Calculations.MonthTotals | analytics/calculations.py:168-174 | every monthly total is non-negative |
| Calculations.MonthRevenue | analytics/calculations.py:168-174 | the revenue of one month is non-negative |
| Calculations.MonthKeysMatchTotals | analytics/calculations.py:168-174 | the month keys are distinct and are exactly the months with totals |
| Calculations.MonthTotalsDomain | analytics/calculations.py:169-173 | a month has a total exactly when some succeeded charge falls in it |
| Calculations.MonthTotalsAreMonthRevenue | analytics/calculations.py:168-174 | each total is the sum over that month's succeeded charges |
| Calculations.MonthRevenueAbsent | analytics/calculations.py:170 | a month without succeeded charges has revenue 0 |
| Calculations.GroupByMonth | analytics/calculations.py:168-174 | the grouping loop builds exactly the month keys and totals |
| Calculations.InsertSortedSorts | analytics/calculations.py:181 | inserting into a sorted list keeps it sorted |
| Calculations.InsertSortedPermutes | analytics/calculations.py:181 | inserting adds exactly one occurrence of the element and changes nothing else |
| Calculations.SortInts | analytics/calculations.py:181 | the months come out sorted and as a permutation of the input |
| Calculations.SortedLastIsLatest | analytics/calculations.py:181-199 | the last sorted month is the latest month present |
| Calculations.Revenues | analytics/calculations.py:182 | one revenue per month, read from the totals |
| Calculations.RevenuesNonNegative | analytics/calculations.py:182 | revenues read from non-negative totals are non-negative |
| Calculations.CollectGrowthRates | analytics/calculations.py:190-194 | the loop collects the growth rates of the transitions from a positive month |
| Calculations.GrowthRatesAtLeastMinusOne | analytics/calculations.py:192-194 | for non-negative revenues no growth rate is below −1 |
| Calculations.SumAtLeast | analytics/calculations.py:196 | a sum of n values each ≥ lo is ≥ n × lo |
| Calculations.AverageGrowthAtLeastMinusOne | analytics/calculations.py:185-196 | the average growth is at least −1 |
| Calculations.FlatHistoryHasNoGrowth | analytics/calculations.py:185-196 | a constant positive history has zero average growth |
| Calculations.ProjectMonths | analytics/calculations.py:202-219 | exactly `months_ahead` entries, the forecasts 1, 2, ... months ahead in order |
| Calculations.ProjectedForecasts | analytics/calculations.py:202-219 | entry j of the projection is the forecast j + 1 months ahead: its month, its compounded revenue rounded to cents and its confidence |
| Calculations.ForecastRevenue | analytics/calculations.py:161-224 | [] with fewer than two months; otherwise `months_ahead` entries projected from the latest month and the average growth |
| Calculations.ShiftMonth | analytics/calculations.py:208-213 | the year and month i months after the latest month are those of its month index plus i: the year rolls over after December |
| Calculations.Confidence | analytics/calculations.py:218 | never below 0.5; 0.9 − 0.1 × i up to i = 4 and 0.5 from there on |
| Calculations.ConfidenceSchedule | analytics/calculations.py:218 | confidence is 0.8, 0.7, 0.6 and then 0.5; strictly decreasing up to 4; never below 0.5 |
| Calculations.ForecastNonNegative | analytics/calculations.py:204-205 | with growth ≥ −1 the forecast is never negative |
| Calculations.FlatForecast | analytics/calculations.py:204-217 | with zero growth every forecast is the rounded last revenue |
| Calculations.ForecastOfChargesNonNegative | analytics/calculations.py:161-219 | every forecast computed from charges is non-negative |
| Calculations.ForecastStartsAtLatestMonth | analytics/calculations.py:181-199 | the forecast counts from the latest month of a succeeded charge |
| Fees.FeeBounds | analytics/fees.py:29-45 | fees are non-negative; an ACH or bank fee is at most 5.00; the card fees are at least 0.30 |
| Fees.FeeFor | analytics/fees.py:29-45 | the first matching rule of the lower-cased label: "amex" gives 3.5% + $0.30; otherwise "ach" or "bank" gives 0.8% capped at $5.00; otherwise "international" gives 3.9% + $0.30; otherwise the standard card rate 2.9% + $0.30; for a non-negative amount the fee lies between 0 and the international rate |
| Fees.AchDebitGetsBankRate | analytics/fees.py:37-39 | an `ach_debit` charge pays min(5.00, 0.8%) |
| Fees.AmexBrandGetsAmexRate | analytics/fees.py:34-36 | a card whose brand contains "amex" pays 3.5% + 0.30 |
| Fees.VisaGetsStandardRate | analytics/fees.py:43-45 | a plain visa card pays 2.9% + 0.30 |
| Fees.Succeeded | analytics/fees.py:21-22 | the succeeded charges are never more than the input |
| Fees.SucceededIgnoresOthers | analytics/fees.py:22 | charges that did not succeed never change the figures |
| Fees.FeeEntries | analytics/fees.py:47-53 | one fee entry per succeeded charge |
| Fees.CountEntries | analytics/fees.py:54 | one count entry per succeeded charge |
| Fees.RevenueEntries | analytics/fees.py:55 | one revenue entry per succeeded charge |
| Fees.CountEntriesTotal | analytics/fees.py:23-54 | the per-method counts add up to the number of succeeded charges |
| Fees.FeeEntriesTotal | analytics/fees.py:47 | total fees are never negative |
| Fees.FeeTallyStep | analytics/fees.py:21-55 | one loop step keeps totals and per-method breakdown equal to the sums over the charges read |
| Fees.FeeTotalsStep | analytics/fees.py:24-47 | the fee and revenue totals after one more charge are the sums over the charges read |
| Fees.AccumulatedTally | analytics/fees.py:21-55 | accumulating one charge at a time keeps every total and every per-method row equal to the sums over the charges read |
| Fees.RecordCharge | analytics/fees.py:23-55 | the loop body for one succeeded charge performs exactly one accumulation step |
| Fees.AccumulateFees | analytics/fees.py:16-55 | after the loop, count, totals and per-method breakdown are the sums over the succeeded charges |
| Fees.RecommendationsExact | analytics/fees.py:62-68 | each recommendation appears exactly when its condition holds, at most once, at most three |
| Fees.Recommendations | analytics/fees.py:62-68 | at most three recommendations, and none exactly when fees are at most 3.5%, no label mentions amex and there are at most 100 charges |
| Fees.Recommend | analytics/fees.py:62-68 | the recommendation code builds exactly that list |
| Fees.AverageFeeBounds | analytics/fees.py:59 | the average fee is between 0 and the total, and times the count gives the total |
| Fees.CalculateStripeFees | analytics/fees.py:3-78 | all zeros for no charges; otherwise rounded totals and ratios of the succeeded charges, a per-method breakdown summing to them, and the recommendations |
| StripeService.FilterCharges | app_original.py:70-88 | the loop keeps, in order, the charges whose status is selected and whose dollar amount is in the inclusive range |
| StripeService.KeptMembers | services/stripe_service.py:48-61 | a charge is kept exactly when it is an input charge that passes; never more than the input |
| StripeService.KeptAppend | services/stripe_service.py:48-61 | filtering preserves order: it distributes over concatenation |
| StripeService.FilterChargesData | services/stripe_service.py:30-61 | an empty selection means the fifteen known statuses; otherwise the same loop |
| StripeService.EmptySelectionKeepsKnownStatuses | services/stripe_service.py:37-46 | with no selection exactly the charges in a known status and in range are kept |
| StripeService.EmptySelectionKeepsNothing | app_original.py:70-88 | the single-file version keeps nothing when no status is selected |
| StripeService.DetailedPaymentMethod | services/stripe_service.py:140-178 | "Unknown" with neither details nor a source; "Card" for a card without a brand; fixed labels for ACH and SEPA debits; without details, the title-cased source brand, else "Card" for a card source, else "Unknown" |
| StripeService.WalletSuffix | services/stripe_service.py:150-160 | the wallet is always shown in parentheses after a space |
| StripeService.CardLabelShape | services/stripe_service.py:148-161 | a branded card's label is the title-cased brand followed by the wallet suffix |
| StripeService.CardLabelStartsWithBrand | services/stripe_service.py:148-161 | a branded card's label starts with the title-cased brand, and is exactly that without a wallet |
| StripeService.OtherTypeLabel | services/stripe_service.py:168-169 | any other type is shown with '_' turned into spaces, title-cased |
| Formatters.ProductInfoForChart | utils/formatters.py:1-22 | `product_name`, then `product`, then `item_name` metadata; else a non-generic description; else the statement descriptor; else "Payment" |
| Formatters.ProductInfoIsFirstCandidate | utils/formatters.py:1-22 | the label is the first available candidate of the priority list |
| Formatters.PaymentOnlyAsLastResort | utils/formatters.py:22 | when only the fallback is available, the label is "Payment" and no metadata name, usable description or descriptor exists |
| Formatters.GenericDescriptionIgnoresCase | utils/formatters.py:15 | the "payment for" test ignores case |
| Formatters.CustomerNameForExport | utils/formatters.py:24-37 | "Guest" without a customer; an expanded customer's truthy name, else its truthy email, else "Guest"; the full id for a string id; never empty |
| Transactions.DefaultStart | dashboard/transactions.py:17-25 | the oldest date when the span is at most 30 days; newest − span days for 31 to 90 days; newest − 90 days beyond 90 days |
| Transactions.DefaultStartWithinRange | dashboard/transactions.py:19-25 | the default start lies between the oldest and newest dates and at most 90 days before the newest |
| Transactions.WithoutSucceeded | dashboard/transactions.py:114 | exactly the statuses other than "succeeded" remain |
| Transactions.WithoutSucceededAbsent | dashboard/transactions.py:114 | a list without "succeeded" is unchanged |
| Transactions.OtherOnlyIsRest | dashboard/transactions.py:98-114 | "succeeded" comes first among the known statuses, only there, and "Other Only" is the rest |
| Transactions.FilterOptionsPartition | dashboard/transactions.py:98-114 | "Succeeded Only" and "Other Only" partition "All Transactions" |
| Transactions.StatusFilterFor | dashboard/transactions.py:109-114 | all known statuses, only "succeeded", or exactly the known statuses other than "succeeded" |
| Transactions.SucceededRevenue | dashboard/transactions.py:153 | the revenue is never negative |
| Transactions.SucceededRevenueAppend | dashboard/transactions.py:153 | the revenue of a concatenation is the sum of the parts' revenue |
| Transactions.SucceededRevenueIgnoresOthers | dashboard/transactions.py:153 | charges that did not succeed add no revenue |
| Transactions.Metrics | dashboard/transactions.py:153-155 | count = all filtered; revenue = succeeded only; average × count = revenue, or 0 with nothing filtered |
| Transactions.CustomerName | dashboard/transactions.py:190-202 | "Guest" without a customer; an expanded customer's truthy name, else its truthy email, else "Guest"; the last 8 chars of a string id |
| Transactions.CustomerNameMatchesExport | dashboard/transactions.py:190-202 | the displayed name is the export name, cut to its last 8 chars for an id |
| Transactions.BasicProductCategory | dashboard/transactions.py:204-224 | an invoice means "Subscription Update"; otherwise any payment-link metadata key means "Payment Link"; always one of the three categories |
| Transactions.BasicProductCategoryCases | dashboard/transactions.py:210-224 | without invoice or payment-link metadata the description decides: "payment link" gives "Payment Link"; otherwise "subscription" gives "Subscription Update"; otherwise, or with no description, "Payment"; "Subscription Update" only from a subscription mention |
| CustomerData.WithTag | models/customer_data.py:59-60 | the tag is present, appended at the end only when it was absent |
| CustomerData.WithTagKeepsDistinct | models/customer_data.py:59-60 | adding keeps the list duplicate-free and is idempotent |
| CustomerData.RemoveFirst | models/customer_data.py:69 | removal takes away exactly one occurrence |
| CustomerData.RemoveFirstDistinct | models/customer_data.py:68-69 | on a duplicate-free list the tag is gone and every other tag stays |
| CustomerData.RemoveFirstSkips | models/customer_data.py:69 | removal leaves any prefix without the tag untouched |
| CustomerData.RemoveAfterAdd | models/customer_data.py:53-70 | removing a freshly added tag restores the list |
| CustomerData.TaggedExactly | models/customer_data.py:96-103 | the search result holds exactly the tagged customers, once each |
| CustomerData.TagStore.constructor | models/customer_data.py:27-38 | the default store: empty maps and the four tag definitions |
| CustomerData.TagStore.CustomerTags | models/customer_data.py:86-89 | [] for an unknown customer |
| CustomerData.TagStore.CustomerNotes | models/customer_data.py:91-94 | [] for an unknown customer |
| CustomerData.TagStore.AddCustomerTag | models/customer_data.py:53-63 | the customer's list gains the tag with no duplicates; everything else unchanged; always saved |
| CustomerData.TagStore.AddCustomerTagIfNew | app_original.py:1177-1185 | the same change, saved only when the tag was appended |
| CustomerData.TagStore.RemoveCustomerTag | models/customer_data.py:65-70 | removes one occurrence and saves only when customer and tag exist; otherwise nothing changes |
| CustomerData.TagStore.AddCustomerNote | models/customer_data.py:72-84 | exactly one note by "Dashboard User" is appended; always saved |
| CustomerData.TagStore.SearchCustomersByTag | models/customer_data.py:96-103 | the loop returns exactly the customers whose tags contain the tag, in key order, once each |
| CustomerData.AddTagVersionsAgree | app_original.py:1177-1185 | both versions of adding leave the same data; they differ only by one save when the tag was present |
| CacheService.IntText | services/cache_service.py:11 | a hash is written with a leading '-' exactly when negative |
| CacheService.IntTextInjective | services/cache_service.py:11 | different hashes are written differently |
| CacheService.CacheKey | services/cache_service.py:11 | the key starts with the function name and '_' |
| CacheService.CacheKeyInjective | services/cache_service.py:11 | one function never shares a key between two hashes |
| CacheService.CachedCall | services/cache_service.py:10-22 | a hit exactly when fresh (younger than the ttl), returning the stored value; otherwise the fetched value is stored and returned; no other key changes |
| CacheService.RepeatedCallHits | services/cache_service.py:14-22 | a repeat call within the ttl is a hit that returns the same value |
| CacheService.FetchKeysAreCleared | services/cache_service.py:26-30 | every key of the three fetch functions is one that clearing removes |
| CacheService.FetchAfterClearMisses | services/cache_service.py:26-30 | after clearing, the next fetch always runs |
| CacheService.SessionCache.constructor | services/cache_service.py:14 | the session starts with no cached entries |
| CacheService.SessionCache.Call | services/cache_service.py:10-22 | one wrapped call changes the cache as the hit/miss rule says |
| CacheService.SessionCache.ClearStripeCache | services/cache_service.py:26-30 | exactly the keys with the three fetch prefixes are removed; the rest keep their values |
| PdfExport.Spaced | exports/pdf_export.py:38 | a non-empty group of words ends with a space |
| PdfExport.Texts | exports/pdf_export.py:40-44 | one drawn string per wrapped line |
| PdfExport.WrapGroupNonEmpty | exports/pdf_export.py:36-42 | after any word the current line is non-empty |
| PdfExport.LineTextsNonEmpty | exports/pdf_export.py:34-45 | every summary line draws at least one string, even an empty line |
| PdfExport.WrapKeepsWords | exports/pdf_export.py:36-42 | words are never split, dropped or reordered |
| PdfExport.WrapLinesShort | exports/pdf_export.py:37 | every wrapped line of two or more words passed the length test |
| PdfExport.SharedLinesFit | exports/pdf_export.py:37-40 | a drawn string of two or more words is shorter than 80 characters |
| PdfExport.WrapKeepsFirstLine | exports/pdf_export.py:36-42 | a first word of 80 or more characters flushes an empty line first |
| PdfExport.LongFirstWordDrawsEmpty | exports/pdf_export.py:36-42 | such a line draws an empty string before the word |
| PdfExport.TextsAt | exports/pdf_export.py:40-44 | each drawn string is its word group, spaced and stripped |
| PdfExport.Draws | exports/pdf_export.py:40-45 | one draw per string |
| PdfExport.DrawsAt | exports/pdf_export.py:40-45 | the k-th string is drawn at the left margin, 15 × k below the start |
| PdfExport.AddWord | exports/pdf_export.py:36-42 | one pass of the word loop moves the loop variables exactly one wrap step on |
| PdfExport.FlushLine | exports/pdf_export.py:43-45 | after the word loop the ops are the draws of all wrapped lines and y is 15 lower per string |
| PdfExport.DrawWords | exports/pdf_export.py:34-45 | the word loop draws exactly the wrapped lines and lowers y by 15 per string |
| PdfExport.DrawLine | exports/pdf_export.py:34-45 | one summary line is split into words and drawn wrapped |
| PdfExport.LineStart | exports/pdf_export.py:30-32 | a line never starts below y = 100: a page break resets y to height − 100 |
| PdfExport.DrawSummaryLine | exports/pdf_export.py:29-45 | one step of the line loop: page break if needed, then the wrapped line |
| PdfExport.DrawSummary | exports/pdf_export.py:27-45 | the line loop produces the summary layout |
| PdfExport.DrawnOnPageAppend | exports/pdf_export.py:40-45 | drawing adds one string to the current page per text and no page break |
| PdfExport.SummaryY | exports/pdf_export.py:28-45 | y is the current page's top minus 15 per string drawn on that page |
| PdfExport.MetricTexts | exports/pdf_export.py:54-55 | one "metric: value" text per metric, in order |
| PdfExport.MetricsLayout | exports/pdf_export.py:47-56 | the heading 30 below the summary, then metric k drawn 50 + 15 × k below it |
| PdfExport.DrawMetrics | exports/pdf_export.py:54-56 | the metric loop draws exactly those texts |
| PdfExport.DrawReport | exports/pdf_export.py:13-56 | header, wrapped summary, then the metrics, as the report layout says |
| PdfExport.CreatePdfReport | exports/pdf_export.py:7-59 | the summary text is split on newlines and the report drawn from it |
| AppOriginal.ItemsData | app_original.py:851-885 | embedded list, else looked-up items, else a single legacy-plan item with the subscription's quantity (or 1), else the items from the subscription-items call ([] when it fails) |
| AppOriginal.ItemsDataAgreesOnListObjects | app_original.py:851-885 | on list objects it agrees with the helper normaliser |
| AppOriginal.LegacyPlanItem | app_original.py:869-875 | a legacy plan becomes one item priced by the plan, quantity defaulting to 1 |
| AppOriginal.CalculateMrrArr | app_original.py:323-417 | the same contribution loop with this normaliser and price lookups; ARR = MRR × 12 |
| AppOriginal.MrrAgreesOnListObjects | app_original.py:323-417 | on list objects both MRR versions agree |
| AppOriginal.AmountText | app_original.py:887-925 | "$" followed by at least "0.00" |
| AppOriginal.AmountCents | app_original.py:887-925 | 0 without items or a usable price; otherwise the unit or legacy cents times the quantity, 0 when neither is set |
| AppOriginal.AmountTextRoundTrip | app_original.py:887-925 | the text has two decimals and parses back to the amount in cents |
| AppOriginal.AmountTextZero | app_original.py:887-925 | missing data gives "$0.00" |
| AppOriginal.AmountMatchesHelper | app_original.py:887-925 | the amount agrees with the helper amount on list objects |
| AppOriginal.IntervalTextMatchesHelper | app_original.py:927-953 | same interval as the helper, except "N/A" where the helper says "month" |
| AppOriginal.IntervalText | app_original.py:927-953 | "N/A" without items or a usable price; otherwise the recurring or legacy interval, "N/A" when neither is set |
| AppOriginal.StatusInfoText | app_original.py:955-1008 | "Cancels" and the date for a scheduled cancellation; else a pause gives "Paused until" its date or "Paused indefinitely"; with neither nor a cancellation, the fixed texts for trialing, active, past_due, incomplete, incomplete_expired and unpaid |
| AppOriginal.StatusInfoTextFallback | app_original.py:979-1008 | an unknown status is shown title-cased |
| AppOriginal.CancelAtWins | app_original.py:958-961 | with `cancel_at` set, nothing else matters |
| AppOriginal.CanceledBeforePause | app_original.py:963-969 | a cancellation is "Canceled", with an end date exactly when the period end is set |
| AppOriginal.PauseHidesStatus | app_original.py:971-977 | without a cancellation, the same pause gives the same text whatever the status, and it starts with "Paused" |
| AppOriginal.FixedStatusTextsDistinct | app_original.py:995-1005 | past_due, incomplete, incomplete_expired and unpaid are told apart by their texts |

## Left out

- Stripe, Anthropic and Google calls are not part of this model. Fetched records arrive as inputs. A price retrieval and a subscription-item listing become function parameters (`resolve`, `listed`, `fromMethod`).
- `get_detailed_product_info` (dashboard/transactions.py:226-344, analytics/charts.py:40-156) and the plan name of app_original.py:1010-1084 are left out, because they depend on Stripe lookups and a session cache.
- Streamlit rendering, session widgets, authentication, the plotly figures, and the Excel and Sheets exports are left out. Of the chart builders only the tallies of `create_subscription_charts` are modelled.
- JSON load and save of the tag store are left out. The store's fields are the loaded data, and `saves` counts the saves. A failed save and a damaged file are not modelled.
- Transaction tags and notes and the tag definitions are carried along unchanged; no core operation writes them.
- Clock readings (`time.time()`, `datetime.now()`) are parameters. Calendar dates use UTC integer arithmetic; the local time zone and DST are ignored.
- Money.Round2: Python's binary floats and their round-half-even are replaced by exact reals with half-up rounding.
- Records.Quantity: an item whose quantity is `None` counts as quantity 1. Python would raise a TypeError at the multiplication instead. In `get_subscription_amount` of utils/helpers.py:44-50 and analytics/charts.py:316-340 a handler catches it and returns 0.0. `calculate_mrr_arr` (analytics/calculations.py:56-62, app_original.py:373-379) has no handler, so the whole MRR computation fails there, while the model computes a value.
- Calculations.ItemAmount: a `unit_amount_decimal` attribute that is present but `None` is treated like a missing one and gives 0.0. At analytics/calculations.py:62 and app_original.py:379, `float(None)` raises a TypeError, and the MRR computation fails.
- Text.Title and Text.Lower: `str.title()` and `str.lower()` act on ASCII letters only.
- Text.Strip: `str.strip()` removes the ASCII whitespace characters only, not the other Unicode whitespace Python also strips.
- Helpers.Interval: a legacy `interval` attribute that is present but holds `None` is returned as `None` by utils/helpers.py:72-73; the model reads it as absent (`Records.RawInterval` gives `None`) and falls back to "month".
- Helpers.PriceName: an expanded product whose `name` attribute holds `None` is not modelled. Python returns that `None` as the plan name; the model's `ProductObject(None)` stands for a product without a `name` attribute, which falls through to the nickname.
- CacheService.CacheKey: Python's `hash()` of the arguments is an input, and the session state holds only the cache entries.
- The exception fallbacks (`except Exception: return …`) are left out, because every input here is a well-formed record. This also covers the year range of `datetime`.
- `debug_info` in the MRR loop has no effect on results and is left out.
- AppOriginal.IntervalText: when the price's `recurring` object is falsy and its legacy `interval` attribute holds `None`, app_original.py:950-951 returns `None`; the model reads that interval as absent and returns "N/A".
- `unit_amount_decimal` arrives already parsed as a number.
- PdfExport.CreatePdfReport: only the sequence of canvas operations is modelled, not the PDF bytes. Positions are integers, the generation time is an input text, and metric values arrive already rendered as text.
- The single-file copies of the product label, export customer name, payment-method label and cache in app_original.py match the module versions line for line. They are modelled once.

=== FILE: app_original.dfy ===
/**
 * The subscription helpers of the single-file dashboard (app_original.py),
 * which the live Subscriptions tab uses: its four-step item lookup, the
 * recurring-revenue loop run over it, and the display strings for a
 * subscription's amount, interval and status.
 */
module AppOriginal {
  import opened Wrappers
  import opened Records
  import Money
  import Text
  import Calendar
  import Helpers
  import Calculations

  /**
   * `get_subscription_items_data` of app_original.py, in its order: the
   * expanded `items.data` (even when empty); else the items returned by
   * `stripe.SubscriptionItem.list` for the subscription, when non-empty
   * (`listed`, empty when the call fails); else a single item built from a
   * legacy `plan`, with the subscription's quantity or 1; else the items of
   * `list_subscription_items` (`fromMethod`, empty when that call fails);
   * else nothing.
   */
  function ItemsData(sub: Subscription, listed: seq<Item>, fromMethod: seq<Item>): (items: seq<Item>)
    ensures sub.items.ItemList? ==> items == sub.items.data
    ensures !sub.items.ItemList? && listed != [] ==> items == listed
    ensures !sub.items.ItemList? && listed == [] && sub.plan.Some? ==>
      items == [Item(PriceObject(sub.plan.value), Some(sub.quantity.GetOr(1)))]
    ensures !sub.items.ItemList? && listed == [] && sub.plan.None? ==> items == fromMethod
  {
    if sub.items.ItemList? then sub.items.data
    else if listed != [] then listed
    else if sub.plan.Some? then [Item(PriceObject(sub.plan.value), Some(sub.quantity.GetOr(1)))]
    else fromMethod
  }

  /**
   * The two item normalisers agree on subscriptions whose items came
   * expanded as a list object; for an items field that is merely iterable
   * the helper module lists its elements while this one falls through to
   * the API and the legacy plan.
   */
  lemma {:induction false} ItemsDataAgreesOnListObjects(sub: Subscription, listed: seq<Item>, fromMethod: seq<Item>)
    ensures sub.items.ItemList? ==> ItemsData(sub, listed, fromMethod) == Helpers.ItemsData(sub)
    ensures sub.items.ItemIterable? && listed != [] ==> ItemsData(sub, listed, fromMethod) == listed
    ensures !sub.items.ItemList? && !sub.items.ItemIterable? ==> Helpers.ItemsData(sub) == []
  {
  }

  /** A legacy plan becomes one item whose quantity is the subscription's, or 1. */
  lemma {:induction false} LegacyPlanItem(sub: Subscription, fromMethod: seq<Item>)
    requires !sub.items.ItemList? && sub.plan.Some?
    ensures var items := ItemsData(sub, [], fromMethod);
      |items| == 1 && items[0].price == PriceObject(sub.plan.value)
      && Quantity(items[0]) == if sub.quantity.Some? then sub.quantity.value else 1
  {
  }

  /**
   * `calculate_mrr_arr` of app_original.py: the same loop as the analytics
   * module, over the items this module's lookup finds; `listed` and
   * `fromMethod` stand for the two item-listing API calls.
   */
  method CalculateMrrArr(subs: seq<Subscription>, listed: Subscription -> seq<Item>,
                         fromMethod: Subscription -> seq<Item>, resolve: string -> Option<Price>)
    returns (mrr: real, arr: real)
    ensures mrr == Calculations.Mrr(subs, s => ItemsData(s, listed(s), fromMethod(s)), resolve)
    ensures arr == mrr * 12.0
  {
    mrr, arr := Calculations.MrrArr(subs, s => ItemsData(s, listed(s), fromMethod(s)), resolve);
  }

  /**
   * On subscriptions whose items are expanded list objects, the two
   * dashboards report the same MRR.
   */
  lemma {:induction false} MrrAgreesOnListObjects(subs: seq<Subscription>, listed: Subscription -> seq<Item>,
                                                  fromMethod: Subscription -> seq<Item>, resolve: string -> Option<Price>)
    requires forall s :: s in subs ==> s.items.ItemList?
    ensures Calculations.Mrr(subs, s => ItemsData(s, listed(s), fromMethod(s)), resolve)
      == Calculations.Mrr(subs, Helpers.ItemsData, resolve)
  {
    if subs != [] {
      var init := subs[..|subs| - 1];
      assert forall s :: s in init ==> s in subs;
      assert subs[|subs| - 1] in subs;
      MrrAgreesOnListObjects(init, listed, fromMethod, resolve);
    }
  }

  /** The price of an item, fetched when it is only an id; None when the item has no price or the fetch fails. */
  function ItemPrice(item: Item, resolve: string -> Option<Price>): Option<Price> {
    match item.price
    case NoPrice => None
    case PriceId(id) => if id == "" then None else resolve(id)
    case PriceObject(p) => Some(p)
  }

  /**
   * The cents behind `get_subscription_amount` of app_original.py: the
   * first item's unit (or legacy) amount times its quantity; 0 when there
   * is no item, no price, a failed fetch or no amount.
   */
  function AmountCents(items: seq<Item>, resolve: string -> Option<Price>): (r: nat)
    ensures items == [] || ItemPrice(items[0], resolve).None? ==> r == 0
    ensures items != [] && ItemPrice(items[0], resolve).Some? ==>
      r == if UnitOrLegacyCents(ItemPrice(items[0], resolve).value).Some?
           then UnitOrLegacyCents(ItemPrice(items[0], resolve).value).value * Quantity(items[0]) else 0
  {
    if items == [] then 0
    else
      match ItemPrice(items[0], resolve)
      case None => 0
      case Some(p) =>
        match UnitOrLegacyCents(p)
        case Some(c) => c * Quantity(items[0])
        case None => 0
  }

  /**
   * `get_subscription_amount` of app_original.py: "$" and the amount with
   * two decimals; every path without an amount gives "$0.00".
   */
  function AmountText(items: seq<Item>, resolve: string -> Option<Price>): (r: string)
    ensures |r| >= 5 && r[0] == '$'
  {
    Money.CentsTextRoundTrip(AmountCents(items, resolve));
    "$" + Money.CentsText(AmountCents(items, resolve))
  }

  /** The amount string is exact: the digits after "$" read back as the amount in cents. */
  lemma {:induction false} AmountTextRoundTrip(items: seq<Item>, resolve: string -> Option<Price>)
    ensures var s := AmountText(items, resolve)[1..];
      && s[|s| - 3] == '.'
      && Text.ParseDecimal(s[..|s| - 3]) * 100 + Text.ParseDecimal(s[|s| - 2..]) == AmountCents(items, resolve)
  {
    var c := AmountCents(items, resolve);
    Money.CentsTextRoundTrip(c);
    assert AmountText(items, resolve)[1..] == Money.CentsText(c);
  }

  /** With nothing to read the text is "$0.00". */
  lemma {:induction false} AmountTextZero(items: seq<Item>, resolve: string -> Option<Price>)
    requires items == [] || ItemPrice(items[0], resolve).None? || UnitOrLegacyCents(ItemPrice(items[0], resolve).value).None?
    ensures AmountText(items, resolve) == "$0.00"
  {
    assert AmountCents(items, resolve) == 0;
    Money.CentsTextZero();
  }

  /**
   * For a subscription whose items are a list object and whose first price
   * is expanded (or missing), the amount shown is the helper module's
   * dollar amount.
   */
  lemma {:induction false} AmountMatchesHelper(sub: Subscription, resolve: string -> Option<Price>)
    requires sub.items.ItemList?
    requires Helpers.FirstItem(sub).None? || !Helpers.FirstItem(sub).value.price.PriceId?
    ensures Money.Dollars(AmountCents(Helpers.ItemsData(sub), resolve)) == Helpers.Amount(sub)
  {
    var items := Helpers.ItemsData(sub);
    if items != [] {
      var q := Quantity(items[0]);
      match UnitOrLegacyCents(if items[0].price.PriceObject? then items[0].price.price else Price(None, None, None, None, None, None, NoProduct, None))
      case Some(c) =>
        if items[0].price.PriceObject? {
          assert Money.Dollars(c * q) == Money.Dollars(c) * q as real;
        }
      case None =>
    }
  }

  /**
   * `get_subscription_interval` of app_original.py: the first price's
   * `recurring.interval`, else its legacy interval, else 'N/A'.
   */
  function IntervalText(items: seq<Item>, resolve: string -> Option<Price>): (r: string)
    ensures items == [] || ItemPrice(items[0], resolve).None? ==> r == "N/A"
    ensures items != [] && ItemPrice(items[0], resolve).Some? ==>
      r == if RawInterval(ItemPrice(items[0], resolve).value).Some? then RawInterval(ItemPrice(items[0], resolve).value).value else "N/A"
  {
    if items == [] then "N/A"
    else
      match ItemPrice(items[0], resolve)
      case None => "N/A"
      case Some(p) => RawInterval(p).GetOr("N/A")
  }

  /**
   * The two interval readers agree whenever a price with an interval is
   * found; otherwise this one shows 'N/A' where the helper module assumes
   * 'month'.
   */
  lemma {:induction false} IntervalTextMatchesHelper(sub: Subscription, resolve: string -> Option<Price>)
    ensures Helpers.FirstPrice(sub).Some? && RawInterval(Helpers.FirstPrice(sub).value).Some? ==>
      IntervalText(Helpers.ItemsData(sub), resolve) == Helpers.Interval(sub)
    ensures Helpers.FirstPrice(sub).Some? && RawInterval(Helpers.FirstPrice(sub).value).None? ==>
      IntervalText(Helpers.ItemsData(sub), resolve) == "N/A" && Helpers.Interval(sub) == "month"
    ensures Helpers.ItemsData(sub) == [] ==>
      IntervalText(Helpers.ItemsData(sub), resolve) == "N/A" && Helpers.Interval(sub) == "month"
  {
  }

  /** Neither a scheduled cancellation, a cancellation nor a pause is set. */
  predicate Unheld(sub: Subscription) {
    !TruthyNumber(sub.cancelAt) && !TruthyNumber(sub.canceledAt) && sub.pauseCollection.None?
  }

  /**
   * `get_subscription_status_info` of app_original.py: a scheduled
   * cancellation wins, then a cancellation, then a pause, then the text for
   * the status; dates are shown as `'%Y-%m-%d'`.
   */
  function StatusInfoText(sub: Subscription): (r: string)
    ensures TruthyNumber(sub.cancelAt) ==> r == "Cancels " + Calendar.DateText(sub.cancelAt.value)
    ensures !TruthyNumber(sub.cancelAt) && !TruthyNumber(sub.canceledAt) && sub.pauseCollection.Some? ==>
      r == if TruthyNumber(sub.pauseCollection.value.resumesAt)
           then "Paused until " + Calendar.DateText(sub.pauseCollection.value.resumesAt.value)
           else "Paused indefinitely"
    ensures Unheld(sub) && sub.status == "trialing" ==>
      r == if TruthyNumber(sub.trialEnd) then "Trial ends " + Calendar.DateText(sub.trialEnd.value) else "In trial"
    ensures Unheld(sub) && sub.status == "active" ==>
      r == if TruthyNumber(sub.currentPeriodEnd) then "Next billing " + Calendar.DateText(sub.currentPeriodEnd.value)
           else "Active (ongoing)"
    ensures Unheld(sub) && sub.status == "past_due" ==> r == "Payment failed"
    ensures Unheld(sub) && sub.status == "incomplete" ==> r == "Setup incomplete"
    ensures Unheld(sub) && sub.status == "incomplete_expired" ==> r == "Setup expired"
    ensures Unheld(sub) && sub.status == "unpaid" ==> r == "Unpaid"
  {
    if TruthyNumber(sub.cancelAt) then "Cancels " + Calendar.DateText(sub.cancelAt.value)
    else if TruthyNumber(sub.canceledAt) then
      if TruthyNumber(sub.currentPeriodEnd) then "Canceled, ends " + Calendar.DateText(sub.currentPeriodEnd.value)
      else "Canceled"
    else if sub.pauseCollection.Some? then
      var resumes := sub.pauseCollection.value.resumesAt;
      if TruthyNumber(resumes) then "Paused until " + Calendar.DateText(resumes.value)
      else "Paused indefinitely"
    else if sub.status == "trialing" then
      if TruthyNumber(sub.trialEnd) then "Trial ends " + Calendar.DateText(sub.trialEnd.value) else "In trial"
    else if sub.status == "active" then
      if TruthyNumber(sub.currentPeriodEnd) then "Next billing " + Calendar.DateText(sub.currentPeriodEnd.value)
      else "Active (ongoing)"
    else if sub.status == "past_due" then "Payment failed"
    else if sub.status == "incomplete" then "Setup incomplete"
    else if sub.status == "incomplete_expired" then "Setup expired"
    else if sub.status == "unpaid" then "Unpaid"
    else Text.Title(sub.status)
  }

  /**
   * A pause is reported ahead of the status: two subscriptions without a
   * cancellation and with the same pause show the same text whatever their
   * status or other dates, and that text starts with "Paused".
   */
  lemma {:induction false} PauseHidesStatus(a: Subscription, b: Subscription)
    requires !TruthyNumber(a.cancelAt) && !TruthyNumber(a.canceledAt) && a.pauseCollection.Some?
    requires !TruthyNumber(b.cancelAt) && !TruthyNumber(b.canceledAt) && a.pauseCollection == b.pauseCollection
    ensures StatusInfoText(a) == StatusInfoText(b)
    ensures Text.StartsWith(StatusInfoText(a), "Paused")
  {
    var r := StatusInfoText(a);
    assert r[..6] == "Paused";
  }

  /** The four statuses with a fixed text are told apart by that text. */
  lemma {:induction false} FixedStatusTextsDistinct(a: Subscription, b: Subscription)
    requires Unheld(a) && Unheld(b)
    requires a.status in {"past_due", "incomplete", "incomplete_expired", "unpaid"}
    requires b.status in {"past_due", "incomplete", "incomplete_expired", "unpaid"}
    ensures StatusInfoText(a) == StatusInfoText(b) <==> a.status == b.status
  {
  }

  /** The statuses with a fixed text of their own. */
  const NamedStatuses: set<string> := {"trialing", "active", "past_due", "incomplete", "incomplete_expired", "unpaid"}

  /**
   * Once no cancellation or pause is set, the text depends on the status
   * (and its dates) only: any other status, "canceled" included, is shown
   * title-cased, which up to letter case is the status itself.
   */
  lemma {:induction false} StatusInfoTextFallback(sub: Subscription)
    requires !TruthyNumber(sub.cancelAt) && !TruthyNumber(sub.canceledAt) && sub.pauseCollection.None?
    requires sub.status !in NamedStatuses
    ensures StatusInfoText(sub) == Text.Title(sub.status)
    ensures Text.Lower(StatusInfoText(sub)) == Text.Lower(sub.status)
  {
    Text.LowerTitle(sub.status);
  }

  /**
   * A scheduled cancellation hides everything else: two subscriptions with
   * the same truthy `cancel_at` show the same text whatever their status,
   * pause or other dates.
   */
  lemma {:induction false} CancelAtWins(a: Subscription, b: Subscription)
    requires TruthyNumber(a.cancelAt) && a.cancelAt == b.cancelAt
    ensures StatusInfoText(a) == StatusInfoText(b)
  {
  }

  /**
   * A cancellation without a scheduled date is reported ahead of a pause
   * and the status, with the period end when there is one.
   */
  lemma {:induction false} CanceledBeforePause(sub: Subscription)
    requires !TruthyNumber(sub.cancelAt) && TruthyNumber(sub.canceledAt)
    ensures Text.StartsWith(StatusInfoText(sub), "Canceled")
    ensures TruthyNumber(sub.currentPeriodEnd) <==> StatusInfoText(sub) != "Canceled"
  {
    var r := StatusInfoText(sub);
    if TruthyNumber(sub.currentPeriodEnd) {
      assert r == "Canceled, ends " + Calendar.DateText(sub.currentPeriodEnd.value);
      assert r[..8] == "Canceled";
      assert |r| > 8;
    }
  }
}

=== FILE: cache_service.dfy ===
/**
 * The time-limited memo cache wrapped around the Stripe fetch functions
 * (services/cache_service.py, copied in app_original.py). Cached results live
 * in the session state under a key built from the function's name and a hash
 * of its arguments, each paired with the time it was stored.
 */
module CacheService {
  import Text

  /** The default lifetime of a cached result, in seconds (config/settings.py). */
  const DefaultTtlSeconds: real := 300.0

  /** A cached result and the clock reading taken when it was stored. */
  datatype Entry<V> = Entry(value: V, storedAt: real)

  /** `str(h)` for a Python integer: an optional minus sign and the digits. */
  function IntText(h: int): (r: string)
    ensures r != [] && (r[0] == '-' <==> h < 0)
  {
    if h < 0 then "-" + Text.Decimal(-h) else Text.Decimal(h)
  }

  /** The number `IntText` wrote, read back from its digits and sign. */
  lemma {:induction false} IntTextReadBack(h: int)
    ensures h < 0 ==> IntText(h)[1..] == Text.Decimal(-h) && Text.ParseDecimal(IntText(h)[1..]) == -h
    ensures h >= 0 ==> Text.ParseDecimal(IntText(h)) == h
  {
    if h < 0 {
      Text.ParseDecimalRoundTrip(-h);
    } else {
      Text.ParseDecimalRoundTrip(h);
    }
  }

  /** Different integers are written differently. */
  lemma {:induction false} IntTextInjective(a: int, b: int)
    requires IntText(a) == IntText(b)
    ensures a == b
  {
    IntTextReadBack(a);
    IntTextReadBack(b);
  }

  /**
   * The cache key of one call: the function's name, '_' and the argument
   * hash. The hash itself comes from Python's `hash()` and is an input here.
   */
  function CacheKey(funcName: string, argsHash: int): (key: string)
    ensures Text.StartsWith(key, funcName + "_")
  {
    assert (funcName + "_" + IntText(argsHash))[..|funcName| + 1] == funcName + "_";
    funcName + "_" + IntText(argsHash)
  }

  /** One function keeps one slot per argument hash: different hashes never share a key. */
  lemma {:induction false} CacheKeyInjective(funcName: string, a: int, b: int)
    requires CacheKey(funcName, a) == CacheKey(funcName, b)
    ensures a == b
  {
    var n := |funcName| + 1;
    assert CacheKey(funcName, a)[n..] == IntText(a);
    assert CacheKey(funcName, b)[n..] == IntText(b);
    IntTextInjective(a, b);
  }

  /** A stored result is still served when it is younger than `ttl` seconds. */
  predicate Fresh<V>(entries: map<string, Entry<V>>, key: string, ttl: real, now: real) {
    key in entries && now - entries[key].storedAt < ttl
  }

  /** What one call through the wrapper returns, whether it ran the function, and the new cache. */
  datatype Outcome<V> = Outcome(result: V, called: bool, entries: map<string, Entry<V>>)

  /**
   * One call through the wrapper: a fresh entry is returned as it is;
   * otherwise `fetched` (the wrapped function's result) is stored under the
   * key with the second clock reading `storedAt` and returned.
   */
  function CachedCall<V>(entries: map<string, Entry<V>>, key: string, ttl: real, now: real,
                         storedAt: real, fetched: V): (o: Outcome<V>)
    ensures o.called <==> !Fresh(entries, key, ttl, now)
    ensures !o.called ==> o.entries == entries && o.result == entries[key].value
    ensures key in o.entries && o.entries[key].value == o.result
    ensures o.called ==> o.result == fetched && o.entries[key] == Entry(fetched, storedAt)
    ensures forall k :: k != key ==> (k in o.entries <==> k in entries)
    ensures forall k :: k != key && k in entries ==> o.entries[k] == entries[k]
  {
    if Fresh(entries, key, ttl, now) then Outcome(entries[key].value, false, entries)
    else Outcome(fetched, true, entries[key := Entry(fetched, storedAt)])
  }

  /**
   * A second call with the same key, made less than `ttl` seconds after the
   * first one stored its result, is served from the cache and returns the
   * same value without running the function.
   */
  lemma {:induction false} RepeatedCallHits<V>(entries: map<string, Entry<V>>, key: string, ttl: real,
                            now1: real, stored1: real, fetched1: V,
                            now2: real, stored2: real, fetched2: V)
    requires now2 - stored1 < ttl
    ensures var first := CachedCall(entries, key, ttl, now1, stored1, fetched1);
      var second := CachedCall(first.entries, key, ttl, now2, stored2, fetched2);
      first.called ==> !second.called && second.result == first.result && second.entries == first.entries
  {
    var first := CachedCall(entries, key, ttl, now1, stored1, fetched1);
    if first.called {
      assert first.entries[key].storedAt == stored1;
      assert Fresh(first.entries, key, ttl, now2);
    }
  }

  /** The prefixes `clear_stripe_cache` removes: the three cached fetch functions. */
  predicate IsStripeKey(key: string) {
    Text.StartsWith(key, "get_stripe_data_")
    || Text.StartsWith(key, "get_customers_data_")
    || Text.StartsWith(key, "get_all_subscriptions_")
  }

  /** Every key the three fetch functions cache under is one that clearing removes. */
  lemma {:induction false} FetchKeysAreCleared(argsHash: int)
    ensures IsStripeKey(CacheKey("get_stripe_data", argsHash))
    ensures IsStripeKey(CacheKey("get_customers_data", argsHash))
    ensures IsStripeKey(CacheKey("get_all_subscriptions", argsHash))
  {
    assert "get_stripe_data" + "_" == "get_stripe_data_";
    assert "get_customers_data" + "_" == "get_customers_data_";
    assert "get_all_subscriptions" + "_" == "get_all_subscriptions_";
  }

  /**
   * After clearing, the next call of a fetch function always runs it,
   * whatever the clock says.
   */
  lemma {:induction false} FetchAfterClearMisses<V>(entries: map<string, Entry<V>>, argsHash: int, ttl: real, now: real)
    requires forall k :: k in entries ==> !IsStripeKey(k)
    ensures !Fresh(entries, CacheKey("get_stripe_data", argsHash), ttl, now)
    ensures !Fresh(entries, CacheKey("get_customers_data", argsHash), ttl, now)
    ensures !Fresh(entries, CacheKey("get_all_subscriptions", argsHash), ttl, now)
  {
    FetchKeysAreCleared(argsHash);
  }

  /** The cached part of the session state. */
  class SessionCache<V> {
    var entries: map<string, Entry<V>>

    constructor ()
      ensures entries == map[]
    {
      entries := map[];
    }

    /**
     * The `cache_stripe_data` wrapper around one call. `now` and `storedAt`
     * are the two clock readings the wrapper takes; `fetched` is what the
     * wrapped function returns when it is run.
     */
    method Call(funcName: string, argsHash: int, ttl: real, now: real, storedAt: real, fetched: V)
      returns (result: V, called: bool)
      modifies this
      ensures var o := CachedCall(old(entries), CacheKey(funcName, argsHash), ttl, now, storedAt, fetched);
        result == o.result && called == o.called && entries == o.entries
    {
      var key := CacheKey(funcName, argsHash);
      if key in entries {
        var entry := entries[key];
        if now - entry.storedAt < ttl {
          return entry.value, false;
        }
      }
      result := fetched;
      called := true;
      entries := entries[key := Entry(result, storedAt)];
    }

    /**
     * `clear_stripe_cache`: collects the keys of the three fetch functions,
     * then deletes them one by one; every other entry stays as it was.
     */
    method ClearStripeCache()
      modifies this
      ensures forall k :: k in entries <==> k in old(entries) && !IsStripeKey(k)
      ensures forall k :: k in entries ==> entries[k] == old(entries)[k]
    {
      var toRemove := set k | k in entries && IsStripeKey(k);
      var pending := toRemove;
      while pending != {}
        invariant pending <= toRemove
        invariant entries == old(entries) - (toRemove - pending)
        decreases |pending|
      {
        var key :| key in pending;
        entries := entries - {key};
        pending := pending - {key};
      }
    }
  }
}

=== FILE: calculations.dfy ===
/**
 * The business metrics of analytics/calculations.py: monthly and annual
 * recurring revenue, churn and trial conversion, customer lifetime value and
 * the revenue forecast. The recurring-revenue loop and the churn counts are
 * shared with app_original.py, which differs only in how it finds a
 * subscription's items and in not rounding the churn figures.
 */
module Calculations {
  import opened Wrappers
  import opened Records
  import Money
  import Calendar
  import Helpers
  import Charts

  // ---------------------------------------------------------------------
  // Monthly and annual recurring revenue
  // ---------------------------------------------------------------------

  /**
   * The price of a subscription's first item together with the item's
   * quantity, or None when the subscription is skipped: no items, a falsy
   * price, or a price id that `resolve` (standing for `stripe.Price.retrieve`)
   * cannot fetch.
   */
  function FirstItemPrice(items: seq<Item>, resolve: string -> Option<Price>): (r: Option<(Price, nat)>)
    ensures items == [] ==> r.None?
    ensures items != [] && items[0].price.PriceObject? ==> r == Some((items[0].price.price, Quantity(items[0])))
  {
    if items == [] then None
    else
      var item := items[0];
      match item.price
      case NoPrice => None
      case PriceId(id) =>
        if id == "" then None
        else (match resolve(id) case None => None case Some(p) => Some((p, Quantity(item))))
      case PriceObject(p) => Some((p, Quantity(item)))
  }

  /**
   * The item's amount in dollars: a truthy `unit_amount`, else a truthy
   * legacy `amount`, else `unit_amount_decimal` when present (all in cents),
   * times the quantity; 0 when none is there.
   */
  function ItemAmount(p: Price, quantity: nat): (r: real)
    ensures UnitOrLegacyCents(p).Some? ==> r == Money.Dollars(UnitOrLegacyCents(p).value) * quantity as real
    ensures UnitOrLegacyCents(p).None? && p.unitAmountDecimal.Some?
      ==> r == p.unitAmountDecimal.value / 100.0 * quantity as real
    ensures UnitOrLegacyCents(p).None? && p.unitAmountDecimal.None? ==> r == 0.0
  {
    match UnitOrLegacyCents(p)
    case Some(c) => Money.Dollars(c) * quantity as real
    case None =>
      match p.unitAmountDecimal
      case Some(d) => d / 100.0 * quantity as real
      case None => 0.0
  }

  /** The intervals the MRR loop converts. */
  const MrrIntervals: set<string> := {"month", "year", "week", "day"}

  /**
   * What one billing period's amount adds to the MRR: the amount scaled by
   * the charts module's monthly factor for a month, year, week or day;
   * any other or missing interval adds nothing.
   */
  function MonthlyContribution(amount: real, interval: Option<string>): (r: real)
    ensures interval.Some? && interval.value in MrrIntervals ==> r == amount * Charts.MonthlyFactor(interval.value)
    ensures !(interval.Some? && interval.value in MrrIntervals) ==> r == 0.0
    ensures amount >= 0.0 ==> r >= 0.0
  {
    if interval == Some("month") then amount
    else if interval == Some("year") then amount / 12.0
    else if interval == Some("week") then amount * 4.33
    else if interval == Some("day") then amount * 30.0
    else 0.0
  }

  /**
   * One subscription's share of the MRR: only active and trialing ones, only
   * through their first item, whose amount is scaled to a month.
   */
  function SubscriptionMrr(sub: Subscription, itemsOf: Subscription -> seq<Item>, resolve: string -> Option<Price>): (r: real)
    ensures !IsRecurring(sub) || FirstItemPrice(itemsOf(sub), resolve).None? ==> r == 0.0
    ensures IsRecurring(sub) && FirstItemPrice(itemsOf(sub), resolve).Some? ==>
      var p, q := FirstItemPrice(itemsOf(sub), resolve).value.0, FirstItemPrice(itemsOf(sub), resolve).value.1;
      var interval := RawInterval(p);
      r == if interval.Some? && interval.value in MrrIntervals then ItemAmount(p, q) * Charts.MonthlyFactor(interval.value) else 0.0
  {
    if !IsRecurring(sub) then 0.0
    else
      match FirstItemPrice(itemsOf(sub), resolve)
      case None => 0.0
      case Some(pq) => MonthlyContribution(ItemAmount(pq.0, pq.1), RawInterval(pq.0))
  }

  /**
   * The MRR of a list of subscriptions: the sum of their shares (no
   * subscriptions give 0, one gives its share, and `MrrAppend` adds lists).
   */
  function Mrr(subs: seq<Subscription>, itemsOf: Subscription -> seq<Item>, resolve: string -> Option<Price>): (r: real)
    ensures subs == [] ==> r == 0.0
    ensures |subs| == 1 ==> r == SubscriptionMrr(subs[0], itemsOf, resolve)
  {
    if subs == [] then 0.0
    else Mrr(subs[..|subs| - 1], itemsOf, resolve) + SubscriptionMrr(subs[|subs| - 1], itemsOf, resolve)
  }

  /**
   * The body of the loop of `calculate_mrr_arr` for one subscription: what
   * it adds to the MRR, and what the loop adds to its running ARR (the full
   * amount of a yearly price, a figure the function later overwrites).
   */
  method SubscriptionShare(sub: Subscription, itemsOf: Subscription -> seq<Item>, resolve: string -> Option<Price>)
    returns (monthly: real, yearly: real)
    ensures monthly == SubscriptionMrr(sub, itemsOf, resolve)
  {
    monthly, yearly := 0.0, 0.0;
    if !(sub.status == "active" || sub.status == "trialing") {
      return;
    }
    var items := itemsOf(sub);
    if |items| == 0 {
      return;
    }
    var item := items[0];
    if !TruthyPrice(item.price) {
      return;
    }
    var price: Price;
    if item.price.PriceId? {
      var fetched := resolve(item.price.id);
      if fetched.None? {
        return;
      }
      price := fetched.value;
    } else {
      price := item.price.price;
    }
    var quantity := Quantity(item);
    var amount := 0.0;
    if TruthyNumber(price.unitAmount) {
      amount := Money.Dollars(price.unitAmount.value) * quantity as real;
    } else if TruthyNumber(price.amount) {
      amount := Money.Dollars(price.amount.value) * quantity as real;
    } else if price.unitAmountDecimal.Some? {
      amount := price.unitAmountDecimal.value / 100.0 * quantity as real;
    }
    assert amount == ItemAmount(price, quantity);
    var interval := RawInterval(price);
    if TruthyText(interval) {
      if interval.value == "month" {
        monthly := amount;
      } else if interval.value == "year" {
        yearly := amount;
        monthly := amount / 12.0;
      } else if interval.value == "week" {
        monthly := amount * 4.33;
      } else if interval.value == "day" {
        monthly := amount * 30.0;
      }
    }
  }

  /**
   * The loop of `calculate_mrr_arr`, given the function that lists a
   * subscription's items: it adds each active or trialing subscription's
   * monthly-equivalent amount to the MRR, and the ARR is twelve times the MRR.
   */
  method MrrArr(subs: seq<Subscription>, itemsOf: Subscription -> seq<Item>, resolve: string -> Option<Price>)
    returns (mrr: real, arr: real)
    ensures mrr == Mrr(subs, itemsOf, resolve)
    ensures arr == mrr * 12.0
  {
    mrr, arr := 0.0, 0.0;
    var i := 0;
    while i < |subs|
      invariant 0 <= i <= |subs|
      invariant mrr == Mrr(subs[..i], itemsOf, resolve)
    {
      assert subs[..i + 1][..i] == subs[..i];
      var monthly, yearly := SubscriptionShare(subs[i], itemsOf, resolve);
      mrr := mrr + monthly;
      arr := arr + yearly;
      i := i + 1;
    }
    assert subs[..i] == subs;
    arr := mrr * 12.0;
  }

  /** `calculate_mrr_arr` of analytics/calculations.py, which lists items with the helper module's normaliser. */
  method CalculateMrrArr(subs: seq<Subscription>, resolve: string -> Option<Price>) returns (mrr: real, arr: real)
    ensures mrr == Mrr(subs, Helpers.ItemsData, resolve)
    ensures arr == mrr * 12.0
    ensures subs == [] ==> mrr == 0.0 && arr == 0.0
  {
    mrr, arr := MrrArr(subs, Helpers.ItemsData, resolve);
  }

  /** The MRR of two lists together is the sum of their MRRs. */
  lemma {:induction false} MrrAppend(a: seq<Subscription>, b: seq<Subscription>,
                                     itemsOf: Subscription -> seq<Item>, resolve: string -> Option<Price>)
    ensures Mrr(a + b, itemsOf, resolve) == Mrr(a, itemsOf, resolve) + Mrr(b, itemsOf, resolve)
  {
    if b == [] {
      assert a + b == a;
    } else {
      var init := b[..|b| - 1];
      assert (a + b)[..|a + b| - 1] == a + init;
      assert (a + b)[|a + b| - 1] == b[|b| - 1];
      MrrAppend(a, init, itemsOf, resolve);
    }
  }

  /** Subscriptions that are neither active nor trialing add nothing to the MRR. */
  lemma {:induction false} MrrIgnoresInactive(subs: seq<Subscription>,
                                              itemsOf: Subscription -> seq<Item>, resolve: string -> Option<Price>)
    requires forall s :: s in subs ==> !IsRecurring(s)
    ensures Mrr(subs, itemsOf, resolve) == 0.0
  {
    if subs != [] {
      var init := subs[..|subs| - 1];
      assert forall s :: s in init ==> s in subs;
      assert subs[|subs| - 1] in subs;
      MrrIgnoresInactive(init, itemsOf, resolve);
    }
  }

  /**
   * For an active or trialing subscription whose first item carries a price
   * with a unit or legacy amount, the MRR share is the charts module's
   * monthly amount when the interval is month, year, week or day; for any
   * other interval the MRR ignores it while the charts keep the plain amount.
   */
  lemma {:induction false} MrrShareMatchesChartsAmount(sub: Subscription, resolve: string -> Option<Price>)
    requires IsRecurring(sub)
    requires Helpers.FirstPrice(sub).Some?
    requires UnitOrLegacyCents(Helpers.FirstPrice(sub).value).Some?
    ensures var interval := RawInterval(Helpers.FirstPrice(sub).value);
      interval in {Some("month"), Some("year"), Some("week"), Some("day")}
      ==> SubscriptionMrr(sub, Helpers.ItemsData, resolve) == Charts.MonthlyAmount(sub)
    ensures var interval := RawInterval(Helpers.FirstPrice(sub).value);
      interval !in {Some("month"), Some("year"), Some("week"), Some("day")}
      ==> SubscriptionMrr(sub, Helpers.ItemsData, resolve) == 0.0 && Charts.MonthlyAmount(sub) == Helpers.Amount(sub)
  {
    var items := Helpers.ItemsData(sub);
    assert items != [] && items[0].price.PriceObject?;
    Charts.MonthlyAmountIsScaledAmount(sub);
  }

  // ---------------------------------------------------------------------
  // Churn and trial conversion
  // ---------------------------------------------------------------------

  /** The figures of `calculate_churn_metrics`. */
  datatype ChurnMetrics = ChurnMetrics(
    totalSubscriptions: nat,
    activeSubscriptions: nat,
    trialingSubscriptions: nat,
    canceledSubscriptions: nat,
    churnRate: real,
    trialConversionRate: real)

  /** `canceled / total * 100`, 0 without subscriptions. */
  function ChurnRate(canceled: nat, total: nat): (r: real)
    ensures total > 0 ==> r * total as real == canceled as real * 100.0
    ensures total == 0 ==> r == 0.0
    ensures canceled <= total ==> 0.0 <= r <= 100.0
  {
    if total > 0 then canceled as real / total as real * 100.0 else 0.0
  }

  /** `active / (active + trialing) * 100`, 0 when there are neither. */
  function ConversionRate(active: nat, trialing: nat): (r: real)
    ensures r == ChurnRate(active, active + trialing)
  {
    if active + trialing > 0 then active as real / (active + trialing) as real * 100.0 else 0.0
  }

  /**
   * The counts of `calculate_churn_metrics`: the number of subscriptions and,
   * for each of the three statuses, how many subscriptions carry it.
   */
  ghost predicate CountsOf(subs: seq<Subscription>, r: ChurnMetrics) {
    var m := multiset(Charts.Statuses(subs));
    && r.totalSubscriptions == |subs|
    && r.activeSubscriptions == m["active"]
    && r.trialingSubscriptions == m["trialing"]
    && r.canceledSubscriptions == m["canceled"]
  }

  /** The app_original.py version: the counts and the two ratios, unrounded. */
  function ChurnMetricsUnrounded(subs: seq<Subscription>): (r: ChurnMetrics)
    ensures CountsOf(subs, r)
    ensures r.activeSubscriptions + r.trialingSubscriptions + r.canceledSubscriptions <= |subs|
    ensures r.churnRate == ChurnRate(r.canceledSubscriptions, |subs|)
    ensures r.trialConversionRate == ChurnRate(r.activeSubscriptions, r.activeSubscriptions + r.trialingSubscriptions)
    ensures 0.0 <= r.churnRate <= 100.0 && 0.0 <= r.trialConversionRate <= 100.0
  {
    var active := Charts.CountStatus(subs, "active");
    var trialing := Charts.CountStatus(subs, "trialing");
    var canceled := Charts.CountStatus(subs, "canceled");
    Charts.CountStatusIsMultiplicity(subs, "active");
    Charts.CountStatusIsMultiplicity(subs, "trialing");
    Charts.CountStatusIsMultiplicity(subs, "canceled");
    StatusCountsBounded(subs);
    ChurnMetrics(|subs|, active, trialing, canceled, ChurnRate(canceled, |subs|), ConversionRate(active, trialing))
  }

  /**
   * The analytics/calculations.py version: the same counts, and both ratios
   * rounded to two decimals, so still between 0 and 100.
   */
  function ChurnMetricsRounded(subs: seq<Subscription>): (r: ChurnMetrics)
    ensures CountsOf(subs, r)
    ensures r.churnRate == Money.Round2(ChurnRate(r.canceledSubscriptions, |subs|))
    ensures r.trialConversionRate == Money.Round2(ChurnRate(r.activeSubscriptions, r.activeSubscriptions + r.trialingSubscriptions))
    ensures 0.0 <= r.churnRate <= 100.0 && 0.0 <= r.trialConversionRate <= 100.0
  {
    var u := ChurnMetricsUnrounded(subs);
    PercentageInRange(u.canceledSubscriptions, |subs|);
    PercentageInRange(u.activeSubscriptions, u.activeSubscriptions + u.trialingSubscriptions);
    u.(churnRate := Money.Round2(u.churnRate), trialConversionRate := Money.Round2(u.trialConversionRate))
  }

  /** Active, trialing and canceled subscriptions are disjoint, so together they are at most the total. */
  lemma {:induction false} StatusCountsBounded(subs: seq<Subscription>)
    ensures Charts.CountStatus(subs, "active") + Charts.CountStatus(subs, "trialing")
      + Charts.CountStatus(subs, "canceled") <= |subs|
  {
    if subs != [] {
      StatusCountsBounded(subs[..|subs| - 1]);
    }
  }

  /** A part of a whole, as a percentage, lies between 0 and 100, and so does its rounding. */
  lemma {:induction false} PercentageInRange(part: nat, whole: nat)
    requires part <= whole
    ensures 0.0 <= ChurnRate(part, whole) <= 100.0
    ensures 0.0 <= Money.Round2(ChurnRate(part, whole)) <= 100.0
  {
    if whole > 0 {
      var q := part as real / whole as real;
      assert q * whole as real == part as real;
      assert q <= 1.0;
    }
    Money.Round2OfCents(0);
    Money.Round2OfCents(10000);
    Money.Round2Monotone(0.0, ChurnRate(part, whole));
    Money.Round2Monotone(ChurnRate(part, whole), 100.0);
  }

  /** Two active, one trialing and two canceled subscriptions give 40.0 and 66.67. */
  lemma {:induction false} ChurnExample(subs: seq<Subscription>)
    requires Charts.Statuses(subs) == ["active", "active", "trialing", "canceled", "canceled"]
    ensures ChurnMetricsRounded(subs) == ChurnMetrics(5, 2, 1, 2, 40.0, 66.67)
  {
    var r := ChurnMetricsRounded(subs);
    var m := multiset(Charts.Statuses(subs));
    assert m == multiset{"active", "active", "trialing", "canceled", "canceled"};
    assert r.activeSubscriptions == 2 && r.trialingSubscriptions == 1 && r.canceledSubscriptions == 2;
    ExampleRates();
  }

  /** Two of five is 40.0 percent; two of three is 66.67 percent once rounded. */
  lemma {:induction false} ExampleRates()
    ensures Money.Round2(ChurnRate(2, 5)) == 40.0 && Money.Round2(ChurnRate(2, 3)) == 66.67
  {
    var x := 2.0 / 3.0 * 100.0;
    assert 6667.0 <= x * 100.0 + 0.5 < 6668.0;
    assert (x * 100.0 + 0.5).Floor == 6667;
    var c := 2.0 / 5.0 * 100.0;
    assert (c * 100.0 + 0.5).Floor == 4000;
  }

  // ---------------------------------------------------------------------
  // Customer lifetime value
  // ---------------------------------------------------------------------

  /** A succeeded charge of the customer, whether the customer is expanded or a bare id. */
  predicate OfCustomer(c: Charge, customerId: string) {
    && (match c.customer
        case NoCustomer => false
        case CustomerId(id) => id != "" && id == customerId
        case CustomerObject(id, _, _) => id == customerId)
    && c.status == "succeeded"
  }

  /** The customer's succeeded charges, in order. */
  function CustomerCharges(customerId: string, charges: seq<Charge>): (r: seq<Charge>)
    ensures forall c :: c in r ==> OfCustomer(c, customerId)
    ensures forall c :: c in charges && OfCustomer(c, customerId) ==> c in r
  {
    if charges == [] then []
    else
      var last := charges[|charges| - 1];
      assert charges == charges[..|charges| - 1] + [last];
      CustomerCharges(customerId, charges[..|charges| - 1]) + if OfCustomer(last, customerId) then [last] else []
  }

  function TotalDollars(cs: seq<Charge>): (r: real)
    ensures r >= 0.0
  {
    if cs == [] then 0.0 else TotalDollars(cs[..|cs| - 1]) + Money.Dollars(cs[|cs| - 1].amount)
  }

  /** `min(...)` of the creation times. */
  function MinCreated(cs: seq<Charge>): (r: int)
    requires cs != []
    ensures forall i :: 0 <= i < |cs| ==> r <= cs[i].created
    ensures exists i :: 0 <= i < |cs| && cs[i].created == r
  {
    if |cs| == 1 then cs[0].created
    else
      var m := MinCreated(cs[..|cs| - 1]);
      if cs[|cs| - 1].created < m then cs[|cs| - 1].created else m
  }

  /** `max(...)` of the creation times. */
  function MaxCreated(cs: seq<Charge>): (r: int)
    requires cs != []
    ensures forall i :: 0 <= i < |cs| ==> cs[i].created <= r
    ensures exists i :: 0 <= i < |cs| && cs[i].created == r
  {
    if |cs| == 1 then cs[0].created
    else
      var m := MaxCreated(cs[..|cs| - 1]);
      if cs[|cs| - 1].created > m then cs[|cs| - 1].created else m
  }

  /** `max(1, days / 30.44)`: months of activity, at least one. */
  function MonthsActive(days: int): (r: real)
    ensures r >= 1.0
  {
    var m := days as real / 30.44;
    if 1.0 >= m then 1.0 else m
  }

  /** Twenty-four months at the average monthly value. */
  function ProjectedValue(total: real, days: int): real {
    total / MonthsActive(days) * 24.0
  }

  /** The projection never exceeds 24 times what the customer has paid so far. */
  lemma {:induction false} ProjectionBound(total: real, days: int)
    requires total >= 0.0
    ensures 0.0 <= ProjectedValue(total, days) <= 24.0 * total
  {
    var m := MonthsActive(days);
    assert total / m <= total by {
      assert total / m * m == total;
    }
  }

  /** 730 days are fewer than 24 average months of 30.44 days. */
  lemma {:induction false} MonthsActiveAtMost24(days: int)
    requires days <= 730
    ensures MonthsActive(days) <= 24.0
  {
    var x := days as real / 30.44;
    assert x * 30.44 == days as real;
  }

  /** Over at most 730 days (under 24 average months) the projection is at least what was paid. */
  lemma {:induction false} ProjectionAtLeastTotal(total: real, days: int)
    requires total >= 0.0
    requires days <= 730
    ensures ProjectedValue(total, days) >= total
  {
    var m := MonthsActive(days);
    MonthsActiveAtMost24(days);
    var q := total / m;
    assert q * m == total;
    assert q >= 0.0;
    ScaleUp(q, m, 24.0);
  }

  /** A non-negative value scaled by a larger factor does not shrink. */
  lemma {:induction false} ScaleUp(q: real, small: real, large: real)
    requires q >= 0.0 && small <= large
    ensures q * small <= q * large
  {
    assert q * large - q * small == q * (large - small);
  }

  /**
   * `calculate_customer_lifetime_value`: 0 without succeeded charges of the
   * customer, the amount paid for a single one, and otherwise the rounded
   * 24-month projection of the average monthly value over the span between
   * the first and the last charge.
   */
  function CustomerLifetimeValue(customerId: string, charges: seq<Charge>): (r: real)
    ensures r >= 0.0
    ensures CustomerCharges(customerId, charges) == [] ==> r == 0.0
  {
    var mine := CustomerCharges(customerId, charges);
    if mine == [] then 0.0
    else
      var total := TotalDollars(mine);
      if |mine| < 2 then total
      else
        var days := Calendar.DaysBetween(MinCreated(mine), MaxCreated(mine));
        ProjectionBound(total, days);
        Money.Round2Monotone(0.0, ProjectedValue(total, days));
        Money.Round2OfCents(0);
        Money.Round2(ProjectedValue(total, days))
  }

  /** Selecting the customer's charges distributes over concatenation. */
  lemma {:induction false} CustomerChargesAppend(customerId: string, a: seq<Charge>, b: seq<Charge>)
    ensures CustomerCharges(customerId, a + b) == CustomerCharges(customerId, a) + CustomerCharges(customerId, b)
  {
    if b == [] {
      assert a + b == a;
    } else {
      var init := b[..|b| - 1];
      assert (a + b)[..|a + b| - 1] == a + init;
      assert (a + b)[|a + b| - 1] == b[|b| - 1];
      CustomerChargesAppend(customerId, a, init);
    }
  }

  lemma {:induction false} CustomerChargesNone(customerId: string, others: seq<Charge>)
    requires forall c :: c in others ==> !OfCustomer(c, customerId)
    ensures CustomerCharges(customerId, others) == []
  {
    if others != [] {
      var init := others[..|others| - 1];
      assert forall c :: c in init ==> c in others;
      assert others[|others| - 1] in others;
      CustomerChargesNone(customerId, init);
    }
  }

  /**
   * Charges of other customers, and charges that did not succeed, never
   * change a customer's lifetime value, wherever they appear.
   */
  lemma {:induction false} ClvIgnoresOtherCharges(customerId: string, before: seq<Charge>, charges: seq<Charge>, after: seq<Charge>)
    requires forall c :: c in before ==> !OfCustomer(c, customerId)
    requires forall c :: c in after ==> !OfCustomer(c, customerId)
    ensures CustomerLifetimeValue(customerId, before + charges + after) == CustomerLifetimeValue(customerId, charges)
  {
    CustomerChargesAppend(customerId, before + charges, after);
    CustomerChargesAppend(customerId, before, charges);
    CustomerChargesNone(customerId, before);
    CustomerChargesNone(customerId, after);
    assert [] + CustomerCharges(customerId, charges) + [] == CustomerCharges(customerId, charges);
  }

  /** The sum of the charge amounts in cents. */
  function TotalCents(cs: seq<Charge>): int {
    if cs == [] then 0 else TotalCents(cs[..|cs| - 1]) + cs[|cs| - 1].amount
  }

  /** The total in dollars is a whole number of cents, so rounding to cents keeps it. */
  lemma {:induction false} TotalIsWholeCents(cs: seq<Charge>)
    ensures TotalDollars(cs) == Money.Dollars(TotalCents(cs))
  {
    if cs != [] {
      TotalIsWholeCents(cs[..|cs| - 1]);
    }
  }

  /**
   * With two or more succeeded charges the value is at most 24 times the
   * total paid.
   */
  lemma {:induction false} ClvAtMostTwentyFourTimesTotal(customerId: string, charges: seq<Charge>)
    requires |CustomerCharges(customerId, charges)| >= 2
    ensures CustomerLifetimeValue(customerId, charges) <= 24.0 * TotalDollars(CustomerCharges(customerId, charges))
  {
    var mine := CustomerCharges(customerId, charges);
    var total := TotalDollars(mine);
    var days := Calendar.DaysBetween(MinCreated(mine), MaxCreated(mine));
    ProjectionBound(total, days);
    Money.Round2Monotone(ProjectedValue(total, days), 24.0 * total);
    TotalIsWholeCents(mine);
    assert 24.0 * total == Money.Dollars(24 * TotalCents(mine));
    Money.Round2OfCents(24 * TotalCents(mine));
  }

  /**
   * With two or more succeeded charges spread over at most 730 days, the
   * 24-month projection is at least the total the customer has paid.
   */
  lemma {:induction false} ClvAtLeastTotal(customerId: string, charges: seq<Charge>)
    requires |CustomerCharges(customerId, charges)| >= 2
    requires Calendar.DaysBetween(MinCreated(CustomerCharges(customerId, charges)), MaxCreated(CustomerCharges(customerId, charges))) <= 730
    ensures CustomerLifetimeValue(customerId, charges) >= TotalDollars(CustomerCharges(customerId, charges))
  {
    var mine := CustomerCharges(customerId, charges);
    var total := TotalDollars(mine);
    var days := Calendar.DaysBetween(MinCreated(mine), MaxCreated(mine));
    ProjectionAtLeastTotal(total, days);
    Money.Round2Monotone(total, ProjectedValue(total, days));
    TotalIsWholeCents(mine);
    Money.Round2OfCents(TotalCents(mine));
  }

  /** A single succeeded charge of the customer is its own lifetime value, with no projection. */
  lemma {:induction false} ClvSingleCharge(customerId: string, charges: seq<Charge>)
    requires |CustomerCharges(customerId, charges)| == 1
    ensures CustomerLifetimeValue(customerId, charges) == Money.Dollars(CustomerCharges(customerId, charges)[0].amount)
  {
    var mine := CustomerCharges(customerId, charges);
    assert mine[..0] == [];
    assert TotalDollars(mine) == TotalDollars(mine[..0]) + Money.Dollars(mine[0].amount);
  }

  /** A $10 charge of one customer next to a charge of another gives that customer a value of 10.0. */
  lemma {:induction false} ClvFiltersCustomer(a: Charge, b: Charge)
    requires a.customer.CustomerObject? && a.customer.id == "cus_test123" && a.status == "succeeded" && a.amount == 1000
    requires b.customer.CustomerObject? && b.customer.id == "cus_test456"
    ensures CustomerLifetimeValue("cus_test123", [a, b]) == 10.0
  {
    assert [a, b][..1] == [a];
    assert [a][..0] == [];
    assert CustomerCharges("cus_test123", [a]) == [a];
    assert CustomerCharges("cus_test123", [a, b]) == [a];
    ClvSingleCharge("cus_test123", [a, b]);
  }

  // ---------------------------------------------------------------------
  // Revenue forecast
  // ---------------------------------------------------------------------

  /** The month bucket of a charge: its month index (year * 12 + month - 1). */
  function MonthOf(c: Charge): int {
    Calendar.MonthIndex(c.created)
  }

  /** The months of the succeeded charges, in order of first appearance. */
  function MonthKeys(charges: seq<Charge>): seq<int> {
    if charges == [] then []
    else
      var keys := MonthKeys(charges[..|charges| - 1]);
      var last := charges[|charges| - 1];
      if last.status == "succeeded" && MonthOf(last) !in keys then keys + [MonthOf(last)] else keys
  }

  /** The dollars of the succeeded charges, by month. */
  function MonthTotals(charges: seq<Charge>): (r: map<int, real>)
    ensures forall k :: k in r ==> r[k] >= 0.0
  {
    if charges == [] then map[]
    else
      var m := MonthTotals(charges[..|charges| - 1]);
      var last := charges[|charges| - 1];
      if last.status == "succeeded" then
        var k := MonthOf(last);
        m[k := (if k in m then m[k] else 0.0) + Money.Dollars(last.amount)]
      else m
  }

  /** The reference definition of a month's revenue: the dollars of the succeeded charges created in it. */
  function MonthRevenue(charges: seq<Charge>, k: int): (r: real)
    ensures r >= 0.0
  {
    if charges == [] then 0.0
    else
      var last := charges[|charges| - 1];
      MonthRevenue(charges[..|charges| - 1], k)
        + if last.status == "succeeded" && MonthOf(last) == k then Money.Dollars(last.amount) else 0.0
  }

  predicate DistinctInts(s: seq<int>) {
    forall i, j :: 0 <= i < j < |s| ==> s[i] != s[j]
  }

  /** The month list has no repeats and names exactly the months of the totals. */
  lemma {:induction false} MonthKeysMatchTotals(charges: seq<Charge>)
    ensures DistinctInts(MonthKeys(charges))
    ensures forall k :: k in MonthKeys(charges) <==> k in MonthTotals(charges)
  {
    if charges != [] {
      MonthKeysMatchTotals(charges[..|charges| - 1]);
    }
  }

  /** A month has a total exactly when some succeeded charge was created in it. */
  lemma {:induction false} MonthTotalsDomain(charges: seq<Charge>)
    ensures forall k :: k in MonthTotals(charges) <==>
      exists c :: c in charges && c.status == "succeeded" && MonthOf(c) == k
  {
    if charges != [] {
      var init := charges[..|charges| - 1];
      var last := charges[|charges| - 1];
      MonthTotalsDomain(init);
      assert charges == init + [last];
      forall k ensures k in MonthTotals(charges) <==>
        exists c :: c in charges && c.status == "succeeded" && MonthOf(c) == k
      {
        if k in MonthTotals(init) {
          var c :| c in init && c.status == "succeeded" && MonthOf(c) == k;
          assert c in charges;
        }
      }
    }
  }

  /** Each month's total is that month's revenue. */
  lemma {:induction false} MonthTotalsAreMonthRevenue(charges: seq<Charge>)
    ensures forall k :: k in MonthTotals(charges) ==> MonthTotals(charges)[k] == MonthRevenue(charges, k)
  {
    if charges != [] {
      var init := charges[..|charges| - 1];
      MonthTotalsAreMonthRevenue(init);
      MonthTotalsDomain(init);
      forall k | k !in MonthTotals(init) ensures MonthRevenue(init, k) == 0.0 {
        MonthRevenueAbsent(init, k);
      }
    }
  }

  lemma {:induction false} MonthRevenueAbsent(charges: seq<Charge>, k: int)
    requires forall c :: c in charges ==> !(c.status == "succeeded" && MonthOf(c) == k)
    ensures MonthRevenue(charges, k) == 0.0
  {
    if charges != [] {
      var init := charges[..|charges| - 1];
      assert forall c :: c in init ==> c in charges;
      assert charges[|charges| - 1] in charges;
      MonthRevenueAbsent(init, k);
    }
  }

  predicate SortedInts(s: seq<int>) {
    forall i, j :: 0 <= i < j < |s| ==> s[i] <= s[j]
  }

  /** `x` placed before the first element of the sorted `s` that is not smaller. */
  function InsertSorted(x: int, s: seq<int>): seq<int> {
    if s == [] || x <= s[0] then [x] + s
    else [s[0]] + InsertSorted(x, s[1..])
  }

  /** Inserting adds exactly one occurrence of `x` and changes nothing else. */
  lemma {:induction false} InsertSortedPermutes(x: int, s: seq<int>)
    ensures multiset(InsertSorted(x, s)) == multiset(s) + multiset{x}
  {
    if s != [] && x > s[0] {
      InsertSortedPermutes(x, s[1..]);
      assert s == [s[0]] + s[1..];
    }
  }

  /** Putting `b` in front of a sorted sequence whose elements are all at least `b` keeps it sorted. */
  lemma {:induction false} SortedCons(b: int, s: seq<int>)
    requires SortedInts(s)
    requires forall i :: 0 <= i < |s| ==> b <= s[i]
    ensures SortedInts([b] + s)
  {
    var r := [b] + s;
    forall i, j | 0 <= i < j < |r| ensures r[i] <= r[j] {
      assert r[j] == s[j - 1];
      if i > 0 {
        assert r[i] == s[i - 1];
      }
    }
  }

  /** Inserting an element that is at least `b` into elements that are at least `b` gives elements that are at least `b`. */
  lemma {:induction false} InsertSortedAtLeast(x: int, s: seq<int>, b: int)
    requires b <= x
    requires forall i :: 0 <= i < |s| ==> b <= s[i]
    ensures forall i :: 0 <= i < |InsertSorted(x, s)| ==> b <= InsertSorted(x, s)[i]
  {
    if s != [] && x > s[0] {
      InsertSortedAtLeast(x, s[1..], b);
      var rest := InsertSorted(x, s[1..]);
      assert forall i :: 0 <= i < |rest| ==> b <= rest[i];
      assert InsertSorted(x, s) == [s[0]] + rest;
    }
  }

  /** Inserting into a sorted sequence keeps it sorted. */
  lemma {:induction false} InsertSortedSorts(x: int, s: seq<int>)
    requires SortedInts(s)
    ensures SortedInts(InsertSorted(x, s))
  {
    if s == [] || x <= s[0] {
      SortedCons(x, s);
    } else {
      InsertSortedSorts(x, s[1..]);
      InsertSortedAtLeast(x, s[1..], s[0]);
      SortedCons(s[0], InsertSorted(x, s[1..]));
    }
  }

  /** `sorted(...)` on the month indexes. */
  function SortInts(s: seq<int>): (r: seq<int>)
    ensures SortedInts(r)
    ensures multiset(r) == multiset(s)
  {
    if s == [] then []
    else
      var rest := SortInts(s[1..]);
      InsertSortedSorts(s[0], rest);
      InsertSortedPermutes(s[0], rest);
      assert multiset(s) == multiset(s[1..]) + multiset{s[0]} by {
        assert s == [s[0]] + s[1..];
      }
      InsertSorted(s[0], rest)
  }

  /** The last of the sorted months is the latest month. */
  lemma {:induction false} SortedLastIsLatest(s: seq<int>)
    requires s != []
    ensures |SortInts(s)| == |s|
    ensures forall k :: k in s ==> k <= SortInts(s)[|s| - 1]
    ensures SortInts(s)[|s| - 1] in s
  {
    var r := SortInts(s);
    assert |r| == |multiset(r)| == |multiset(s)| == |s|;
    forall k | k in s ensures k <= r[|s| - 1] {
      assert k in multiset(s);
      var i :| 0 <= i < |r| && r[i] == k;
    }
    assert r[|s| - 1] in multiset(r);
  }

  /** The revenues of the given months, in their order. */
  function Revenues(months: seq<int>, totals: map<int, real>): (r: seq<real>)
    ensures |r| == |months|
    ensures forall i :: 0 <= i < |months| && months[i] in totals ==> r[i] == totals[months[i]]
  {
    seq(|months|, i requires 0 <= i < |months| => if months[i] in totals then totals[months[i]] else 0.0)
  }

  /** Month-over-month growth rates, skipping transitions from a month without revenue. */
  function GrowthRates(revenues: seq<real>): seq<real> {
    if |revenues| < 2 then []
    else
      var prev, cur := revenues[|revenues| - 2], revenues[|revenues| - 1];
      GrowthRates(revenues[..|revenues| - 1]) + if prev > 0.0 then [(cur - prev) / prev] else []
  }

  function Sum(xs: seq<real>): real {
    if xs == [] then 0.0 else Sum(xs[..|xs| - 1]) + xs[|xs| - 1]
  }

  /** The mean growth rate; 0 with fewer than three months or no usable transition. */
  function AverageGrowth(revenues: seq<real>): real {
    if |revenues| < 3 then 0.0
    else
      var rates := GrowthRates(revenues);
      if rates == [] then 0.0 else Sum(rates) / |rates| as real
  }

  /** The loop that collects the growth rates. */
  method CollectGrowthRates(revenues: seq<real>) returns (rates: seq<real>)
    ensures rates == GrowthRates(revenues)
  {
    rates := [];
    if |revenues| < 2 {
      return;
    }
    var i := 1;
    while i < |revenues|
      invariant 1 <= i <= |revenues|
      invariant rates == GrowthRates(revenues[..i])
    {
      assert revenues[..i + 1][..i] == revenues[..i];
      if revenues[i - 1] > 0.0 {
        rates := rates + [(revenues[i] - revenues[i - 1]) / revenues[i - 1]];
      }
      i := i + 1;
    }
    assert revenues[..i] == revenues;
  }

  /** With revenues that are never negative, no month can lose more than all of its predecessor's revenue. */
  lemma {:induction false} GrowthRatesAtLeastMinusOne(revenues: seq<real>)
    requires forall i :: 0 <= i < |revenues| ==> revenues[i] >= 0.0
    ensures forall i :: 0 <= i < |GrowthRates(revenues)| ==> GrowthRates(revenues)[i] >= -1.0
  {
    if |revenues| >= 2 {
      var init := revenues[..|revenues| - 1];
      GrowthRatesAtLeastMinusOne(init);
      var prev, cur := revenues[|revenues| - 2], revenues[|revenues| - 1];
      if prev > 0.0 {
        var g := (cur - prev) / prev;
        assert g * prev == cur - prev;
        assert g >= -1.0;
        assert GrowthRates(revenues) == GrowthRates(init) + [g];
      }
    }
  }

  lemma {:induction false} SumAtLeast(xs: seq<real>, lo: real)
    requires forall i :: 0 <= i < |xs| ==> xs[i] >= lo
    ensures Sum(xs) >= |xs| as real * lo
  {
    if xs != [] {
      SumAtLeast(xs[..|xs| - 1], lo);
    }
  }

  lemma {:induction false} AverageGrowthAtLeastMinusOne(revenues: seq<real>)
    requires forall i :: 0 <= i < |revenues| ==> revenues[i] >= 0.0
    ensures AverageGrowth(revenues) >= -1.0
  {
    GrowthRatesAtLeastMinusOne(revenues);
    var rates := GrowthRates(revenues);
    SumAtLeast(rates, -1.0);
    if |revenues| >= 3 && rates != [] {
      var n := |rates| as real;
      assert Sum(rates) / n * n == Sum(rates);
    }
  }

  /** A history with the same positive revenue every month shows no growth. */
  lemma {:induction false} FlatHistoryHasNoGrowth(revenues: seq<real>, c: real)
    requires c > 0.0
    requires forall i :: 0 <= i < |revenues| ==> revenues[i] == c
    ensures Sum(GrowthRates(revenues)) == 0.0
    ensures AverageGrowth(revenues) == 0.0
  {
    FlatRatesSumToZero(revenues, c);
    var rates := GrowthRates(revenues);
    if |revenues| >= 3 && rates != [] {
      assert AverageGrowth(revenues) == 0.0 / |rates| as real;
    }
  }

  lemma {:induction false} FlatRatesSumToZero(revenues: seq<real>, c: real)
    requires c > 0.0
    requires forall i :: 0 <= i < |revenues| ==> revenues[i] == c
    ensures Sum(GrowthRates(revenues)) == 0.0
  {
    if |revenues| >= 2 {
      var init := revenues[..|revenues| - 1];
      FlatRatesSumToZero(init, c);
      var prev, cur := revenues[|revenues| - 2], revenues[|revenues| - 1];
      assert prev == c && cur == c;
      assert (cur - prev) / prev == 0.0;
      var rates := GrowthRates(revenues);
      assert rates == GrowthRates(init) + [0.0];
      assert rates[..|rates| - 1] == GrowthRates(init);
    }
  }

  /** One month of the forecast. */
  datatype Forecast = Forecast(month: string, forecastedRevenue: real, confidence: real)

  /** `max(0.5, 0.9 - i * 0.1)`: the confidence of the forecast `i` months ahead. */
  function Confidence(i: int): (r: real)
    ensures 0.5 <= r
    ensures i >= 4 ==> r == 0.5
    ensures i <= 4 ==> r == 0.9 - i as real * 0.1
  {
    var c := 0.9 - i as real * 0.1;
    if 0.5 >= c then 0.5 else c
  }

  /**
   * The year and month `i` months after the month `last`, computed from its
   * year and month as written: they are those of the month index `last + i`.
   */
  function ShiftMonth(last: int, i: int): (ym: (int, int))
    ensures ym == (Calendar.YearOfIndex(last + i), Calendar.MonthOfIndex(last + i))
  {
    var y := Calendar.YearOfIndex(last);
    var m := Calendar.MonthOfIndex(last);
    Calendar.IndexSplit(last);
    ShiftByYears(y, m + i - 1);
    assert last + i == y * 12 + (m + i - 1);
    (y + (m + i - 1) / 12, (m + i - 1) % 12 + 1)
  }

  /** The `'%Y-%m'` label of the month `i` months after `last`. */
  function ForecastMonth(last: int, i: int): string {
    var ym := ShiftMonth(last, i);
    Calendar.YearMonthText(ym.0, ym.1)
  }

  /** The forecast `i` months ahead: the last month's revenue compounded at 80% of the average growth. */
  function ForecastEntry(last: int, lastRevenue: real, growth: real, i: nat): Forecast {
    Forecast(ForecastMonth(last, i), Money.Round2(Compounded(lastRevenue, growth, i)), Confidence(i))
  }

  /** The last month's revenue grown `i` times at 80% of `growth`, before rounding. */
  function Compounded(lastRevenue: real, growth: real, i: nat): real {
    lastRevenue * Money.Pow(1.0 + growth * 0.8, i)
  }

  /** The grouping loop of `forecast_revenue`: dollars of succeeded charges by month, months in order of first appearance. */
  method GroupByMonth(charges: seq<Charge>) returns (keys: seq<int>, monthly: map<int, real>)
    ensures keys == MonthKeys(charges) && monthly == MonthTotals(charges)
  {
    keys, monthly := [], map[];
    var i := 0;
    while i < |charges|
      invariant 0 <= i <= |charges|
      invariant keys == MonthKeys(charges[..i]) && monthly == MonthTotals(charges[..i])
    {
      var charge := charges[i];
      assert charges[..i + 1][..i] == charges[..i];
      MonthKeysMatchTotals(charges[..i]);
      if charge.status == "succeeded" {
        var monthKey := MonthOf(charge);
        if monthKey !in monthly {
          keys := keys + [monthKey];
          monthly := monthly[monthKey := 0.0];
        }
        monthly := monthly[monthKey := monthly[monthKey] + Money.Dollars(charge.amount)];
      }
      i := i + 1;
    }
    assert charges[..i] == charges;
  }

  /** The entries `entry(1)`, ..., `entry(n)`, in order. */
  function Project<T>(entry: nat -> T, n: nat): (r: seq<T>)
    ensures |r| == n
  {
    if n == 0 then [] else Project(entry, n - 1) + [entry(n)]
  }

  /** Position `j` of the projection holds `entry(j + 1)`. */
  lemma {:induction false} ProjectAt<T>(entry: nat -> T, n: nat)
    ensures forall j :: 0 <= j < n ==> Project(entry, n)[j] == entry(j + 1)
  {
    if n > 0 {
      ProjectAt(entry, n - 1);
    }
  }

  /** The forecast entries as a function of how many months ahead they are. */
  function Entries(last: int, lastRevenue: real, growth: real): nat -> Forecast {
    (i: nat) => ForecastEntry(last, lastRevenue, growth, i)
  }

  /** Position `j` of the projected forecasts is the forecast `j + 1` months ahead. */
  lemma {:induction false} ProjectedForecast(last: int, lastRevenue: real, growth: real, n: nat, j: nat)
    requires j < n
    ensures Project(Entries(last, lastRevenue, growth), n)[j] == ForecastEntry(last, lastRevenue, growth, j + 1)
  {
    var f := Entries(last, lastRevenue, growth);
    ProjectAt(f, n);
    assert Project(f, n)[j] == f(j + 1);
  }

  /** The projected forecasts, month by month. */
  lemma {:induction false} ProjectedForecasts(last: int, lastRevenue: real, growth: real, n: nat)
    ensures forall j :: 0 <= j < n ==> Project(Entries(last, lastRevenue, growth), n)[j] == ForecastEntry(last, lastRevenue, growth, j + 1)
  {
    forall j | 0 <= j < n
      ensures Project(Entries(last, lastRevenue, growth), n)[j] == ForecastEntry(last, lastRevenue, growth, j + 1)
    {
      ProjectedForecast(last, lastRevenue, growth, n, j);
    }
  }

  /**
   * The loop that writes the forecast for each of the next `monthsAhead`
   * months; `entry(i)` is the forecast `i` months ahead.
   */
  method ProjectMonths<T>(entry: nat -> T, monthsAhead: int) returns (forecasts: seq<T>)
    ensures |forecasts| == (if monthsAhead > 0 then monthsAhead else 0)
    ensures forecasts == Project(entry, |forecasts|)
  {
    forecasts := [];
    var step := 1;
    while step < monthsAhead + 1
      invariant 1 <= step <= (if monthsAhead > 0 then monthsAhead + 1 else 1)
      invariant forecasts == Project(entry, step - 1)
    {
      forecasts := forecasts + [entry(step)];
      step := step + 1;
    }
  }

  /**
   * `forecast_revenue`: group the succeeded charges by month; with fewer than
   * two months there is no forecast; otherwise one entry for each of the
   * next `monthsAhead` months after the latest month.
   */
  method ForecastRevenue(charges: seq<Charge>, monthsAhead: int) returns (forecasts: seq<Forecast>)
    ensures |MonthKeys(charges)| < 2 ==> forecasts == []
    ensures |MonthKeys(charges)| >= 2 ==>
      var months := SortInts(MonthKeys(charges));
      var revenues := Revenues(months, MonthTotals(charges));
      && |months| == |MonthKeys(charges)|
      && |forecasts| == (if monthsAhead > 0 then monthsAhead else 0)
      && forall j :: 0 <= j < |forecasts| ==>
        forecasts[j] == ForecastEntry(months[|months| - 1], revenues[|revenues| - 1], AverageGrowth(revenues), j + 1)
  {
    if charges == [] {
      return [];
    }
    var keys, monthly := GroupByMonth(charges);
    if |keys| < 2 {
      return [];
    }
    var months := SortInts(keys);
    SortedLastIsLatest(keys);
    var revenues := Revenues(months, monthly);
    var rates := CollectGrowthRates(revenues);
    var avgGrowth := 0.0;
    if |revenues| >= 3 && rates != [] {
      avgGrowth := Sum(rates) / |rates| as real;
    }
    forecasts := ProjectMonths(Entries(months[|months| - 1], revenues[|revenues| - 1], avgGrowth), monthsAhead);
    ProjectedForecasts(months[|months| - 1], revenues[|revenues| - 1], avgGrowth, |forecasts|);
  }

  /** Adding whole years to a month index moves its year and keeps its month. */
  lemma {:induction false} ShiftByYears(y: int, t: int)
    ensures (y * 12 + t) / 12 == y + t / 12 && (y * 12 + t) % 12 == t % 12
  {
    var q, r := t / 12, t % 12;
    assert y * 12 + t == (y + q) * 12 + r;
  }

  /** Confidence starts at 0.8, drops by 0.1 a month and stays at 0.5 from the fourth month on. */
  lemma {:induction false} ConfidenceSchedule(i: int, j: int)
    ensures Confidence(1) == 0.8 && Confidence(2) == 0.7 && Confidence(3) == 0.6
    ensures i >= 4 ==> Confidence(i) == 0.5
    ensures 1 <= i < j <= 4 ==> Confidence(j) < Confidence(i)
    ensures i <= j ==> Confidence(j) <= Confidence(i)
    ensures 0.5 <= Confidence(i)
  {
  }

  /** A forecast is never negative when the history is not. */
  lemma {:induction false} ForecastNonNegative(last: int, lastRevenue: real, growth: real, i: nat)
    requires lastRevenue >= 0.0 && growth >= -1.0
    ensures ForecastEntry(last, lastRevenue, growth, i).forecastedRevenue >= 0.0
  {
    Money.PowNonNegative(1.0 + growth * 0.8, i);
    Money.Round2OfCents(0);
    Money.Round2Monotone(0.0, Compounded(lastRevenue, growth, i));
  }

  /** Without growth, every month is forecast at the last month's revenue. */
  lemma {:induction false} FlatForecast(last: int, lastRevenue: real, i: nat)
    ensures ForecastEntry(last, lastRevenue, 0.0, i).forecastedRevenue == Money.Round2(lastRevenue)
  {
    Money.PowOfOne(i);
  }

  lemma {:induction false} RevenuesNonNegative(months: seq<int>, totals: map<int, real>)
    requires forall k :: k in totals ==> totals[k] >= 0.0
    ensures forall i :: 0 <= i < |months| ==> Revenues(months, totals)[i] >= 0.0
  {
    var r := Revenues(months, totals);
    forall i | 0 <= i < |months| ensures r[i] >= 0.0 {
      var k := months[i];
      assert r[i] == if k in totals then totals[k] else 0.0;
    }
  }

  /** The forecast of a set of charges is never negative. */
  lemma {:induction false} ForecastOfChargesNonNegative(charges: seq<Charge>, j: nat)
    requires |MonthKeys(charges)| >= 2
    ensures var months := SortInts(MonthKeys(charges));
      var revenues := Revenues(months, MonthTotals(charges));
      ForecastEntry(months[|months| - 1], revenues[|revenues| - 1], AverageGrowth(revenues), j).forecastedRevenue >= 0.0
  {
    var months := SortInts(MonthKeys(charges));
    SortedLastIsLatest(MonthKeys(charges));
    var revenues := Revenues(months, MonthTotals(charges));
    RevenuesNonNegative(months, MonthTotals(charges));
    AverageGrowthAtLeastMinusOne(revenues);
    ForecastNonNegative(months[|months| - 1], revenues[|revenues| - 1], AverageGrowth(revenues), j);
  }

  /** The month the forecast starts from is the latest month with a succeeded charge. */
  lemma {:induction false} ForecastStartsAtLatestMonth(charges: seq<Charge>)
    requires |MonthKeys(charges)| >= 2
    ensures var months := SortInts(MonthKeys(charges));
      && |months| == |MonthKeys(charges)|
      && months[|months| - 1] in MonthTotals(charges)
      && forall c :: c in charges && c.status == "succeeded" ==> MonthOf(c) <= months[|months| - 1]
  {
    var keys := MonthKeys(charges);
    SortedLastIsLatest(keys);
    var latest := SortInts(keys)[|keys| - 1];
    assert latest in MonthTotals(charges) by {
      MonthKeysMatchTotals(charges);
    }
    forall c | c in charges && c.status == "succeeded" ensures MonthOf(c) <= latest {
      SucceededMonthIsKey(charges, c);
    }
  }

  /** The month of every succeeded charge is one of the grouped months. */
  lemma {:induction false} SucceededMonthIsKey(charges: seq<Charge>, c: Charge)
    requires c in charges && c.status == "succeeded"
    ensures MonthOf(c) in MonthKeys(charges)
  {
    MonthTotalsDomain(charges);
    MonthKeysMatchTotals(charges);
  }
}

=== FILE: calendar.dfy ===
/**
 * Calendar arithmetic on epoch seconds, in UTC: the proleptic Gregorian
 * date of a timestamp, month keys, `strftime` labels and `timedelta.days`.
 */
module Calendar {
  import Text

  const SecondsPerDay: int := 86400

  datatype Date = Date(year: int, month: int, day: int)

  /** The date `z` days after 1970-01-01 (the civil-from-days algorithm). */
  function CivilFromDays(z: int): Date {
    var z := z + 719468;
    var era := z / 146097;
    var doe := z - era * 146097;
    var yoe := (doe - doe / 1460 + doe / 36524 - doe / 146096) / 365;
    var doy := doe - (365 * yoe + yoe / 4 - yoe / 100);
    var mp := (5 * doy + 2) / 153;
    var d := doy - (153 * mp + 2) / 5 + 1;
    var m := if mp < 10 then mp + 3 else mp - 9;
    var y := yoe + era * 400;
    Date(if m <= 2 then y + 1 else y, m, d)
  }

  /** `datetime.fromtimestamp(ts)` reduced to its date. */
  function DateOf(ts: int): Date {
    CivilFromDays(ts / SecondsPerDay)
  }

  /** Months counted from year 0: the `'%Y-%m'` bucket of a timestamp as one number. */
  function MonthIndex(ts: int): int {
    var d := DateOf(ts);
    d.year * 12 + d.month - 1
  }

  function YearOfIndex(k: int): int { k / 12 }

  function MonthOfIndex(k: int): (m: int)
    ensures 1 <= m <= 12
  {
    k % 12 + 1
  }

  /** A month index is recovered from its year and month. */
  lemma {:induction false} IndexSplit(k: int)
    ensures k == YearOfIndex(k) * 12 + MonthOfIndex(k) - 1
  {
  }

  lemma {:induction false} IndexRoundTrip(y: int, m: int)
    requires 1 <= m <= 12
    ensures YearOfIndex(y * 12 + m - 1) == y && MonthOfIndex(y * 12 + m - 1) == m
  {
  }

  function NumberText(n: int, width: nat): string {
    if n >= 0 then Text.ZeroPad(n, width) else "-" + Text.ZeroPad(-n, width)
  }

  /** `strftime('%Y-%m')` */
  function YearMonthText(year: int, month: int): string {
    NumberText(year, 4) + "-" + NumberText(month, 2)
  }

  /** `datetime.fromtimestamp(ts).strftime('%Y-%m-%d')` */
  function DateText(ts: int): string {
    var d := DateOf(ts);
    NumberText(d.year, 4) + "-" + NumberText(d.month, 2) + "-" + NumberText(d.day, 2)
  }

  /** `(later - earlier).days` for two timestamps: whole days, rounded down. */
  function DaysBetween(earlier: int, later: int): int {
    (later - earlier) / SecondsPerDay
  }
}

=== FILE: charts.dfy ===
/**
 * The subscription figures of the charts module (analytics/charts.py): the
 * monthly-equivalent amount of a subscription and the two tallies behind the
 * status and plan-revenue charts.
 */
module Charts {
  import opened Wrappers
  import opened Records
  import Money
  import Helpers
  import Tally

  /** The factor that turns one billing period's amount into a monthly amount. */
  function MonthlyFactor(interval: string): real {
    if interval == "year" then 1.0 / 12.0
    else if interval == "week" then 4.33
    else if interval == "day" then 30.0
    else 1.0
  }

  /**
   * `get_subscription_amount` of the charts module: the first item's amount
   * converted to a monthly equivalent; month, a missing or an unknown interval
   * leave it unchanged.
   */
  function MonthlyAmount(sub: Subscription): (r: real)
    ensures r >= 0.0
    ensures Helpers.FirstPrice(sub).None? ==> r == 0.0
    ensures Helpers.FirstPrice(sub).Some? && UnitOrLegacyCents(Helpers.FirstPrice(sub).value).None? ==> r == 0.0
  {
    match Helpers.FirstPrice(sub)
    case None => 0.0
    case Some(p) =>
      match UnitOrLegacyCents(p)
      case None => 0.0
      case Some(c) =>
        var amount := Money.Dollars(c) * Quantity(Helpers.FirstItem(sub).value) as real;
        var interval := RawInterval(p);
        if interval == Some("year") then amount / 12.0
        else if interval == Some("week") then amount * 4.33
        else if interval == Some("day") then amount * 30.0
        else amount
  }

  /**
   * The charts amount is the helper module's plain amount scaled by the
   * factor of the helper module's interval (which defaults to 'month').
   */
  lemma {:induction false} MonthlyAmountIsScaledAmount(sub: Subscription)
    ensures MonthlyAmount(sub) == Helpers.Amount(sub) * MonthlyFactor(Helpers.Interval(sub))
  {
    match Helpers.FirstPrice(sub)
    case None =>
    case Some(p) =>
      match RawInterval(p)
      case None =>
      case Some(i) =>
  }

  /** The statuses of the subscriptions, in order. */
  function Statuses(subs: seq<Subscription>): (r: seq<string>)
    ensures |r| == |subs| && forall i :: 0 <= i < |subs| ==> r[i] == subs[i].status
  {
    seq(|subs|, i requires 0 <= i < |subs| => subs[i].status)
  }

  /** The number of subscriptions with the given status. */
  function CountStatus(subs: seq<Subscription>, status: string): (n: nat)
    ensures n <= |subs|
  {
    if subs == [] then 0
    else CountStatus(subs[..|subs| - 1], status) + if subs[|subs| - 1].status == status then 1 else 0
  }

  /** Reading one more subscription adds one to its own status and nothing to the others. */
  lemma {:induction false} CountStatusStep(prefix: seq<Subscription>, sub: Subscription, status: string)
    ensures CountStatus(prefix + [sub], status) == CountStatus(prefix, status) + if sub.status == status then 1 else 0
  {
    var next := prefix + [sub];
    assert next[..|next| - 1] == prefix;
  }

  /** The count of a status is its multiplicity among the subscriptions' statuses. */
  lemma {:induction false} CountStatusIsMultiplicity(subs: seq<Subscription>, status: string)
    ensures CountStatus(subs, status) == multiset(Statuses(subs))[status]
  {
    if subs != [] {
      var init := subs[..|subs| - 1];
      assert Statuses(subs) == Statuses(init) + [subs[|subs| - 1].status];
      CountStatusIsMultiplicity(init, status);
    }
  }

  /** A status has a positive count exactly when some subscription carries it. */
  lemma {:induction false} StatusesCounted(subs: seq<Subscription>, counts: map<string, nat>)
    requires forall s :: s in counts <==> CountStatus(subs, s) > 0
    ensures forall s :: s in counts <==> s in Statuses(subs)
  {
    forall s ensures s in counts <==> s in Statuses(subs) {
      CountStatusIsMultiplicity(subs, s);
    }
  }

  function NatToReal(n: nat): real { n as real }

  /** What the status tally holds after reading `prefix`. */
  ghost predicate StatusTally(prefix: seq<Subscription>, keys: seq<string>, counts: map<string, nat>) {
    && Tally.Ordered(keys, counts)
    && keys == Tally.FirstSeen(Statuses(prefix))
    && (forall s :: s in counts <==> CountStatus(prefix, s) > 0)
    && (forall s :: s in counts ==> counts[s] == CountStatus(prefix, s))
    && Tally.SumOver(keys, counts, NatToReal) == |prefix| as real
  }

  /** The counts after one more subscription are the counts of the longer prefix. */
  lemma {:induction false} CountsStep(prefix: seq<Subscription>, sub: Subscription, counts: map<string, nat>)
    requires forall s :: s in counts <==> CountStatus(prefix, s) > 0
    requires forall s :: s in counts ==> counts[s] == CountStatus(prefix, s)
    ensures var counts' := counts[sub.status := (if sub.status in counts then counts[sub.status] else 0) + 1];
      && (forall s :: s in counts' <==> CountStatus(prefix + [sub], s) > 0)
      && (forall s :: s in counts' ==> counts'[s] == CountStatus(prefix + [sub], s))
  {
    forall s {
      CountStatusStep(prefix, sub, s);
    }
  }

  /** `status_counts[status] = status_counts.get(status, 0) + 1` keeps the tally exact. */
  lemma {:induction false} StatusTallyStep(prefix: seq<Subscription>, sub: Subscription, keys: seq<string>, counts: map<string, nat>)
    requires StatusTally(prefix, keys, counts)
    ensures StatusTally(prefix + [sub], CountOne(keys, counts, sub.status).0, CountOne(keys, counts, sub.status).1)
  {
    var status := sub.status;
    var n := (if status in counts then counts[status] else 0) + 1;
    var next := CountOne(keys, counts, status);
    if status in counts {
      Tally.OrderedUpdate(keys, counts, status, n);
      Tally.SumOverUpdate(keys, counts, status, n, NatToReal);
    } else {
      Tally.OrderedInsert(keys, counts, status, n);
      Tally.SumOverInsert(keys, counts, status, n, NatToReal);
    }
    assert Tally.Ordered(next.0, next.1);
    assert Tally.SumOver(next.0, next.1, NatToReal) == |prefix + [sub]| as real;
    CountsStep(prefix, sub, counts);
    StatusKeysStep(prefix, sub, keys, counts);
  }

  /** The key order after counting one more subscription is still first-seen order. */
  lemma {:induction false} StatusKeysStep(prefix: seq<Subscription>, sub: Subscription, keys: seq<string>, counts: map<string, nat>)
    requires keys == Tally.FirstSeen(Statuses(prefix))
    requires forall s :: s in counts <==> CountStatus(prefix, s) > 0
    ensures CountOne(keys, counts, sub.status).0 == Tally.FirstSeen(Statuses(prefix + [sub]))
  {
    var status := sub.status;
    assert status in counts <==> status in Statuses(prefix) by {
      CountStatusIsMultiplicity(prefix, status);
    }
    assert Statuses(prefix + [sub]) == Statuses(prefix) + [status];
    Tally.FirstSeenSnoc(Statuses(prefix), status);
  }

  /** `status_counts[status] = status_counts.get(status, 0) + 1` on a dictionary kept with its key order. */
  function CountOne(keys: seq<string>, counts: map<string, nat>, status: string): (seq<string>, map<string, nat>) {
    (if status in counts then keys else keys + [status],
     counts[status := (if status in counts then counts[status] else 0) + 1])
  }

  /** The dictionary after counting the statuses of `subs` one by one. */
  function Counted(subs: seq<Subscription>): (seq<string>, map<string, nat>) {
    if subs == [] then ([], map[])
    else
      var prev := Counted(subs[..|subs| - 1]);
      CountOne(prev.0, prev.1, subs[|subs| - 1].status)
  }

  /** Counting one by one yields the exact tally. */
  lemma {:induction false} CountedExact(subs: seq<Subscription>)
    ensures StatusTally(subs, Counted(subs).0, Counted(subs).1)
  {
    if subs != [] {
      var init, last := subs[..|subs| - 1], subs[|subs| - 1];
      assert init + [last] == subs;
      CountedExact(init);
      var prev := Counted(init);
      assert Counted(subs) == CountOne(prev.0, prev.1, last.status);
      StatusTallyStep(init, last, prev.0, prev.1);
    }
  }

  /**
   * The `status_counts` loop of `create_subscription_charts`: one entry per
   * status seen, in order of first appearance, holding its exact count; the
   * counts add up to the number of subscriptions.
   */
  method StatusCounts(subs: seq<Subscription>) returns (keys: seq<string>, counts: map<string, nat>)
    ensures Tally.Ordered(keys, counts) && keys == Tally.FirstSeen(Statuses(subs))
    ensures forall s :: s in counts <==> s in Statuses(subs)
    ensures forall s :: s in counts ==> counts[s] == CountStatus(subs, s) && counts[s] > 0
    ensures Tally.SumOver(keys, counts, NatToReal) == |subs| as real
  {
    keys, counts := [], map[];
    var i := 0;
    while i < |subs|
      invariant 0 <= i <= |subs|
      invariant (keys, counts) == Counted(subs[..i])
    {
      var status := subs[i].status;
      assert subs[..i + 1][..i] == subs[..i];
      if status !in counts {
        keys := keys + [status];
      }
      counts := counts[status := (if status in counts then counts[status] else 0) + 1];
      i := i + 1;
    }
    assert subs[..i] == subs;
    CountedExact(subs);
    StatusesCounted(subs, counts);
  }

  /**
   * One (plan name, monthly amount) entry per active or trialing
   * subscription, in order.
   */
  function PlanEntries(subs: seq<Subscription>): (r: seq<(string, real)>)
    ensures |r| <= |subs|
    ensures forall e :: e in r ==> e.1 >= 0.0
  {
    if subs == [] then []
    else
      var last := subs[|subs| - 1];
      PlanEntries(subs[..|subs| - 1]) + if IsRecurring(last) then [(Helpers.PlanName(last), MonthlyAmount(last))] else []
  }

  lemma {:induction false} PlanEntriesSnoc(subs: seq<Subscription>, i: nat)
    requires i < |subs|
    ensures PlanEntries(subs[..i + 1]) == PlanEntries(subs[..i])
      + if IsRecurring(subs[i]) then [(Helpers.PlanName(subs[i]), MonthlyAmount(subs[i]))] else []
  {
    assert subs[..i + 1][..i] == subs[..i];
  }

  /** One step of the `plan_revenue` loop. */
  function PlanStep(d: (seq<string>, map<string, real>), sub: Subscription): (seq<string>, map<string, real>) {
    if IsRecurring(sub) then Tally.AddOne(d.0, d.1, Helpers.PlanName(sub), MonthlyAmount(sub)) else d
  }

  /** The `plan_revenue` dictionary after reading `subs`. */
  function PlanTally(subs: seq<Subscription>): (seq<string>, map<string, real>) {
    if subs == [] then ([], map[]) else PlanStep(PlanTally(subs[..|subs| - 1]), subs[|subs| - 1])
  }

  lemma {:induction false} PlanTallySnoc(subs: seq<Subscription>, i: nat)
    requires i < |subs|
    ensures PlanTally(subs[..i + 1]) == PlanStep(PlanTally(subs[..i]), subs[i])
  {
    assert subs[..i + 1][..i] == subs[..i];
  }

  /** Reading the subscriptions one by one adds up their plan entries. */
  lemma {:induction false} PlanTallyAccumulates(subs: seq<Subscription>)
    ensures PlanTally(subs) == Tally.Accumulated(PlanEntries(subs))
  {
    if subs != [] {
      var n := |subs| - 1;
      PlanTallyAccumulates(subs[..n]);
      PlanEntriesSnoc(subs, n);
      assert subs[..n + 1] == subs;
      if IsRecurring(subs[n]) {
        Tally.AccumulatedSnoc(PlanEntries(subs[..n]), Helpers.PlanName(subs[n]), MonthlyAmount(subs[n]));
      } else {
        assert PlanEntries(subs) == PlanEntries(subs[..n]);
      }
    }
  }

  method AddPlan(keys: seq<string>, revenue: map<string, real>, sub: Subscription) returns (keys': seq<string>, revenue': map<string, real>)
    ensures (keys', revenue') == PlanStep((keys, revenue), sub)
  {
    keys', revenue' := keys, revenue;
    if IsRecurring(sub) {
      var plan := Helpers.PlanName(sub);
      var amount := MonthlyAmount(sub);
      if plan !in revenue {
        keys' := keys + [plan];
      }
      revenue' := revenue[plan := (if plan in revenue then revenue[plan] else 0.0) + amount];
    }
  }

  /** Subscriptions that are neither active nor trialing contribute nothing. */
  lemma {:induction false} PlanEntriesIgnoreOthers(subs: seq<Subscription>, others: seq<Subscription>)
    requires forall s :: s in others ==> !IsRecurring(s)
    ensures PlanEntries(subs + others) == PlanEntries(subs)
  {
    if others == [] {
      assert subs + others == subs;
    } else {
      var init := others[..|others| - 1];
      var all := subs + others;
      assert all[..|all| - 1] == subs + init;
      assert all[|all| - 1] == others[|others| - 1] && others[|others| - 1] in others;
      PlanEntriesIgnoreOthers(subs, init);
    }
  }

  /** The overall recurring monthly amount is never negative. */
  lemma {:induction false} TotalNonNegative(entries: seq<(string, real)>)
    requires forall e :: e in entries ==> e.1 >= 0.0
    ensures Tally.Total(entries) >= 0.0
  {
    if entries != [] {
      var init := entries[..|entries| - 1];
      assert forall e :: e in init ==> e in entries;
      assert entries[|entries| - 1] in entries;
      TotalNonNegative(init);
    }
  }

  /** Every plan's total is at most the overall total, since no amount is negative. */
  lemma {:induction false} GroupSumAtMostTotal(entries: seq<(string, real)>, plan: string)
    requires forall e :: e in entries ==> e.1 >= 0.0
    ensures 0.0 <= Tally.GroupSum(entries, plan) <= Tally.Total(entries)
  {
    if entries != [] {
      var init := entries[..|entries| - 1];
      assert forall e :: e in init ==> e in entries;
      assert entries[|entries| - 1] in entries;
      GroupSumAtMostTotal(init, plan);
    }
  }

  /**
   * The `plan_revenue` loop of `create_subscription_charts`: one entry per
   * plan name of an active or trialing subscription, in order of first
   * appearance, holding the sum of those subscriptions' monthly amounts; the
   * entries add up to the whole.
   */
  method PlanRevenue(subs: seq<Subscription>) returns (keys: seq<string>, revenue: map<string, real>)
    ensures Tally.Ordered(keys, revenue) && keys == Tally.FirstSeen(Tally.EntryKeys(PlanEntries(subs)))
    ensures forall p :: p in revenue <==> p in Tally.EntryKeys(PlanEntries(subs))
    ensures forall p :: p in revenue ==> revenue[p] == Tally.GroupSum(PlanEntries(subs), p)
    ensures Tally.SumOver(keys, revenue, Tally.RealId) == Tally.Total(PlanEntries(subs))
  {
    keys, revenue := [], map[];
    var i := 0;
    while i < |subs|
      invariant 0 <= i <= |subs|
      invariant (keys, revenue) == PlanTally(subs[..i])
    {
      PlanTallySnoc(subs, i);
      keys, revenue := AddPlan(keys, revenue, subs[i]);
      i := i + 1;
    }
    assert subs[..i] == subs;
    PlanTallyAccumulates(subs);
    Tally.AccumulatedGrouped(PlanEntries(subs));
  }
}

=== FILE: customer_data.dfy ===
/**
 * The customer tag and note store (models/customer_data.py, and its copy in
 * app_original.py). Every operation loads the JSON file, changes the loaded
 * dictionary and writes it back, so the store is modelled as one object
 * whose fields are the file's contents; `saves` counts the writes.
 */
module CustomerData {

  datatype TagDefinition = TagDefinition(color: string, description: string)

  /** One note entry: the text, the time it was taken (ISO format) and the author. */
  datatype Note = Note(note: string, timestamp: string, user: string)

  /** The author written on every note the dashboard adds. */
  const NoteAuthor: string := "Dashboard User"

  /** The four tags the default store defines. */
  const DefaultTagDefinitions: map<string, TagDefinition> := map[
    "VIP" := TagDefinition("green", "High-value customer"),
    "Refund Risk" := TagDefinition("red", "Customer with refund history"),
    "New Customer" := TagDefinition("blue", "Recently acquired customer"),
    "Payment Issues" := TagDefinition("orange", "Has payment problems")]

  predicate Distinct(s: seq<string>) {
    forall i, j :: 0 <= i < j < |s| ==> s[i] != s[j]
  }

  /** `dict.get(key, [])` on the tag map. */
  function TagsOf(tags: map<string, seq<string>>, customerId: string): seq<string> {
    if customerId in tags then tags[customerId] else []
  }

  /** A customer's tag list after adding `tag`: appended at the end unless already there. */
  function WithTag(list: seq<string>, tag: string): (r: seq<string>)
    ensures tag in r
    ensures |r| == |list| + if tag in list then 0 else 1
    ensures r[..|list|] == list
  {
    if tag in list then list else list + [tag]
  }

  /** Adding a tag never introduces a repeat, and adding it twice is the same as adding it once. */
  lemma {:induction false} WithTagKeepsDistinct(list: seq<string>, tag: string)
    ensures Distinct(list) ==> Distinct(WithTag(list, tag))
    ensures WithTag(WithTag(list, tag), tag) == WithTag(list, tag)
  {
  }

  /** `list.remove(tag)`: drops the first occurrence of `tag`. */
  function RemoveFirst(list: seq<string>, tag: string): (r: seq<string>)
    ensures multiset(r) == multiset(list) - multiset{tag}
  {
    if list == [] then []
    else
      assert list == [list[0]] + list[1..];
      if list[0] == tag then list[1..]
      else [list[0]] + RemoveFirst(list[1..], tag)
  }

  /** In a list without repeats, removing a tag removes it completely and keeps the others in order. */
  lemma {:induction false} RemoveFirstDistinct(list: seq<string>, tag: string)
    requires Distinct(list)
    ensures Distinct(RemoveFirst(list, tag))
    ensures tag !in RemoveFirst(list, tag)
    ensures forall t :: t in RemoveFirst(list, tag) <==> t in list && t != tag
  {
    if list != [] {
      assert list == [list[0]] + list[1..];
      assert list[0] !in list[1..];
      if list[0] != tag {
        RemoveFirstDistinct(list[1..], tag);
      }
    }
  }

  /** Removal skips a prefix that does not hold the tag. */
  lemma {:induction false} RemoveFirstSkips(prefix: seq<string>, rest: seq<string>, tag: string)
    requires tag !in prefix
    ensures RemoveFirst(prefix + rest, tag) == prefix + RemoveFirst(rest, tag)
  {
    if prefix != [] {
      var whole := prefix + rest;
      assert whole[0] == prefix[0];
      assert whole[1..] == prefix[1..] + rest;
      RemoveFirstSkips(prefix[1..], rest, tag);
      assert prefix == [prefix[0]] + prefix[1..];
    } else {
      assert prefix + rest == rest;
    }
  }

  /** Removing a tag just added to a list that lacked it gives the list back. */
  lemma {:induction false} RemoveAfterAdd(list: seq<string>, tag: string)
    requires tag !in list
    ensures RemoveFirst(WithTag(list, tag), tag) == list
  {
    RemoveFirstSkips(list, [tag], tag);
    assert RemoveFirst([tag], tag) == [];
  }

  /** The ids in `order` whose tag list contains `tag`, in that order. */
  function Tagged(order: seq<string>, tags: map<string, seq<string>>, tag: string): seq<string> {
    if order == [] then []
    else
      var last := order[|order| - 1];
      Tagged(order[..|order| - 1], tags, tag) + if tag in TagsOf(tags, last) then [last] else []
  }

  /** The search finds exactly the tagged customers, each once when the keys are distinct. */
  lemma {:induction false} TaggedExactly(order: seq<string>, tags: map<string, seq<string>>, tag: string)
    requires Distinct(order)
    ensures forall c :: c in Tagged(order, tags, tag) <==> c in order && tag in TagsOf(tags, c)
    ensures Distinct(Tagged(order, tags, tag))
  {
    if order != [] {
      var init := order[..|order| - 1];
      var last := order[|order| - 1];
      assert order == init + [last];
      TaggedExactly(init, tags, tag);
      assert last !in init;
    }
  }

  class TagStore {
    var customerTags: map<string, seq<string>>
    /** The keys of `customer_tags` in insertion order, the order a search visits them. */
    var customerOrder: seq<string>
    var customerNotes: map<string, seq<Note>>
    var transactionTags: map<string, seq<string>>
    var transactionNotes: map<string, seq<Note>>
    var tagDefinitions: map<string, TagDefinition>
    /** How many times the file has been written. */
    var saves: nat

    /** The key order and the tag map describe the same dictionary. */
    ghost predicate Valid()
      reads this
    {
      Distinct(customerOrder) && forall c :: c in customerOrder <==> c in customerTags
    }

    /** No customer carries the same tag twice. */
    ghost predicate NoRepeatedTags()
      reads this
    {
      forall c :: c in customerTags ==> Distinct(customerTags[c])
    }

    /** The store `load_tags_and_notes` returns when there is no file yet. */
    constructor ()
      ensures Valid() && NoRepeatedTags()
      ensures customerTags == map[] && customerOrder == [] && customerNotes == map[]
      ensures transactionTags == map[] && transactionNotes == map[]
      ensures tagDefinitions == DefaultTagDefinitions && saves == 0
    {
      customerTags, customerOrder, customerNotes := map[], [], map[];
      transactionTags, transactionNotes := map[], map[];
      tagDefinitions := DefaultTagDefinitions;
      saves := 0;
    }

    /** `get_customer_tags`: [] for an unknown customer. */
    function CustomerTags(customerId: string): (tags: seq<string>)
      reads this
      ensures customerId !in customerTags ==> tags == []
      ensures customerId in customerTags ==> tags == customerTags[customerId]
    {
      TagsOf(customerTags, customerId)
    }

    /** `get_customer_notes`: [] for an unknown customer. */
    function CustomerNotes(customerId: string): (notes: seq<Note>)
      reads this
      ensures customerId !in customerNotes ==> notes == []
      ensures customerId in customerNotes ==> notes == customerNotes[customerId]
    {
      if customerId in customerNotes then customerNotes[customerId] else []
    }

    /**
     * `add_customer_tag` of models/customer_data.py: creates the customer's
     * list if needed, appends the tag unless present, and always saves.
     */
    method AddCustomerTag(customerId: string, tag: string)
      requires Valid()
      modifies this
      ensures Valid()
      ensures old(NoRepeatedTags()) ==> NoRepeatedTags()
      ensures customerTags == old(customerTags)[customerId := WithTag(old(CustomerTags(customerId)), tag)]
      ensures customerOrder == if customerId in old(customerTags) then old(customerOrder) else old(customerOrder) + [customerId]
      ensures customerNotes == old(customerNotes) && tagDefinitions == old(tagDefinitions)
      ensures transactionTags == old(transactionTags) && transactionNotes == old(transactionNotes)
      ensures saves == old(saves) + 1
    {
      var list := CustomerTags(customerId);
      if customerId !in customerTags {
        customerOrder := customerOrder + [customerId];
      }
      WithTagKeepsDistinct(list, tag);
      customerTags := customerTags[customerId := WithTag(list, tag)];
      saves := saves + 1;
    }

    /**
     * `add_customer_tag` of app_original.py: the same change, but the file
     * is written only when the tag was new; otherwise nothing changes.
     */
    method AddCustomerTagIfNew(customerId: string, tag: string)
      requires Valid()
      modifies this
      ensures Valid()
      ensures old(NoRepeatedTags()) ==> NoRepeatedTags()
      ensures customerTags == old(customerTags)[customerId := WithTag(old(CustomerTags(customerId)), tag)]
      ensures customerOrder == if customerId in old(customerTags) then old(customerOrder) else old(customerOrder) + [customerId]
      ensures customerNotes == old(customerNotes) && tagDefinitions == old(tagDefinitions)
      ensures transactionTags == old(transactionTags) && transactionNotes == old(transactionNotes)
      ensures saves == old(saves) + if tag in old(CustomerTags(customerId)) then 0 else 1
    {
      var list := CustomerTags(customerId);
      if tag !in list {
        if customerId !in customerTags {
          customerOrder := customerOrder + [customerId];
        }
        customerTags := customerTags[customerId := list + [tag]];
        saves := saves + 1;
      } else {
        assert customerTags[customerId := list] == customerTags;
      }
      WithTagKeepsDistinct(list, tag);
    }

    /**
     * `remove_customer_tag`: when the customer has the tag, its first
     * occurrence is removed and the file saved; otherwise nothing happens.
     */
    method RemoveCustomerTag(customerId: string, tag: string)
      requires Valid()
      modifies this
      ensures Valid()
      ensures old(NoRepeatedTags()) ==> NoRepeatedTags() && tag !in CustomerTags(customerId)
      ensures tag in old(CustomerTags(customerId)) ==>
        customerTags == old(customerTags)[customerId := RemoveFirst(old(customerTags)[customerId], tag)]
        && saves == old(saves) + 1
      ensures tag !in old(CustomerTags(customerId)) ==> customerTags == old(customerTags) && saves == old(saves)
      ensures customerOrder == old(customerOrder)
      ensures customerNotes == old(customerNotes) && tagDefinitions == old(tagDefinitions)
      ensures transactionTags == old(transactionTags) && transactionNotes == old(transactionNotes)
    {
      if customerId in customerTags && tag in customerTags[customerId] {
        var list := customerTags[customerId];
        if Distinct(list) {
          RemoveFirstDistinct(list, tag);
        }
        customerTags := customerTags[customerId := RemoveFirst(list, tag)];
        saves := saves + 1;
      }
    }

    /**
     * `add_customer_note`: appends one entry by the dashboard user, stamped
     * with `timestamp` (the clock reading), creating the list if needed; saves.
     */
    method AddCustomerNote(customerId: string, note: string, timestamp: string)
      requires Valid()
      modifies this
      ensures Valid() && (old(NoRepeatedTags()) ==> NoRepeatedTags())
      ensures customerNotes == old(customerNotes)[customerId := old(CustomerNotes(customerId)) + [Note(note, timestamp, NoteAuthor)]]
      ensures customerTags == old(customerTags) && customerOrder == old(customerOrder)
      ensures tagDefinitions == old(tagDefinitions)
      ensures transactionTags == old(transactionTags) && transactionNotes == old(transactionNotes)
      ensures saves == old(saves) + 1
    {
      if customerId !in customerNotes {
        customerNotes := customerNotes[customerId := []];
      }
      var entry := Note(note, timestamp, NoteAuthor);
      customerNotes := customerNotes[customerId := customerNotes[customerId] + [entry]];
      saves := saves + 1;
    }

    /** `search_customers_by_tag`: the loop over the customers in key order. */
    method SearchCustomersByTag(tag: string) returns (found: seq<string>)
      requires Valid()
      ensures found == Tagged(customerOrder, customerTags, tag)
      ensures forall c :: c in found <==> tag in CustomerTags(c)
      ensures Distinct(found)
    {
      found := [];
      var i := 0;
      while i < |customerOrder|
        invariant 0 <= i <= |customerOrder|
        invariant found == Tagged(customerOrder[..i], customerTags, tag)
      {
        var customerId := customerOrder[i];
        assert customerOrder[..i + 1][..i] == customerOrder[..i];
        var tags := customerTags[customerId];
        if tag in tags {
          found := found + [customerId];
        }
        i := i + 1;
      }
      assert customerOrder[..i] == customerOrder;
      TaggedExactly(customerOrder, customerTags, tag);
    }
  }

  /**
   * Both versions of `add_customer_tag` leave the same data; they differ
   * only in whether an add of a tag already present rewrites the file.
   */
  method AddTagVersionsAgree(a: TagStore, b: TagStore, customerId: string, tag: string)
    requires a != b && a.Valid() && b.Valid()
    requires a.customerTags == b.customerTags && a.customerOrder == b.customerOrder
    requires a.customerNotes == b.customerNotes && a.saves == b.saves
    modifies a, b
    ensures a.customerTags == b.customerTags && a.customerOrder == b.customerOrder && a.customerNotes == b.customerNotes
    ensures a.saves == b.saves + if tag in old(a.CustomerTags(customerId)) then 1 else 0
  {
    a.AddCustomerTag(customerId, tag);
    b.AddCustomerTagIfNew(customerId, tag);
  }
}

=== FILE: fees.dfy ===
/**
 * The Stripe fee estimator (analytics/fees.py, identical but for a comment in
 * analytics/calculations.py): a rule table over the payment-method label,
 * totals and a per-label breakdown over the succeeded charges, and
 * threshold-based recommendations.
 */
module Fees {
  import opened Wrappers
  import opened Records
  import Money
  import Text
  import Tally
  import StripeService

  /**
   * The estimated fee for a charge of `amount` dollars whose payment-method
   * label is `name`, by the first rule that matches the lower-cased label.
   */
  function FeeFor(amount: real, name: string): (r: real)
    ensures r == amount * 0.035 + 0.30 || r == amount * 0.039 + 0.30 || r == amount * 0.029 + 0.30
      || r == (if 5.00 <= amount * 0.008 then 5.00 else amount * 0.008)
    ensures amount >= 0.0 ==> 0.0 <= r <= amount * 0.039 + 0.30
    ensures Text.Contains(Text.Lower(name), "amex") ==> r == amount * 0.035 + 0.30
    ensures var l := Text.Lower(name);
      !Text.Contains(l, "amex") && (Text.Contains(l, "ach") || Text.Contains(l, "bank"))
      ==> r == (if 5.00 <= amount * 0.008 then 5.00 else amount * 0.008)
    ensures var l := Text.Lower(name);
      !Text.Contains(l, "amex") && !Text.Contains(l, "ach") && !Text.Contains(l, "bank") && Text.Contains(l, "international")
      ==> r == amount * 0.039 + 0.30
    ensures var l := Text.Lower(name);
      !Text.Contains(l, "amex") && !Text.Contains(l, "ach") && !Text.Contains(l, "bank") && !Text.Contains(l, "international")
      ==> r == amount * 0.029 + 0.30
  {
    var l := Text.Lower(name);
    if Text.Contains(l, "amex") then amount * 0.035 + 0.30
    else if Text.Contains(l, "ach") || Text.Contains(l, "bank") then (if 5.00 <= amount * 0.008 then 5.00 else amount * 0.008)
    else if Text.Contains(l, "international") then amount * 0.039 + 0.30
    else amount * 0.029 + 0.30
  }

  /** No fee is negative, and a bank transfer's fee is capped at five dollars. */
  lemma {:induction false} FeeBounds(amount: real, name: string)
    requires amount >= 0.0
    ensures FeeFor(amount, name) >= 0.0
    ensures var l := Text.Lower(name);
      !Text.Contains(l, "amex") && (Text.Contains(l, "ach") || Text.Contains(l, "bank"))
      ==> FeeFor(amount, name) <= 5.00
    ensures var l := Text.Lower(name);
      !Text.Contains(l, "amex") && !Text.Contains(l, "ach") && !Text.Contains(l, "bank")
      ==> FeeFor(amount, name) >= 0.30
  {
  }

  /** A label mentioning amex, in any letter case, takes the American Express rule. */
  lemma {:induction false} AmexRule(amount: real, name: string)
    requires Text.Contains(Text.Lower(name), "amex")
    ensures FeeFor(amount, name) == amount * 0.035 + 0.30
  {
  }

  /** A label mentioning neither amex nor any special word takes the standard rule. */
  lemma {:induction false} StandardRule(amount: real, name: string)
    requires var l := Text.Lower(name);
      && !Text.Contains(l, "amex") && !Text.Contains(l, "ach") && !Text.Contains(l, "bank")
      && !Text.Contains(l, "international")
    ensures FeeFor(amount, name) == amount * 0.029 + 0.30
  {
  }

  /** Every character of a contained text occurs in the containing one. */
  lemma {:induction false} ContainedChars(s: string, sub: string, c: char)
    requires Text.Contains(s, sub) && c in sub
    ensures c in s
    decreases |s|
  {
    if Text.StartsWith(s, sub) {
      assert s[..|sub|] == sub;
    } else {
      ContainedChars(s[1..], sub, c);
    }
  }

  /** The payment-method label of a charge, as the estimator reads it. */
  function Label(c: Charge): string {
    StripeService.DetailedPaymentMethod(c)
  }

  /** An ACH debit is labelled 'ACH/Bank Transfer' and charged the capped bank rate. */
  lemma {:induction false} AchDebitGetsBankRate(c: Charge)
    requires c.paymentMethodDetails.Some? && c.paymentMethodDetails.value.pmType == "ach_debit"
    ensures FeeFor(Money.Dollars(c.amount), Label(c)) ==
      if 5.00 <= Money.Dollars(c.amount) * 0.008 then 5.00 else Money.Dollars(c.amount) * 0.008
  {
    AchLabelMatchesBankRule(Label(c));
  }

  /** The lower-cased ACH label contains "ach" and not "amex". */
  lemma {:induction false} AchLabelMatchesBankRule(name: string)
    requires name == "ACH/Bank Transfer"
    ensures var l := Text.Lower(name);
      !Text.Contains(l, "amex") && Text.Contains(l, "ach")
  {
    var l := Text.Lower(name);
    assert Text.StartsWith(l, "ach") by {
      assert l[..3] == "ach";
    }
    forall i | 0 <= i < |l| ensures l[i] != 'x' {
      assert name[i] != 'x' && name[i] != 'X';
    }
    if Text.Contains(l, "amex") {
      ContainedChars(l, "amex", 'x');
    }
  }

  /** A card whose brand mentions amex (in any case) is charged the American Express rate, with or without a wallet. */
  lemma {:induction false} AmexBrandGetsAmexRate(c: Charge)
    requires c.paymentMethodDetails.Some?
    requires c.paymentMethodDetails.value.pmType == "card"
    requires c.paymentMethodDetails.value.card.Some?
    requires TruthyText(c.paymentMethodDetails.value.card.value.brand)
    requires Text.Contains(Text.Lower(c.paymentMethodDetails.value.card.value.brand.value), "amex")
    ensures FeeFor(Money.Dollars(c.amount), Label(c)) == Money.Dollars(c.amount) * 0.035 + 0.30
  {
    AmexBrandLabel(c);
    AmexRule(Money.Dollars(c.amount), Label(c));
  }

  /** The label of a card whose brand mentions amex mentions it too. */
  lemma {:induction false} AmexBrandLabel(c: Charge)
    requires c.paymentMethodDetails.Some?
    requires c.paymentMethodDetails.value.pmType == "card"
    requires c.paymentMethodDetails.value.card.Some?
    requires TruthyText(c.paymentMethodDetails.value.card.value.brand)
    requires Text.Contains(Text.Lower(c.paymentMethodDetails.value.card.value.brand.value), "amex")
    ensures Text.Contains(Text.Lower(Label(c)), "amex")
  {
    var card := c.paymentMethodDetails.value.card.value;
    StripeService.LowerCardLabel(c);
    Text.ContainsExtend(Text.Lower(card.brand.value), Text.Lower(StripeService.CardLabelSuffix(card.wallet)), "amex");
  }

  /** A plain Visa card pays the standard 2.9% + 30 cents. */
  lemma {:induction false} VisaGetsStandardRate(c: Charge)
    requires c.paymentMethodDetails == Some(PaymentMethodDetails("card", Some(Card(Some("visa"), None))))
    ensures FeeFor(Money.Dollars(c.amount), Label(c)) == Money.Dollars(c.amount) * 0.029 + 0.30
  {
    VisaTitle();
    assert Label(c) == "Visa";
    VisaLabelMatchesNoRule(Label(c));
    StandardRule(Money.Dollars(c.amount), Label(c));
  }

  lemma {:induction false} VisaTitle()
    ensures Text.Title("visa") == "Visa"
  {
    var t := Text.Title("visa");
    forall i | 0 <= i < 4 ensures t[i] == "Visa"[i] {
      Text.TitleAt(false, "visa", i);
    }
  }

  /** The lower-cased Visa label matches none of the special rules. */
  lemma {:induction false} VisaLabelMatchesNoRule(name: string)
    requires name == "Visa"
    ensures var l := Text.Lower(name);
      && !Text.Contains(l, "amex") && !Text.Contains(l, "ach") && !Text.Contains(l, "bank")
      && !Text.Contains(l, "international")
  {
    var l := Text.Lower(name);
    assert l == "visa";
    if Text.Contains(l, "amex") { ContainedChars(l, "amex", 'x'); assert false; }
    if Text.Contains(l, "ach") { ContainedChars(l, "ach", 'c'); assert false; }
    if Text.Contains(l, "bank") { ContainedChars(l, "bank", 'b'); assert false; }
    if Text.Contains(l, "international") { ContainedChars(l, "international", 'n'); assert false; }
  }

  /** The succeeded charges, in order. */
  function Succeeded(charges: seq<Charge>): (r: seq<Charge>)
    ensures |r| <= |charges|
  {
    if charges == [] then []
    else
      var last := charges[|charges| - 1];
      Succeeded(charges[..|charges| - 1]) + if last.status == "succeeded" then [last] else []
  }

  function ChargeFee(c: Charge): real {
    FeeFor(Money.Dollars(c.amount), Label(c))
  }

  /** (label, fee) per succeeded charge. */
  function FeeEntries(s: seq<Charge>): (r: seq<(string, real)>)
    ensures |r| == |s|
  {
    if s == [] then []
    else
      var last := s[|s| - 1];
      FeeEntries(s[..|s| - 1]) + [(Label(last), ChargeFee(last))]
  }

  /** (label, 1) per succeeded charge. */
  function CountEntries(s: seq<Charge>): (r: seq<(string, real)>)
    ensures |r| == |s|
  {
    if s == [] then []
    else
      var last := s[|s| - 1];
      CountEntries(s[..|s| - 1]) + [(Label(last), 1.0)]
  }

  /** (label, dollars) per succeeded charge. */
  function RevenueEntries(s: seq<Charge>): (r: seq<(string, real)>)
    ensures |r| == |s|
  {
    if s == [] then []
    else
      var last := s[|s| - 1];
      RevenueEntries(s[..|s| - 1]) + [(Label(last), Money.Dollars(last.amount))]
  }

  /** One row of `fees_by_payment_method`. */
  datatype MethodStats = MethodStats(totalFees: real, count: nat, revenue: real)

  function StatsFees(st: MethodStats): real { st.totalFees }
  function StatsCount(st: MethodStats): real { st.count as real }
  function StatsRevenue(st: MethodStats): real { st.revenue }

  /** Counting one per entry gives the number of entries. */
  lemma {:induction false} CountEntriesTotal(s: seq<Charge>)
    ensures Tally.Total(CountEntries(s)) == |s| as real
  {
    if s != [] {
      CountEntriesTotal(s[..|s| - 1]);
    }
  }

  /** The total estimated fee is never negative. */
  lemma {:induction false} FeeEntriesTotal(s: seq<Charge>)
    ensures Tally.Total(FeeEntries(s)) >= 0.0
  {
    if s != [] {
      FeeBounds(Money.Dollars(s[|s| - 1].amount), Label(s[|s| - 1]));
      FeeEntriesTotal(s[..|s| - 1]);
    }
  }

  const NegotiateRates := "Consider negotiating lower rates with Stripe for your volume"
  const AmexSurcharge := "American Express transactions have higher fees - consider surcharging"
  const CustomPricing := "With your transaction volume, you may qualify for custom pricing"

  /** Some label of the breakdown mentions amex, in any letter case. */
  predicate AnyAmex(labels: seq<string>) {
    exists k :: k in labels && Text.Contains(Text.Lower(k), "amex")
  }

  /** The recommendations, in their fixed order. */
  function Recommendations(feePercentage: real, labels: seq<string>, count: nat): (r: seq<string>)
    ensures |r| <= 3
    ensures r == [] <==> feePercentage <= 3.5 && !AnyAmex(labels) && count <= 100
  {
    Advice(feePercentage > 3.5, AnyAmex(labels), count > 100)
  }

  /** The messages whose conditions hold, in their fixed order. */
  function Advice(highFees: bool, anyAmex: bool, highVolume: bool): seq<string> {
    (if highFees then [NegotiateRates] else [])
    + (if anyAmex then [AmexSurcharge] else [])
    + (if highVolume then [CustomPricing] else [])
  }

  /** Each recommendation is given exactly when its condition holds, and at most once. */
  lemma {:induction false} RecommendationsExact(feePercentage: real, labels: seq<string>, count: nat)
    ensures var r := Recommendations(feePercentage, labels, count);
      && (NegotiateRates in r <==> feePercentage > 3.5)
      && (AmexSurcharge in r <==> AnyAmex(labels))
      && (CustomPricing in r <==> count > 100)
      && |r| <= 3
      && (forall i, j :: 0 <= i < j < |r| ==> r[i] != r[j])
  {
  }

  /** `total_fees / total_revenue * 100`, 0 without revenue. */
  function FeePercentage(fees: real, revenue: real): real {
    if revenue > 0.0 then fees / revenue * 100.0 else 0.0
  }

  /** `total_fees / transaction_count`, 0 without transactions. */
  function AverageFee(fees: real, count: nat): real {
    if count > 0 then fees / count as real else 0.0
  }

  /** A bounded average: with non-negative fees the average fee lies between 0 and the total. */
  lemma {:induction false} AverageFeeBounds(fees: real, count: nat)
    requires fees >= 0.0
    ensures 0.0 <= AverageFee(fees, count) <= fees
    ensures count > 0 ==> AverageFee(fees, count) * count as real == fees
  {
  }

  /** The report `calculate_stripe_fees` returns. */
  datatype FeeReport = FeeReport(
    totalFees: real,
    totalRevenue: real,
    feePercentage: real,
    transactionCount: nat,
    averageFee: real,
    methodKeys: seq<string>,
    byMethod: map<string, MethodStats>,
    recommendations: seq<string>)

  const EmptyReport := FeeReport(0.0, 0.0, 0.0, 0, 0.0, [], map[], [])

  /** What the accumulators hold after the succeeded charges `s`. */
  ghost predicate FeeTally(s: seq<Charge>, count: nat, totalFees: real, totalRevenue: real,
                           keys: seq<string>, byMethod: map<string, MethodStats>) {
    && count == |s|
    && totalFees == Tally.Total(FeeEntries(s))
    && totalRevenue == Tally.Total(RevenueEntries(s))
    && Breakdown(s, keys, byMethod)
  }

  /** The rows of the breakdown hold, label by label, the fees, count and revenue of the charges `s`. */
  ghost predicate Breakdown(s: seq<Charge>, keys: seq<string>, byMethod: map<string, MethodStats>) {
    && Tally.Grouped(FeeEntries(s), keys, byMethod, StatsFees)
    && Tally.Grouped(CountEntries(s), keys, byMethod, StatsCount)
    && Tally.Grouped(RevenueEntries(s), keys, byMethod, StatsRevenue)
  }

  /**
   * The row of a label after one charge: a new label starts from a zero
   * row, then its fees, count and revenue grow by the charge's share.
   */
  function AddTo(byMethod: map<string, MethodStats>, name: string, fee: real, amount: real): MethodStats {
    var st := if name in byMethod then byMethod[name] else MethodStats(0.0, 0, 0.0);
    MethodStats(st.totalFees + fee, st.count + 1, st.revenue + amount)
  }

  /** One succeeded charge updates every accumulator consistently. */
  lemma {:induction false} FeeTallyStep(s: seq<Charge>, c: Charge, st: Accumulators)
    requires FeeTally(s, st.0, st.1, st.2, st.3, st.4)
    ensures var next := ChargeStep(st, c); FeeTally(s + [c], next.0, next.1, next.2, next.3, next.4)
  {
    var next := ChargeStep(st, c);
    FeeTotalsStep(s, c, st.1, st.2, next.1, next.2);
    FeeGroupsStep(s, c, st.3, st.4, next.3, next.4);
  }

  /** The fee and revenue totals grow by the charge's fee and amount. */
  lemma {:induction false} FeeTotalsStep(s: seq<Charge>, c: Charge, fees: real, revenue: real, fees': real, revenue': real)
    requires fees == Tally.Total(FeeEntries(s)) && revenue == Tally.Total(RevenueEntries(s))
    requires fees' == fees + ChargeFee(c) && revenue' == revenue + Money.Dollars(c.amount)
    ensures fees' == Tally.Total(FeeEntries(s + [c])) && revenue' == Tally.Total(RevenueEntries(s + [c]))
  {
    EntriesSnoc(s, c);
    Tally.TotalStep(FeeEntries(s), Label(c), ChargeFee(c));
    Tally.TotalStep(RevenueEntries(s), Label(c), Money.Dollars(c.amount));
  }

  /** Each entry list grows by the charge's own entry. */
  lemma {:induction false} EntriesSnoc(s: seq<Charge>, c: Charge)
    ensures FeeEntries(s + [c]) == FeeEntries(s) + [(Label(c), ChargeFee(c))]
    ensures CountEntries(s + [c]) == CountEntries(s) + [(Label(c), 1.0)]
    ensures RevenueEntries(s + [c]) == RevenueEntries(s) + [(Label(c), Money.Dollars(c.amount))]
  {
    assert (s + [c])[..|s|] == s;
  }

  /** The three per-label breakdowns stay exact after one more charge. */
  lemma {:induction false} FeeGroupsStep(s: seq<Charge>, c: Charge, keys: seq<string>, byMethod: map<string, MethodStats>,
                                         keys': seq<string>, byMethod': map<string, MethodStats>)
    requires Breakdown(s, keys, byMethod)
    requires keys' == if Label(c) in byMethod then keys else keys + [Label(c)]
    requires byMethod' == byMethod[Label(c) := AddTo(byMethod, Label(c), ChargeFee(c), Money.Dollars(c.amount))]
    ensures Breakdown(s + [c], keys', byMethod')
  {
    EntriesSnoc(s, c);
    var name, fee, amount := Label(c), ChargeFee(c), Money.Dollars(c.amount);
    var v := AddTo(byMethod, name, fee, amount);
    Tally.GroupedAdd(FeeEntries(s), name, fee, v, keys, byMethod, StatsFees, keys', byMethod');
    Tally.GroupedAdd(CountEntries(s), name, 1.0, v, keys, byMethod, StatsCount, keys', byMethod');
    Tally.GroupedAdd(RevenueEntries(s), name, amount, v, keys, byMethod, StatsRevenue, keys', byMethod');
  }

  /** The accumulators: count, total fees, total revenue, label order and breakdown. */
  type Accumulators = (nat, real, real, seq<string>, map<string, MethodStats>)

  /** The accumulators after one more succeeded charge. */
  function ChargeStep(st: Accumulators, c: Charge): Accumulators {
    var name, fee, amount := Label(c), ChargeFee(c), Money.Dollars(c.amount);
    (st.0 + 1, st.1 + fee, st.2 + amount,
     if name in st.4 then st.3 else st.3 + [name],
     st.4[name := AddTo(st.4, name, fee, amount)])
  }

  /** The accumulators after the succeeded charges `s`, one at a time. */
  function Accumulated(s: seq<Charge>): Accumulators {
    if s == [] then (0, 0.0, 0.0, [], map[])
    else ChargeStep(Accumulated(s[..|s| - 1]), s[|s| - 1])
  }

  /** Accumulating one charge at a time keeps every total and every row exact. */
  lemma {:induction false} AccumulatedTally(s: seq<Charge>)
    ensures var st := Accumulated(s); FeeTally(s, st.0, st.1, st.2, st.3, st.4)
  {
    if s != [] {
      var init, c := s[..|s| - 1], s[|s| - 1];
      assert init + [c] == s;
      AccumulatedTally(init);
      assert Accumulated(s) == ChargeStep(Accumulated(init), c);
      FeeTallyStep(init, c, Accumulated(init));
    }
  }

  lemma {:induction false} SucceededSnoc(charges: seq<Charge>, i: nat)
    requires i < |charges|
    ensures Succeeded(charges[..i + 1])
      == Succeeded(charges[..i]) + if charges[i].status == "succeeded" then [charges[i]] else []
  {
    assert charges[..i + 1][..i] == charges[..i];
  }

  lemma {:induction false} AccumulatedSnoc(s: seq<Charge>, c: Charge)
    ensures Accumulated(s + [c]) == ChargeStep(Accumulated(s), c)
  {
    assert (s + [c])[..|s|] == s;
  }

  /** The body of the accumulation loop for one succeeded charge. */
  method RecordCharge(count: nat, totalFees: real, totalRevenue: real, keys: seq<string>,
                      byMethod: map<string, MethodStats>, charge: Charge)
    returns (count': nat, totalFees': real, totalRevenue': real, keys': seq<string>, byMethod': map<string, MethodStats>)
    ensures (count', totalFees', totalRevenue', keys', byMethod')
      == ChargeStep((count, totalFees, totalRevenue, keys, byMethod), charge)
  {
    var amount := Money.Dollars(charge.amount);
    var paymentMethod := Label(charge);
    var estimatedFee := FeeFor(amount, paymentMethod);
    count', totalRevenue', totalFees' := count + 1, totalRevenue + amount, totalFees + estimatedFee;
    var row := AddTo(byMethod, paymentMethod, estimatedFee, amount);
    keys' := keys;
    if paymentMethod !in byMethod {
      keys' := keys + [paymentMethod];
    }
    byMethod' := byMethod[paymentMethod := row];
  }

  /**
   * The accumulation loop of `calculate_stripe_fees`: over the succeeded
   * charges, the count, the revenue, the estimated fees and the per-label
   * breakdown.
   */
  method AccumulateFees(charges: seq<Charge>)
    returns (count: nat, totalFees: real, totalRevenue: real, keys: seq<string>, byMethod: map<string, MethodStats>)
    ensures FeeTally(Succeeded(charges), count, totalFees, totalRevenue, keys, byMethod)
  {
    totalFees, totalRevenue, count := 0.0, 0.0, 0;
    keys, byMethod := [], map[];
    var i := 0;
    while i < |charges|
      invariant 0 <= i <= |charges|
      invariant (count, totalFees, totalRevenue, keys, byMethod) == Accumulated(Succeeded(charges[..i]))
    {
      var charge := charges[i];
      SucceededSnoc(charges, i);
      if charge.status == "succeeded" {
        AccumulatedSnoc(Succeeded(charges[..i]), charge);
        count, totalFees, totalRevenue, keys, byMethod := RecordCharge(count, totalFees, totalRevenue, keys, byMethod, charge);
      } else {
        assert Succeeded(charges[..i + 1]) == Succeeded(charges[..i]);
      }
      i := i + 1;
    }
    assert charges[..i] == charges;
    AccumulatedTally(Succeeded(charges));
  }

  /** The recommendation block of `calculate_stripe_fees`, appending each message whose condition holds. */
  method Recommend(feePercentage: real, keys: seq<string>, count: nat) returns (recommendations: seq<string>)
    ensures recommendations == Recommendations(feePercentage, keys, count)
  {
    recommendations := [];
    if feePercentage > 3.5 {
      recommendations := recommendations + [NegotiateRates];
    }
    if AnyAmex(keys) {
      recommendations := recommendations + [AmexSurcharge];
    }
    if count > 100 {
      recommendations := recommendations + [CustomPricing];
    }
  }

  /**
   * `calculate_stripe_fees`. Over the succeeded charges: the count, the
   * revenue and the estimated fees, and a breakdown per payment-method label
   * (in order of first appearance) whose rows hold that label's fees, count
   * and revenue and add up to the totals; the fee percentage and the
   * average fee with their zero guards; the recommendations. Money figures
   * are rounded to cents, from the unrounded totals.
   */
  method CalculateStripeFees(charges: seq<Charge>) returns (r: FeeReport)
    ensures charges == [] ==> r == EmptyReport
    ensures var s := Succeeded(charges);
      var fees := Tally.Total(FeeEntries(s));
      var revenue := Tally.Total(RevenueEntries(s));
      && r.transactionCount == |s|
      && r.totalFees == Money.Round2(fees)
      && r.totalRevenue == Money.Round2(revenue)
      && r.feePercentage == Money.Round2(FeePercentage(fees, revenue))
      && r.averageFee == Money.Round2(AverageFee(fees, |s|))
      && r.recommendations == Recommendations(FeePercentage(fees, revenue), r.methodKeys, |s|)
    ensures var s := Succeeded(charges);
      && Tally.Grouped(FeeEntries(s), r.methodKeys, r.byMethod, StatsFees)
      && Tally.Grouped(CountEntries(s), r.methodKeys, r.byMethod, StatsCount)
      && Tally.Grouped(RevenueEntries(s), r.methodKeys, r.byMethod, StatsRevenue)
      && Tally.SumOver(r.methodKeys, r.byMethod, StatsCount) == r.transactionCount as real
  {
    if charges == [] {
      return EmptyReport;
    }
    var count, totalFees, totalRevenue, keys, byMethod := AccumulateFees(charges);
    CountEntriesTotal(Succeeded(charges));
    var feePercentage := FeePercentage(totalFees, totalRevenue);
    var averageFee := AverageFee(totalFees, count);
    var recommendations := Recommend(feePercentage, keys, count);
    r := FeeReport(Money.Round2(totalFees), Money.Round2(totalRevenue), Money.Round2(feePercentage), count,
                   Money.Round2(averageFee), keys, byMethod, recommendations);
  }

  /** Charges that did not succeed leave the report's figures as if they were absent. */
  lemma {:induction false} SucceededIgnoresOthers(charges: seq<Charge>, others: seq<Charge>)
    requires forall c :: c in others ==> c.status != "succeeded"
    ensures Succeeded(charges + others) == Succeeded(charges)
  {
    if others == [] {
      assert charges + others == charges;
    } else {
      var init := others[..|others| - 1];
      var all := charges + others;
      assert all[..|all| - 1] == charges + init;
      assert all[|all| - 1] == others[|others| - 1] && others[|others| - 1] in others;
      SucceededIgnoresOthers(charges, init);
    }
  }
}

=== FILE: formatters.dfy ===
/**
 * The export formatters (utils/formatters.py): the product label of a charge
 * and the customer name written to exports.
 */
module Formatters {
  import opened Wrappers
  import opened Records
  import Text

  /** The description is used unless it is a generic "payment for ..." text (any letter case). */
  predicate GenericDescription(desc: string) {
    Text.StartsWith(Text.Lower(desc), "payment for")
  }

  /** One of the three metadata keys that name a product is present. */
  predicate HasMetadataName(md: map<string, string>) {
    "product_name" in md || "product" in md || "item_name" in md
  }

  /** The charge has a description that is not a generic "payment for ..." text. */
  predicate UsableDescription(charge: Charge) {
    TruthyText(charge.description) && !GenericDescription(charge.description.value)
  }

  /**
   * The sources of a product label that are available, in priority order:
   * metadata `product_name`, `product`, `item_name`, a usable description,
   * the statement descriptor, and finally "Payment", which always is.
   */
  function ProductCandidates(charge: Charge): (c: seq<string>)
    ensures c != [] && c[|c| - 1] == "Payment"
  {
    var md := charge.metadata;
    (if "product_name" in md then [md["product_name"]] else [])
    + (if "product" in md then [md["product"]] else [])
    + (if "item_name" in md then [md["item_name"]] else [])
    + (if UsableDescription(charge) then [charge.description.value] else [])
    + (if TruthyText(charge.statementDescriptor) then [charge.statementDescriptor.value] else [])
    + ["Payment"]
  }

  /**
   * `get_product_info_for_chart`: the first of metadata `product_name`,
   * `product`, `item_name`; then a description that does not start with
   * "payment for"; then the statement descriptor; otherwise 'Payment'.
   */
  function ProductInfoForChart(charge: Charge): (r: string)
    ensures "product_name" in charge.metadata ==> r == charge.metadata["product_name"]
    ensures "product_name" !in charge.metadata && "product" in charge.metadata ==> r == charge.metadata["product"]
    ensures "product_name" !in charge.metadata && "product" !in charge.metadata && "item_name" in charge.metadata
      ==> r == charge.metadata["item_name"]
    ensures HasMetadataName(charge.metadata) ==> r in charge.metadata.Values
    ensures !HasMetadataName(charge.metadata) && UsableDescription(charge) ==> r == charge.description.value
    ensures !HasMetadataName(charge.metadata) && !UsableDescription(charge) && TruthyText(charge.statementDescriptor)
      ==> r == charge.statementDescriptor.value
    ensures !HasMetadataName(charge.metadata) && !UsableDescription(charge) && !TruthyText(charge.statementDescriptor)
      ==> r == "Payment"
  {
    var md := charge.metadata;
    if "product_name" in md then md["product_name"]
    else if "product" in md then md["product"]
    else if "item_name" in md then md["item_name"]
    else if TruthyText(charge.description) && !GenericDescription(charge.description.value) then charge.description.value
    else if TruthyText(charge.statementDescriptor) then charge.statementDescriptor.value
    else "Payment"
  }

  /** The label is the first available candidate of the priority chain. */
  lemma {:induction false} ProductInfoIsFirstCandidate(charge: Charge)
    ensures ProductInfoForChart(charge) == ProductCandidates(charge)[0]
  {
    var md := charge.metadata;
    if "product_name" in md {
    } else if "product" in md {
    } else if "item_name" in md {
    } else if UsableDescription(charge) {
    } else if TruthyText(charge.statementDescriptor) {
    }
  }

  /** "Payment" comes from the fallback only when no other source is available. */
  lemma {:induction false} PaymentOnlyAsLastResort(charge: Charge)
    requires |ProductCandidates(charge)| == 1
    ensures ProductInfoForChart(charge) == "Payment"
    ensures !HasMetadataName(charge.metadata) && !UsableDescription(charge) && !TruthyText(charge.statementDescriptor)
  {
    ProductInfoIsFirstCandidate(charge);
  }

  /** "Payment for order 12" in any letter case counts as generic. */
  lemma {:induction false} GenericDescriptionIgnoresCase(desc: string)
    ensures GenericDescription(desc) <==> GenericDescription(Text.Lower(desc))
  {
    var l := Text.Lower(desc);
    assert Text.Lower(l) == l by {
      forall i | 0 <= i < |l| ensures Text.Lower(l)[i] == l[i] { }
    }
  }

  /** An expanded customer's truthy name, else its truthy email, else 'Guest'. */
  function ExpandedName(customer: CustomerRef): string
    requires customer.CustomerObject?
  {
    if TruthyText(customer.name) then customer.name.value
    else if TruthyText(customer.email) then customer.email.value
    else "Guest"
  }

  /**
   * `get_customer_name_for_export`: 'Guest' for no customer; an expanded
   * customer's name, else its email, else 'Guest'; a bare id is exported in full.
   */
  function CustomerNameForExport(customer: CustomerRef): (r: string)
    ensures customer.NoCustomer? ==> r == "Guest"
    ensures customer.CustomerId? && customer.id != "" ==> r == customer.id
    ensures customer.CustomerObject? ==> r == ExpandedName(customer)
    ensures r != ""
  {
    match customer
    case NoCustomer => "Guest"
    case CustomerId(id) => if id == "" then "Guest" else id
    case CustomerObject(_, name, email) =>
      if TruthyText(name) then name.value
      else if TruthyText(email) then email.value
      else "Guest"
  }
}

=== FILE: helpers.dfy ===
/** Subscription record normalisers of the helper module (utils/helpers.py). */
module Helpers {
  import opened Wrappers
  import opened Records
  import Money
  import Text

  /**
   * `get_subscription_items_data`: the list object's `data`, else the
   * elements of an iterable `items`, else nothing.
   */
  function ItemsData(sub: Subscription): (items: seq<Item>)
    ensures sub.items.ItemList? ==> items == sub.items.data
    ensures sub.items.ItemIterable? ==> items == sub.items.elements
    ensures sub.items.NoItems? || sub.items.ItemsOther? ==> items == []
  {
    match sub.items
    case ItemList(data) => data
    case ItemIterable(elements) => elements
    case _ => []
  }

  /** The first item, the only one every helper looks at. */
  function FirstItem(sub: Subscription): Option<Item> {
    First(ItemsData(sub))
  }

  /** The expanded price record of the first item, when there is one. */
  function FirstPrice(sub: Subscription): (r: Option<Price>)
    ensures r.Some? <==> FirstItem(sub).Some? && FirstItem(sub).value.price.PriceObject?
  {
    match FirstItem(sub)
    case Some(Item(PriceObject(p), _)) => Some(p)
    case _ => None
  }

  /**
   * `get_subscription_amount`: the first item's amount in dollars times its
   * quantity, without any interval conversion; 0 when there is nothing to read.
   */
  function Amount(sub: Subscription): (r: real)
    ensures r >= 0.0
    ensures FirstPrice(sub).None? ==> r == 0.0
    ensures FirstPrice(sub).Some? ==>
      var c := UnitOrLegacyCents(FirstPrice(sub).value);
      r == if c.Some? then Money.Dollars(c.value) * Quantity(FirstItem(sub).value) as real else 0.0
  {
    match FirstItem(sub)
    case Some(item) =>
      if item.price.PriceObject? then
        match UnitOrLegacyCents(item.price.price)
        case Some(c) => Money.Dollars(c) * Quantity(item) as real
        case None => 0.0
      else 0.0
    case None => 0.0
  }

  /** `get_subscription_interval`: the first price's interval, else 'month'. */
  function Interval(sub: Subscription): (r: string)
    ensures FirstPrice(sub).Some? && RawInterval(FirstPrice(sub).value).Some? ==>
      r == RawInterval(FirstPrice(sub).value).value
    ensures FirstPrice(sub).None? || RawInterval(FirstPrice(sub).value).None? ==> r == "month"
  {
    match FirstPrice(sub)
    case Some(p) => RawInterval(p).GetOr("month")
    case None => "month"
  }

  const StatusColors: map<string, string> := map[
    "active" := "green", "trialing" := "blue", "past_due" := "orange",
    "canceled" := "red", "unpaid" := "red", "incomplete" := "orange",
    "incomplete_expired" := "red"]

  const StatusDescriptions: map<string, string> := map[
    "active" := "Active subscription", "trialing" := "In trial period",
    "past_due" := "Payment overdue", "canceled" := "Subscription canceled",
    "unpaid" := "Payment failed", "incomplete" := "Setup incomplete",
    "incomplete_expired" := "Setup expired"]

  datatype StatusInfo = StatusInfo(status: string, color: string, description: string)

  /** `get_subscription_status_info` */
  function SubscriptionStatusInfo(sub: Subscription): (r: StatusInfo)
    ensures r.status == sub.status
    ensures r.color in {"green", "blue", "orange", "red", "gray"}
    ensures sub.status in StatusColors.Keys <==> r.color != "gray"
    ensures sub.status in StatusDescriptions.Keys <==> r.description != "Unknown status"
    ensures sub.status == "active" ==> r.color == "green" && r.description == "Active subscription"
    ensures sub.status == "canceled" ==> r.color == "red" && r.description == "Subscription canceled"
  {
    StatusInfo(
      sub.status,
      if sub.status in StatusColors then StatusColors[sub.status] else "gray",
      if sub.status in StatusDescriptions then StatusDescriptions[sub.status] else "Unknown status")
  }

  /** Both status tables cover the same seven subscription statuses. */
  lemma {:induction false} StatusTablesAgree()
    ensures StatusColors.Keys == StatusDescriptions.Keys
    ensures StatusColors.Keys == {"active", "trialing", "past_due", "canceled", "unpaid", "incomplete", "incomplete_expired"}
  {
  }

  /** `"Plan (" + id[-8:] + ")"` */
  function PlanLabel(id: string): string {
    "Plan (" + Text.Suffix8(id) + ")"
  }

  /** The name a price record gives itself, following the plan-name priority. */
  function PriceName(p: Price): Option<string> {
    match p.product
    case ProductObject(Some(name)) => Some(name)
    case ProductId(pid) =>
      if pid != "" then Some(pid)
      else if TruthyText(p.nickname) then p.nickname
      else if p.id.Some? then Some(PlanLabel(p.id.value))
      else None
    case _ =>
      if TruthyText(p.nickname) then p.nickname
      else if p.id.Some? then Some(PlanLabel(p.id.value))
      else None
  }

  /**
   * The plan-name candidates in priority order: product name, product id,
   * nickname, price id label, subscription id label. The last always exists.
   */
  function PlanNameCandidates(sub: Subscription): (c: seq<string>)
    ensures c != [] && c[|c| - 1] == PlanLabel(sub.id)
  {
    match FirstPrice(sub)
    case None => [PlanLabel(sub.id)]
    case Some(p) =>
      (match p.product
       case ProductObject(Some(name)) => [name]
       case ProductId(pid) => if pid != "" then [pid] else []
       case _ => [])
      + (if TruthyText(p.nickname) then [p.nickname.value] else [])
      + (if p.id.Some? then [PlanLabel(p.id.value)] else [])
      + [PlanLabel(sub.id)]
  }

  /** `get_subscription_plan_name`: the first candidate that is available. */
  function PlanName(sub: Subscription): (r: string)
    ensures FirstPrice(sub).None? ==> r == PlanLabel(sub.id)
    ensures FirstPrice(sub).Some? && PriceName(FirstPrice(sub).value).None? ==> r == PlanLabel(sub.id)
    ensures FirstPrice(sub).Some? && PriceName(FirstPrice(sub).value).Some? ==> r == PriceName(FirstPrice(sub).value).value
  {
    match FirstPrice(sub)
    case Some(p) => PriceName(p).GetOr(PlanLabel(sub.id))
    case None => PlanLabel(sub.id)
  }

  /** The plan name is the first available candidate of the priority chain. */
  lemma {:induction false} PlanNameIsFirstCandidate(sub: Subscription)
    ensures PlanName(sub) == PlanNameCandidates(sub)[0]
  {
    match FirstPrice(sub)
    case None =>
    case Some(p) =>
      if p.product.ProductObject? && p.product.name.Some? {
      } else if p.product.ProductId? && p.product.id != "" {
      } else if TruthyText(p.nickname) {
      } else if p.id.Some? {
      } else {
      }
  }
}

=== FILE: money.dfy ===
/**
 * Currency arithmetic on exact rationals: minor units (cents) are `nat`,
 * major units (dollars) are `real`, and `round(x, 2)` is a separate step.
 */
module Money {
  import Text

  /** `amount / 100`: minor currency units to dollars. */
  function Dollars(cents: int): real {
    cents as real / 100.0
  }

  /** `round(x, 2)`, rounding half up on exact values. */
  function Round2(x: real): (r: real)
    ensures x - 0.005 < r <= x + 0.005
  {
    (x * 100.0 + 0.5).Floor as real / 100.0
  }

  /** A value that already has at most two decimals is left unchanged by rounding. */
  lemma {:induction false} Round2OfCents(c: int)
    ensures Round2(Dollars(c)) == Dollars(c)
  {
    var v := Dollars(c) * 100.0 + 0.5;
    assert v == c as real + 0.5;
    assert v.Floor == c;
  }

  /** Rounding is monotone. */
  lemma {:induction false} Round2Monotone(x: real, y: real)
    requires x <= y
    ensures Round2(x) <= Round2(y)
  {
    var a, b := x * 100.0 + 0.5, y * 100.0 + 0.5;
    assert a <= b;
    assert a.Floor <= b.Floor;
  }

  /** `x ** n` for a natural exponent. */
  function Pow(x: real, n: nat): real {
    if n == 0 then 1.0 else x * Pow(x, n - 1)
  }

  lemma {:induction false} PowAtLeastOne(x: real, n: nat)
    requires x >= 1.0
    ensures Pow(x, n) >= 1.0
  {
    if n > 0 { PowAtLeastOne(x, n - 1); }
  }

  lemma {:induction false} PowNonNegative(x: real, n: nat)
    requires x >= 0.0
    ensures Pow(x, n) >= 0.0
  {
    if n > 0 { PowNonNegative(x, n - 1); }
  }

  lemma {:induction false} PowOfOne(n: nat)
    ensures Pow(1.0, n) == 1.0
  {
    if n > 0 { PowOfOne(n - 1); }
  }

  /** A whole number of cents written with two decimals, as `f"{c / 100:.2f}"` writes it. */
  function CentsText(c: nat): string {
    Text.Decimal(c / 100) + "." + Text.ZeroPad(c % 100, 2)
  }

  lemma {:induction false} ParseLeadingZero(s: string)
    requires forall i :: 0 <= i < |s| ==> '0' <= s[i] <= '9'
    ensures Text.ParseDecimal("0" + s) == Text.ParseDecimal(s)
    decreases |s|
  {
    if s != [] {
      var z := "0" + s;
      assert z[..|z| - 1] == "0" + s[..|s| - 1];
      ParseLeadingZero(s[..|s| - 1]);
    }
  }

  lemma {:induction false} ParseZeroPad(n: nat, width: nat)
    ensures Text.ParseDecimal(Text.ZeroPad(n, width)) == n
    decreases width
  {
    if |Text.Decimal(n)| >= width {
      Text.ParseDecimalRoundTrip(n);
    } else {
      ParseZeroPad(n, width - 1);
      ParseLeadingZero(Text.ZeroPad(n, width - 1));
    }
  }

  lemma {:induction false} ZeroPadTwo(n: nat)
    requires n < 100
    ensures |Text.ZeroPad(n, 2)| == 2
  {
    if n >= 10 {
      assert Text.Decimal(n) == Text.Decimal(n / 10) + [Text.DigitChar(n % 10)];
    }
  }

  /**
   * The text shows exactly the amount: the digits before the point are the
   * whole dollars, the two after it the remaining cents.
   */
  lemma {:induction false} CentsTextZero()
    ensures CentsText(0) == "0.00"
  {
    assert Text.Decimal(0) == "0";
    assert Text.ZeroPad(0, 1) == "0";
    assert Text.ZeroPad(0, 2) == "00";
  }

  lemma {:induction false} CentsTextRoundTrip(c: nat)
    ensures var s := CentsText(c);
      && |s| >= 4 && s[|s| - 3] == '.'
      && s[..|s| - 3] == Text.Decimal(c / 100)
      && s[|s| - 2..] == Text.ZeroPad(c % 100, 2)
      && Text.ParseDecimal(s[..|s| - 3]) * 100 + Text.ParseDecimal(s[|s| - 2..]) == c
  {
    var s := CentsText(c);
    var w, f := Text.Decimal(c / 100), Text.ZeroPad(c % 100, 2);
    ZeroPadTwo(c % 100);
    assert s == w + "." + f;
    assert s[..|s| - 3] == w;
    assert s[|s| - 2..] == f;
    Text.ParseDecimalRoundTrip(c / 100);
    ParseZeroPad(c % 100, 2);
  }
}

=== FILE: pdf_export.dfy ===
/**
 * The page layout of the PDF financial report (exports/pdf_export.py): the
 * header, the greedy word wrap of the summary with its page breaks, and the
 * key-metrics list. The canvas is modelled as the sequence of drawing
 * operations it receives; y positions are in points from the bottom of a
 * US-letter page.
 */
module PdfExport {
  import Text

  datatype Op =
    | SetFont(name: string, size: nat)
    | DrawString(x: int, y: int, text: string)
    | ShowPage

  /** Height of a US-letter page in points. */
  const Height: int := 792
  /** Every string is drawn at this x position. */
  const Margin: int := 100
  /** Vertical distance between two drawn lines. */
  const Leading: int := 15
  /** A word joins the current line only while line plus word stays below this many characters. */
  const LineLimit: int := 80
  const Title: string := "Team Orlando Water Polo Club - Financial Report"

  // ---------------------------------------------------------------------
  // Word wrap

  /** The text of a line under construction: every word followed by one space. */
  function Spaced(group: seq<string>): (r: string)
    ensures group != [] ==> |r| >= 1 && r[|r| - 1] == ' '
  {
    if group == [] then "" else Spaced(group[..|group| - 1]) + group[|group| - 1] + " "
  }

  /** The lines finished so far and the words of the line under construction. */
  datatype Wrap = Wrap(lines: seq<seq<string>>, group: seq<string>)

  /** One word of the wrap loop: it joins the current line if that stays short, else starts a new one. */
  function WrapStep(w: Wrap, word: string): Wrap {
    if |Spaced(w.group) + word| < LineLimit then Wrap(w.lines, w.group + [word])
    else Wrap(w.lines + [w.group], [word])
  }

  /** The state of the wrap loop after `words`. */
  function WrapWords(words: seq<string>): Wrap {
    if words == [] then Wrap([], [])
    else WrapStep(WrapWords(words[..|words| - 1]), words[|words| - 1])
  }

  /** The drawn text of each finished line: its words, stripped. */
  function Texts(lines: seq<seq<string>>): (r: seq<string>)
    ensures |r| == |lines|
  {
    if lines == [] then []
    else Texts(lines[..|lines| - 1]) + [Text.Strip(Spaced(lines[|lines| - 1]))]
  }

  /** The strings drawn for a wrapped line: the finished lines, then the rest if there is any. */
  function WrapTexts(w: Wrap): seq<string> {
    Texts(w.lines) + if Spaced(w.group) != "" then [Text.Strip(Spaced(w.group))] else []
  }

  /** The strings one summary line is drawn as. */
  function LineTexts(line: string): seq<string> {
    WrapTexts(WrapWords(Text.Split(line, ' ')))
  }

  /** The words of a sequence of lines, in order. */
  function Flatten(lines: seq<seq<string>>): seq<string> {
    if lines == [] then [] else Flatten(lines[..|lines| - 1]) + lines[|lines| - 1]
  }

  /** After at least one word the line under construction is never empty. */
  lemma {:induction false} WrapGroupNonEmpty(words: seq<string>)
    requires words != []
    ensures WrapWords(words).group != []
  {
  }

  /** Every summary line, even an empty one, is drawn as at least one string. */
  lemma {:induction false} LineTextsNonEmpty(line: string)
    ensures |LineTexts(line)| >= 1
  {
    WrapGroupNonEmpty(Text.Split(line, ' '));
  }

  /** Wrapping never splits, drops or reorders a word. */
  lemma {:induction false} WrapKeepsWords(words: seq<string>)
    ensures var w := WrapWords(words); Flatten(w.lines + [w.group]) == words
  {
    if words != [] {
      var init, word := words[..|words| - 1], words[|words| - 1];
      assert words == init + [word];
      var w := WrapWords(init);
      WrapKeepsWords(init);
      FlattenSnoc(w.lines, w.group);
      var r := WrapStep(w, word);
      FlattenSnoc(r.lines, r.group);
      if |Spaced(w.group) + word| < LineLimit {
        assert Flatten(r.lines) + r.group == (Flatten(w.lines) + w.group) + [word];
      } else {
        assert Flatten(r.lines) + r.group == init + [word];
      }
    }
  }

  lemma {:induction false} FlattenSnoc(lines: seq<seq<string>>, group: seq<string>)
    ensures Flatten(lines + [group]) == Flatten(lines) + group
  {
    assert (lines + [group])[..|lines|] == lines;
  }

  /** A line made of two or more words is at most `LineLimit` characters, trailing space included. */
  predicate ShortWhenShared(group: seq<string>) {
    |group| >= 2 ==> |Spaced(group)| <= LineLimit
  }

  lemma {:induction false} WrapLinesShort(words: seq<string>)
    ensures var w := WrapWords(words);
      ShortWhenShared(w.group) && forall i :: 0 <= i < |w.lines| ==> ShortWhenShared(w.lines[i])
  {
    if words != [] {
      var init := words[..|words| - 1];
      var word := words[|words| - 1];
      WrapLinesShort(init);
      var w := WrapWords(init);
      assert Spaced(w.group + [word]) == Spaced(w.group) + word + " " by {
        assert (w.group + [word])[..|w.group|] == w.group;
      }
    }
  }

  /** Any drawn string built from two or more words is shorter than `LineLimit`. */
  lemma {:induction false} SharedLinesFit(group: seq<string>)
    requires |group| >= 2 && ShortWhenShared(group)
    ensures |Text.Strip(Spaced(group))| < LineLimit
  {
  }

  /** The wrap never revises a finished line. */
  lemma {:induction false} WrapKeepsFirstLine(words: seq<string>)
    requires |words| >= 1 && |words[0]| >= LineLimit
    ensures var w := WrapWords(words); |w.lines| >= 1 && w.lines[0] == []
  {
    if |words| == 1 {
      assert words[..0] == [];
    } else {
      var init := words[..|words| - 1];
      assert init[0] == words[0];
      WrapKeepsFirstLine(init);
    }
  }

  /** A first word of `LineLimit` or more characters is preceded by an empty drawn string. */
  lemma {:induction false} LongFirstWordDrawsEmpty(line: string)
    requires |Text.Split(line, ' ')[0]| >= LineLimit
    ensures LineTexts(line)[0] == ""
  {
    var w := WrapWords(Text.Split(line, ' '));
    WrapKeepsFirstLine(Text.Split(line, ' '));
    TextsAt(w.lines, 0);
  }

  lemma {:induction false} TextsAt(lines: seq<seq<string>>, i: nat)
    requires i < |lines|
    ensures Texts(lines)[i] == Text.Strip(Spaced(lines[i]))
  {
    if i < |lines| - 1 {
      TextsAt(lines[..|lines| - 1], i);
    }
  }

  // ---------------------------------------------------------------------
  // Drawing

  /** `texts` drawn one under the other, the first at `y`. */
  function Draws(texts: seq<string>, y: int): (r: seq<Op>)
    ensures |r| == |texts|
  {
    if texts == [] then []
    else Draws(texts[..|texts| - 1], y) + [DrawString(Margin, y - Leading * (|texts| - 1), texts[|texts| - 1])]
  }

  /** The k-th string is drawn `Leading` points below the one before it. */
  lemma {:induction false} DrawsAt(texts: seq<string>, y: int, k: nat)
    requires k < |texts|
    ensures Draws(texts, y)[k] == DrawString(Margin, y - Leading * k, texts[k])
  {
    if k < |texts| - 1 {
      DrawsAt(texts[..|texts| - 1], y, k);
    }
  }

  /**
   * The inner loop for one summary line: words are gathered into
   * `current_line` and each finished line is drawn 15 points lower.
   */
  method DrawLine(line: string, y0: int) returns (ops: seq<Op>, y: int)
    ensures ops == Draws(LineTexts(line), y0)
    ensures y == y0 - Leading * |LineTexts(line)|
  {
    ops, y := DrawWords(Text.Split(line, ' '), y0);
  }

  method DrawWords(words: seq<string>, y0: int) returns (ops: seq<Op>, y: int)
    ensures ops == Draws(WrapTexts(WrapWords(words)), y0)
    ensures y == y0 - Leading * |WrapTexts(WrapWords(words))|
  {
    var current := "";
    ops, y := [], y0;
    var i := 0;
    while i < |words|
      invariant 0 <= i <= |words|
      invariant (current, ops, y) == WordLoop(WrapWords(words[..i]), y0)
    {
      WrapWordsSnoc(words, i);
      current, ops, y := AddWord(current, ops, y, words[i], y0, WrapWords(words[..i]));
      i := i + 1;
    }
    assert words[..i] == words;
    ops, y := FlushLine(current, ops, y, y0, WrapWords(words));
  }

  /** The variables of the word loop once the words of `w` are placed: the line under construction, the drawn strings, the next y. */
  function WordLoop(w: Wrap, y0: int): (string, seq<Op>, int) {
    (Spaced(w.group), Draws(Texts(w.lines), y0), y0 - Leading * |w.lines|)
  }

  /**
   * One pass of the word loop: the word joins the line under construction
   * when the line stays under `LineLimit`; otherwise that line is drawn and
   * the word starts the next one.
   */
  method AddWord(current: string, ops: seq<Op>, y: int, word: string, y0: int, ghost w: Wrap)
    returns (current': string, ops': seq<Op>, y': int)
    requires (current, ops, y) == WordLoop(w, y0)
    ensures (current', ops', y') == WordLoop(WrapStep(w, word), y0)
  {
    assert current == Spaced(w.group) && ops == Draws(Texts(w.lines), y0) && y == y0 - Leading * |w.lines|;
    if |current + word| < LineLimit {
      JoinWord(w, word, y0);
      current', ops', y' := current + word + " ", ops, y;
    } else {
      BreakBeforeWord(w, word, y0);
      current', ops', y' := word + " ", ops + [DrawString(Margin, y, Text.Strip(current))], y - Leading;
    }
  }

  /** The word loop's variables after a word joins the line under construction. */
  lemma {:induction false} JoinWord(w: Wrap, word: string, y0: int)
    requires |Spaced(w.group) + word| < LineLimit
    ensures WordLoop(WrapStep(w, word), y0)
      == (Spaced(w.group) + word + " ", Draws(Texts(w.lines), y0), y0 - Leading * |w.lines|)
  {
    var next := Wrap(w.lines, w.group + [word]);
    assert WrapStep(w, word) == next;
    SpacedSnoc(w.group, word);
  }

  /** The word loop's variables after the line under construction is drawn and a word starts the next. */
  lemma {:induction false} BreakBeforeWord(w: Wrap, word: string, y0: int)
    requires |Spaced(w.group) + word| >= LineLimit
    ensures WordLoop(WrapStep(w, word), y0)
      == (word + " ",
          Draws(Texts(w.lines), y0) + [DrawString(Margin, y0 - Leading * |w.lines|, Text.Strip(Spaced(w.group)))],
          y0 - Leading * |w.lines| - Leading)
  {
    var next := Wrap(w.lines + [w.group], [word]);
    assert WrapStep(w, word) == next;
    assert Spaced(next.group) == word + " " by {
      SpacedSnoc([], word);
      assert [] + [word] == [word];
    }
    DrawFinishedLine(w.lines, w.group, y0);
    assert Leading * |next.lines| == Leading * |w.lines| + Leading;
  }

  /** Finishing a line appends its stripped text, drawn below the lines before it. */
  lemma {:induction false} DrawFinishedLine(lines: seq<seq<string>>, group: seq<string>, y0: int)
    ensures Draws(Texts(lines + [group]), y0)
      == Draws(Texts(lines), y0) + [DrawString(Margin, y0 - Leading * |lines|, Text.Strip(Spaced(group)))]
  {
    TextsSnoc(lines, group);
    DrawsSnoc(Texts(lines), Text.Strip(Spaced(group)), y0);
  }

  /** After the word loop: the line still under construction is drawn when it holds anything. */
  method FlushLine(current: string, ops: seq<Op>, y: int, y0: int, ghost w: Wrap) returns (ops': seq<Op>, y': int)
    requires (current, ops, y) == WordLoop(w, y0)
    ensures ops' == Draws(WrapTexts(w), y0)
    ensures y' == y0 - Leading * |WrapTexts(w)|
  {
    if current != "" {
      DrawsSnoc(Texts(w.lines), Text.Strip(current), y0);
      ops' := ops + [DrawString(Margin, y, Text.Strip(current))];
      y' := y - Leading;
    } else {
      assert WrapTexts(w) == Texts(w.lines);
      ops', y' := ops, y;
    }
  }

  lemma {:induction false} WrapWordsSnoc(words: seq<string>, i: nat)
    requires i < |words|
    ensures WrapWords(words[..i + 1]) == WrapStep(WrapWords(words[..i]), words[i])
  {
    assert words[..i + 1][..i] == words[..i];
  }

  lemma {:induction false} SpacedSnoc(group: seq<string>, word: string)
    ensures Spaced(group + [word]) == Spaced(group) + word + " "
  {
    assert (group + [word])[..|group|] == group;
  }

  lemma {:induction false} TextsSnoc(lines: seq<seq<string>>, group: seq<string>)
    ensures Texts(lines + [group]) == Texts(lines) + [Text.Strip(Spaced(group))]
  {
    assert (lines + [group])[..|lines|] == lines;
  }

  lemma {:induction false} DrawsSnoc(texts: seq<string>, text: string, y: int)
    ensures Draws(texts + [text], y) == Draws(texts, y) + [DrawString(Margin, y - Leading * |texts|, text)]
  {
    assert (texts + [text])[..|texts|] == texts;
  }

  /** The page state while the summary is laid out: what was drawn and the next y. */
  datatype Layout = Layout(ops: seq<Op>, y: int)

  /** Where a summary line starts: on a new page when fewer than 100 points are left. */
  function LineStart(y: int): (start: int)
    ensures start >= 100
  {
    if y < 100 then Height - 100 else y
  }

  /** One summary line, drawn as `texts`. */
  function LineStep(st: Layout, texts: seq<string>): Layout {
    var start := LineStart(st.y);
    Layout(st.ops + (if st.y < 100 then [ShowPage] else []) + Draws(texts, start), start - Leading * |texts|)
  }

  /** The summary section: the lines of the text one after another, from 210 points below the top. */
  function SummaryLayout(lines: seq<string>): Layout {
    if lines == [] then Layout([], Height - 210)
    else LineStep(SummaryLayout(lines[..|lines| - 1]), LineTexts(lines[|lines| - 1]))
  }

  /** One pass of the outer loop: a page break when needed, then the line's strings. */
  method DrawSummaryLine(ops0: seq<Op>, y0: int, line: string) returns (ops: seq<Op>, y: int)
    ensures Layout(ops, y) == LineStep(Layout(ops0, y0), LineTexts(line))
  {
    ops, y := ops0, y0;
    if y < 100 {
      ops := ops + [ShowPage];
      y := Height - 100;
    }
    var drawn, next := DrawLine(line, y);
    ops, y := ops + drawn, next;
  }

  /** The outer loop over the summary's lines. */
  method DrawSummary(lines: seq<string>) returns (ops: seq<Op>, y: int)
    ensures Layout(ops, y) == SummaryLayout(lines)
  {
    ops, y := [], Height - 210;
    var i := 0;
    while i < |lines|
      invariant 0 <= i <= |lines|
      invariant Layout(ops, y) == SummaryLayout(lines[..i])
    {
      SummaryLayoutSnoc(lines, i);
      ops, y := DrawSummaryLine(ops, y, lines[i]);
      i := i + 1;
    }
    assert lines[..i] == lines;
  }

  lemma {:induction false} SummaryLayoutSnoc(lines: seq<string>, i: nat)
    requires i < |lines|
    ensures SummaryLayout(lines[..i + 1]) == LineStep(SummaryLayout(lines[..i]), LineTexts(lines[i]))
  {
    assert lines[..i + 1][..i] == lines[..i];
  }

  /** Number of strings drawn on the current page. */
  function DrawnOnPage(ops: seq<Op>): nat {
    if ops == [] then 0
    else
      var last := ops[|ops| - 1];
      if last.ShowPage? then 0 else DrawnOnPage(ops[..|ops| - 1]) + if last.DrawString? then 1 else 0
  }

  /** Where the current page's text began: 210 points down on the first page, 100 after a break. */
  function PageTop(ops: seq<Op>): int {
    if ShowPage in ops then Height - 100 else Height - 210
  }

  lemma {:induction false} DrawnOnPageAppend(ops: seq<Op>, texts: seq<string>, y: int)
    ensures DrawnOnPage(ops + Draws(texts, y)) == DrawnOnPage(ops) + |texts|
    ensures ShowPage in ops + Draws(texts, y) <==> ShowPage in ops
  {
    if texts == [] {
      assert ops + Draws(texts, y) == ops;
    } else {
      var init := texts[..|texts| - 1];
      DrawnOnPageAppend(ops, init, y);
      var op := DrawString(Margin, y - Leading * (|texts| - 1), texts[|texts| - 1]);
      var prefix := ops + Draws(init, y);
      assert Draws(texts, y) == Draws(init, y) + [op];
      assert ops + Draws(texts, y) == prefix + [op];
      assert (prefix + [op])[..|prefix|] == prefix;
    }
  }

  /**
   * Throughout the summary, y is the top of the current page's text less
   * 15 points per string drawn on that page: it drops by 15 per string and a
   * page break resets it.
   */
  lemma {:induction false} SummaryY(lines: seq<string>)
    ensures var st := SummaryLayout(lines); st.y == PageTop(st.ops) - Leading * DrawnOnPage(st.ops)
  {
    if lines != [] {
      var init := lines[..|lines| - 1];
      SummaryY(init);
      var st := SummaryLayout(init);
      var texts := LineTexts(lines[|lines| - 1]);
      var start := LineStart(st.y);
      if st.y < 100 {
        var broken := st.ops + [ShowPage];
        assert DrawnOnPage(broken) == 0;
        assert ShowPage in broken;
        DrawnOnPageAppend(broken, texts, start);
      } else {
        assert st.ops + [] == st.ops;
        DrawnOnPageAppend(st.ops, texts, start);
      }
    }
  }

  // ---------------------------------------------------------------------
  // The whole report

  function MetricTexts(metrics: seq<(string, string)>): (r: seq<string>)
    ensures |r| == |metrics|
    ensures forall k :: 0 <= k < |metrics| ==> r[k] == metrics[k].0 + ": " + metrics[k].1
  {
    if metrics == [] then [] else [metrics[0].0 + ": " + metrics[0].1] + MetricTexts(metrics[1..])
  }

  /** The header: title, generation time and the summary heading, each in its own font. */
  function Header(generated: string): seq<Op> {
    [SetFont("Helvetica-Bold", 16), DrawString(Margin, Height - 100, Title),
     SetFont("Helvetica", 12), DrawString(Margin, Height - 130, "Generated: " + generated),
     SetFont("Helvetica-Bold", 14), DrawString(Margin, Height - 180, "Executive Summary"),
     SetFont("Helvetica", 10)]
  }

  /** Everything `create_pdf_report` draws, in order. */
  function ReportOps(summary: Layout, metrics: seq<(string, string)>, generated: string): seq<Op> {
    var y := summary.y - 30;
    Header(generated) + summary.ops
    + [SetFont("Helvetica-Bold", 14), DrawString(Margin, y, "Key Metrics"), SetFont("Helvetica", 10)]
    + Draws(MetricTexts(metrics), y - 20)
  }

  /**
   * Each metric is drawn as "metric: value", in the given order, 15 points
   * apart, starting 20 points below the "Key Metrics" heading.
   */
  lemma {:induction false} MetricsLayout(summary: Layout, metrics: seq<(string, string)>, generated: string, k: nat)
    requires k < |metrics|
    ensures var ops := ReportOps(summary, metrics, generated);
      var heading := |Header(generated)| + |summary.ops| + 1;
      ops[heading] == DrawString(Margin, summary.y - 30, "Key Metrics")
      && ops[heading + 2 + k] == DrawString(Margin, summary.y - 50 - Leading * k, metrics[k].0 + ": " + metrics[k].1)
  {
    DrawsAt(MetricTexts(metrics), summary.y - 50, k);
  }

  /** The loop over the key metrics. */
  method DrawMetrics(texts: seq<string>, y: int) returns (drawn: seq<Op>)
    ensures drawn == Draws(texts, y)
  {
    drawn := [];
    var i := 0;
    while i < |texts|
      invariant 0 <= i <= |texts|
      invariant drawn == Draws(texts[..i], y)
    {
      assert texts[..i + 1][..i] == texts[..i];
      drawn := drawn + [DrawString(Margin, y - Leading * i, texts[i])];
      i := i + 1;
    }
    assert texts[..i] == texts;
  }

  /**
   * `create_pdf_report`; `generated` is the formatted clock reading and
   * `metrics` the key-metric pairs in the dictionary's order, values
   * already rendered as text.
   */
  method CreatePdfReport(summaryText: string, metrics: seq<(string, string)>, generated: string)
    returns (ops: seq<Op>)
    ensures ops == ReportOps(SummaryLayout(Text.Split(summaryText, '\n')), metrics, generated)
  {
    ops := DrawReport(Text.Split(summaryText, '\n'), metrics, generated);
  }

  /** The report for the summary's lines, split at '\n'. */
  method DrawReport(lines: seq<string>, metrics: seq<(string, string)>, generated: string)
    returns (ops: seq<Op>)
    ensures ops == ReportOps(SummaryLayout(lines), metrics, generated)
  {
    var summary, y := DrawSummary(lines);
    y := y - 30;
    var heading := [SetFont("Helvetica-Bold", 14), DrawString(Margin, y, "Key Metrics"), SetFont("Helvetica", 10)];
    y := y - 20;
    var drawn := DrawMetrics(MetricTexts(metrics), y);
    ops := Header(generated) + summary + heading + drawn;
  }
}

=== FILE: records.dfy ===
/**
 * The loosely typed Stripe records the dashboard reads, as variants with
 * optional fields. An absent attribute and an attribute holding None are
 * both `None`; Python truthiness (0 and "" are false) is checked explicitly
 * by the functions that read the fields.
 */
module Records {
  import opened Wrappers

  /** A charge's `customer`: absent or None, a bare id string, or an expanded record. */
  datatype CustomerRef =
    | NoCustomer
    | CustomerId(id: string)
    | CustomerObject(id: string, name: Option<string>, email: Option<string>)

  /** `card.wallet`, present only when the card was used through a wallet. */
  datatype Wallet = Wallet(walletType: string)

  /** `payment_method_details.card` */
  datatype Card = Card(brand: Option<string>, wallet: Option<Wallet>)

  /** `payment_method_details`: its `type` and, for cards, the card record. */
  datatype PaymentMethodDetails = PaymentMethodDetails(pmType: string, card: Option<Card>)

  /** The legacy `source` of older charges: a brand and the `object` kind. */
  datatype Source = Source(brand: Option<string>, objectKind: Option<string>)

  /** One payment attempt. `amount` is in minor units, `created` in epoch seconds. */
  datatype Charge = Charge(
    id: string,
    amount: nat,
    status: string,
    created: int,
    customer: CustomerRef,
    paymentMethodDetails: Option<PaymentMethodDetails>,
    source: Option<Source>,
    metadata: map<string, string>,
    description: Option<string>,
    statementDescriptor: Option<string>,
    invoice: Option<string>)

  /**
   * `price.product`: absent or falsy, a product id string, or an expanded
   * product; `ProductObject(None)` is an expanded product without a `name`
   * attribute.
   */
  datatype ProductRef =
    | NoProduct
    | ProductId(id: string)
    | ProductObject(name: Option<string>)

  /**
   * A Price, or a legacy Plan read through the same attribute names.
   * `recurring` is `Some(i)` when the price has a truthy `recurring` record
   * whose interval is `i`; `interval` is the legacy plan's own interval
   * attribute; `unitAmountDecimal` is the decimal string already read as a number.
   */
  datatype Price = Price(
    id: Option<string>,
    unitAmount: Option<nat>,
    amount: Option<nat>,
    unitAmountDecimal: Option<real>,
    recurring: Option<string>,
    interval: Option<string>,
    product: ProductRef,
    nickname: Option<string>)

  /** An item's `price`: absent or None, an unexpanded price id, or a record. */
  datatype PriceRef =
    | NoPrice
    | PriceId(id: string)
    | PriceObject(price: Price)

  /** A subscription item (object or dict form); `quantity` is None when the attribute is missing. */
  datatype Item = Item(price: PriceRef, quantity: Option<nat>)

  /**
   * A subscription's `items` attribute: missing or falsy, a list object with
   * `data`, a plain iterable, or something truthy that is neither.
   */
  datatype ItemsField =
    | NoItems
    | ItemList(data: seq<Item>)
    | ItemIterable(elements: seq<Item>)
    | ItemsOther

  /** `pause_collection` */
  datatype Pause = Pause(resumesAt: Option<int>)

  datatype Subscription = Subscription(
    id: string,
    status: string,
    items: ItemsField,
    plan: Option<Price>,
    quantity: Option<nat>,
    cancelAt: Option<int>,
    canceledAt: Option<int>,
    currentPeriodEnd: Option<int>,
    pauseCollection: Option<Pause>,
    trialEnd: Option<int>)

  /** Truthiness of an optional string: present and non-empty. */
  predicate TruthyText(s: Option<string>) {
    s.Some? && s.value != ""
  }

  /** Truthiness of an optional number: present and non-zero. */
  predicate TruthyNumber(n: Option<int>) {
    n.Some? && n.value != 0
  }

  /** `if price:` on an item's price. */
  predicate TruthyPrice(p: PriceRef) {
    p.PriceObject? || (p.PriceId? && p.id != "")
  }

  /** An item's quantity, 1 when the attribute is missing. */
  function Quantity(item: Item): (q: nat)
    ensures item.quantity.None? ==> q == 1
  {
    item.quantity.GetOr(1)
  }

  /** The first item of a list, if any. */
  function First(items: seq<Item>): (r: Option<Item>)
    ensures r.Some? <==> items != []
    ensures r.Some? ==> r.value == items[0]
  {
    if items == [] then None else Some(items[0])
  }

  /**
   * The per-unit amount in cents by the chain every copy shares: a truthy
   * `unit_amount`, else a truthy legacy `amount`.
   */
  function UnitOrLegacyCents(p: Price): (r: Option<nat>)
    ensures r.Some? ==> r.value > 0
    ensures TruthyNumber(p.unitAmount) ==> r == p.unitAmount
    ensures !TruthyNumber(p.unitAmount) && TruthyNumber(p.amount) ==> r == p.amount
    ensures r.None? <==> !TruthyNumber(p.unitAmount) && !TruthyNumber(p.amount)
  {
    if TruthyNumber(p.unitAmount) then p.unitAmount
    else if TruthyNumber(p.amount) then p.amount
    else None
  }

  /** The billing interval: `recurring.interval` when `recurring` is truthy, else the legacy attribute. */
  function RawInterval(p: Price): (r: Option<string>)
    ensures p.recurring.Some? ==> r == p.recurring
    ensures p.recurring.None? ==> r == p.interval
  {
    if p.recurring.Some? then p.recurring else p.interval
  }

  /** `sub.status in ['active', 'trialing']`: the subscriptions that bring recurring revenue. */
  predicate IsRecurring(sub: Subscription) {
    sub.status == "active" || sub.status == "trialing"
  }
}

=== FILE: stripe_service.dfy ===
/**
 * The data-shaping part of the Stripe service (services/stripe_service.py):
 * the user's status and amount filter over charges, and the human-readable
 * payment-method label. Fetching from Stripe is not part of this model.
 */
module StripeService {
  import opened Wrappers
  import opened Records
  import Money
  import Text

  /** A charge passes the filter: its status is selected and its dollar amount lies in range. */
  predicate Passes(c: Charge, statuses: seq<string>, minAmount: real, maxAmount: real) {
    var dollars := Money.Dollars(c.amount);
    c.status in statuses && !(dollars < minAmount || dollars > maxAmount)
  }

  /** The charges that pass, in their original order. */
  function Kept(charges: seq<Charge>, statuses: seq<string>, minAmount: real, maxAmount: real): seq<Charge> {
    if charges == [] then []
    else
      var last := charges[|charges| - 1];
      Kept(charges[..|charges| - 1], statuses, minAmount, maxAmount)
        + if Passes(last, statuses, minAmount, maxAmount) then [last] else []
  }

  /**
   * `filter_charges_data` with an explicit status list: the loop that keeps a
   * charge when its status is selected and its amount in dollars is within
   * the inclusive range.
   */
  method FilterCharges(charges: seq<Charge>, statuses: seq<string>, minAmount: real, maxAmount: real)
    returns (filtered: seq<Charge>)
    ensures filtered == Kept(charges, statuses, minAmount, maxAmount)
  {
    if charges == [] {
      return [];
    }
    filtered := [];
    var i := 0;
    while i < |charges|
      invariant 0 <= i <= |charges|
      invariant filtered == Kept(charges[..i], statuses, minAmount, maxAmount)
    {
      var charge := charges[i];
      assert charges[..i + 1][..i] == charges[..i];
      if charge.status !in statuses {
        i := i + 1;
        continue;
      }
      var amountDollars := Money.Dollars(charge.amount);
      if amountDollars < minAmount || amountDollars > maxAmount {
        i := i + 1;
        continue;
      }
      filtered := filtered + [charge];
      i := i + 1;
    }
    assert charges[..i] == charges;
  }

  /** A charge is kept exactly when it is one of the input charges and passes the filter. */
  lemma {:induction false} KeptMembers(charges: seq<Charge>, statuses: seq<string>, minAmount: real, maxAmount: real)
    ensures |Kept(charges, statuses, minAmount, maxAmount)| <= |charges|
    ensures forall c :: c in Kept(charges, statuses, minAmount, maxAmount) <==>
      c in charges && Passes(c, statuses, minAmount, maxAmount)
  {
    if charges != [] {
      var init := charges[..|charges| - 1];
      assert charges == init + [charges[|charges| - 1]];
      KeptMembers(init, statuses, minAmount, maxAmount);
    }
  }

  /** Filtering a concatenation filters each part, so the relative order of kept charges is preserved. */
  lemma {:induction false} KeptAppend(a: seq<Charge>, b: seq<Charge>, statuses: seq<string>, minAmount: real, maxAmount: real)
    ensures Kept(a + b, statuses, minAmount, maxAmount)
      == Kept(a, statuses, minAmount, maxAmount) + Kept(b, statuses, minAmount, maxAmount)
  {
    if b == [] {
      assert a + b == a;
    } else {
      var init := b[..|b| - 1];
      assert (a + b)[..|a + b| - 1] == a + init;
      assert (a + b)[|a + b| - 1] == b[|b| - 1];
      KeptAppend(a, init, statuses, minAmount, maxAmount);
    }
  }

  /** Every status a charge can carry, the selection used when the user selected none. */
  const AllStatuses: seq<string> := [
    "succeeded", "failed", "pending", "canceled",
    "refunded", "refund_pending", "partially_refunded",
    "disputed", "lost", "won", "dispute_under_review",
    "dispute_needs_response", "closed",
    "inquiry_under_review", "inquiry_needs_response"]

  /** `filter_charges_data` of the service: an empty status selection means all known statuses. */
  method FilterChargesData(charges: seq<Charge>, statusFilter: seq<string>, minAmount: real, maxAmount: real)
    returns (filtered: seq<Charge>)
    ensures filtered == Kept(charges, if statusFilter == [] then AllStatuses else statusFilter, minAmount, maxAmount)
  {
    if charges == [] {
      return [];
    }
    var statuses := statusFilter;
    if statuses == [] {
      statuses := AllStatuses;
    }
    filtered := FilterCharges(charges, statuses, minAmount, maxAmount);
  }

  /**
   * The single-file dashboard's filter has no default list: it runs the same
   * loop with the selection as given, so an empty selection keeps nothing.
   */
  lemma {:induction false} EmptySelectionKeepsNothing(charges: seq<Charge>, minAmount: real, maxAmount: real)
    ensures Kept(charges, [], minAmount, maxAmount) == []
  {
    if charges != [] {
      EmptySelectionKeepsNothing(charges[..|charges| - 1], minAmount, maxAmount);
    }
  }

  /**
   * With no status selected, a charge is kept exactly when its status is one
   * of the fifteen known statuses and its amount is in range; a charge in any
   * other status (say "requires_payment_method") is still dropped.
   */
  lemma {:induction false} EmptySelectionKeepsKnownStatuses(charges: seq<Charge>, minAmount: real, maxAmount: real)
    ensures forall c :: c in Kept(charges, AllStatuses, minAmount, maxAmount) <==>
      c in charges && c.status in AllStatuses && minAmount <= Money.Dollars(c.amount) <= maxAmount
    ensures "requires_payment_method" !in AllStatuses
  {
    KeptMembers(charges, AllStatuses, minAmount, maxAmount);
  }

  /** What follows the brand in the label of a card paid through a wallet of the given type. */
  function WalletSuffix(walletType: string): (r: string)
    ensures |r| >= 3 && r[..2] == " (" && r[|r| - 1] == ')'
  {
    if walletType == "apple_pay" then " (Apple Pay)"
    else if walletType == "google_pay" then " (Google Pay)"
    else if walletType == "samsung_pay" then " (Samsung Pay)"
    else " (" + Text.Title(Text.UnderscoresToSpaces(walletType)) + ")"
  }

  /**
   * `get_detailed_payment_method`: the card brand in title case with its
   * wallet, 'Card', 'ACH/Bank Transfer', 'SEPA Direct Debit' or the method
   * type made readable; for charges without method details, the legacy
   * source's brand, 'Card' or 'Unknown'.
   */
  function DetailedPaymentMethod(charge: Charge): (r: string)
    ensures charge.paymentMethodDetails.None? && charge.source.None? ==> r == "Unknown"
    ensures charge.paymentMethodDetails.Some? && charge.paymentMethodDetails.value.pmType == "ach_debit"
      ==> r == "ACH/Bank Transfer"
    ensures charge.paymentMethodDetails.Some? && charge.paymentMethodDetails.value.pmType == "sepa_debit"
      ==> r == "SEPA Direct Debit"
    ensures charge.paymentMethodDetails.Some? && charge.paymentMethodDetails.value.pmType == "card"
      && charge.paymentMethodDetails.value.card.Some? && !TruthyText(charge.paymentMethodDetails.value.card.value.brand)
      ==> r == "Card"
    ensures charge.paymentMethodDetails.None? && charge.source.Some? && TruthyText(charge.source.value.brand)
      ==> r == Text.Title(charge.source.value.brand.value)
    ensures charge.paymentMethodDetails.None? && charge.source.Some? && !TruthyText(charge.source.value.brand)
      ==> r == if charge.source.value.objectKind == Some("card") then "Card" else "Unknown"
  {
    match charge.paymentMethodDetails
    case Some(pm) =>
      if pm.pmType == "card" && pm.card.Some? then
        var card := pm.card.value;
        if TruthyText(card.brand) then
          var brand := Text.Title(card.brand.value);
          match card.wallet
          case Some(w) => brand + WalletSuffix(w.walletType)
          case None => brand
        else "Card"
      else if pm.pmType == "ach_debit" then "ACH/Bank Transfer"
      else if pm.pmType == "sepa_debit" then "SEPA Direct Debit"
      else Text.Title(Text.UnderscoresToSpaces(pm.pmType))
    case None =>
      match charge.source
      case Some(src) =>
        if TruthyText(src.brand) then Text.Title(src.brand.value)
        else if src.objectKind == Some("card") then "Card"
        else "Unknown"
      case None => "Unknown"
  }

  /**
   * A card with a brand is labelled by the title-cased brand, followed by a
   * parenthesised wallet name when a wallet was used; the label, lower-cased,
   * begins with the lower-cased brand.
   */
  lemma {:induction false} CardLabelStartsWithBrand(charge: Charge)
    requires charge.paymentMethodDetails.Some?
    requires charge.paymentMethodDetails.value.pmType == "card"
    requires charge.paymentMethodDetails.value.card.Some?
    requires TruthyText(charge.paymentMethodDetails.value.card.value.brand)
    ensures var brand := charge.paymentMethodDetails.value.card.value.brand.value;
      && Text.StartsWith(DetailedPaymentMethod(charge), Text.Title(brand))
      && Text.StartsWith(Text.Lower(DetailedPaymentMethod(charge)), Text.Lower(brand))
      && (charge.paymentMethodDetails.value.card.value.wallet.None? <==> DetailedPaymentMethod(charge) == Text.Title(brand))
  {
    var card := charge.paymentMethodDetails.value.card.value;
    var brand := card.brand.value;
    var t := Text.Title(brand);
    var suffix := CardLabelSuffix(card.wallet);
    CardLabelShape(charge);
    var r := DetailedPaymentMethod(charge);
    assert r[..|t|] == t;
    LowerCardLabel(charge);
    assert Text.Lower(r)[..|t|] == Text.Lower(brand);
  }

  /** A card's label is its brand in title case followed by the wallet suffix. */
  lemma {:induction false} CardLabelShape(charge: Charge)
    requires charge.paymentMethodDetails.Some?
    requires charge.paymentMethodDetails.value.pmType == "card"
    requires charge.paymentMethodDetails.value.card.Some?
    requires TruthyText(charge.paymentMethodDetails.value.card.value.brand)
    ensures var card := charge.paymentMethodDetails.value.card.value;
      DetailedPaymentMethod(charge) == Text.Title(card.brand.value) + CardLabelSuffix(card.wallet)
  {
  }

  /** Lower-cased, a card's label is the lower-cased brand followed by the lower-cased wallet suffix. */
  lemma {:induction false} LowerCardLabel(charge: Charge)
    requires charge.paymentMethodDetails.Some?
    requires charge.paymentMethodDetails.value.pmType == "card"
    requires charge.paymentMethodDetails.value.card.Some?
    requires TruthyText(charge.paymentMethodDetails.value.card.value.brand)
    ensures var card := charge.paymentMethodDetails.value.card.value;
      Text.Lower(DetailedPaymentMethod(charge)) == Text.Lower(card.brand.value) + Text.Lower(CardLabelSuffix(card.wallet))
  {
    var card := charge.paymentMethodDetails.value.card.value;
    CardLabelShape(charge);
    Text.LowerTitle(card.brand.value);
    Text.LowerConcat(Text.Title(card.brand.value), CardLabelSuffix(card.wallet));
  }

  /** What follows the brand in a card's label: nothing, or the wallet in parentheses. */
  function CardLabelSuffix(wallet: Option<Wallet>): (suffix: string)
    ensures wallet.None? <==> suffix == ""
  {
    match wallet
    case None => ""
    case Some(w) => WalletSuffix(w.walletType)
  }

  /** `title()` leaves every non-letter where it was, so it adds no underscore. */
  lemma {:induction false} NoUnderscoreAfterTitle(s: string)
    requires '_' !in s
    ensures '_' !in Text.Title(s)
  {
    forall i | 0 <= i < |s| ensures Text.Title(s)[i] != '_' {
      Text.TitleAt(false, s, i);
    }
  }

  /**
   * Any other method type is shown as the type with its underscores turned
   * into spaces: the label has no underscore and, up to letter case, equals
   * the type with spaces.
   */
  lemma {:induction false} OtherTypeLabel(charge: Charge)
    requires charge.paymentMethodDetails.Some?
    requires var t := charge.paymentMethodDetails.value.pmType;
      !(t == "card" && charge.paymentMethodDetails.value.card.Some?) && t != "ach_debit" && t != "sepa_debit"
    ensures var t := charge.paymentMethodDetails.value.pmType;
      && '_' !in DetailedPaymentMethod(charge)
      && Text.Lower(DetailedPaymentMethod(charge)) == Text.Lower(Text.UnderscoresToSpaces(t))
  {
    var u := Text.UnderscoresToSpaces(charge.paymentMethodDetails.value.pmType);
    NoUnderscoreAfterTitle(u);
    Text.LowerTitle(u);
  }
}

=== FILE: tally.dfy ===
/**
 * Python dictionaries keep their keys in insertion order. A dictionary is
 * modelled as a `map` together with the sequence of its keys in that order;
 * `SumOver` adds up one numeric field of the values, key by key.
 */
module Tally {

  predicate Distinct(keys: seq<string>) {
    forall i, j :: 0 <= i < j < |keys| ==> keys[i] != keys[j]
  }

  /** The key order and the map describe the same dictionary. */
  predicate Ordered<V>(keys: seq<string>, m: map<string, V>) {
    Distinct(keys) && (forall k :: k in keys ==> k in m) && (forall k :: k in m ==> k in keys)
  }

  function SumOver<V>(keys: seq<string>, m: map<string, V>, w: V -> real): real {
    if keys == [] then 0.0
    else (if keys[0] in m then w(m[keys[0]]) else 0.0) + SumOver(keys[1..], m, w)
  }

  /** Changing the value of a key outside the sequence does not change the sum. */
  lemma {:induction false} SumOverFrame<V>(keys: seq<string>, m: map<string, V>, k: string, v: V, w: V -> real)
    requires k !in keys
    ensures SumOver(keys, m[k := v], w) == SumOver(keys, m, w)
  {
    if keys != [] {
      SumOverFrame(keys[1..], m, k, v, w);
    }
  }

  /** Inserting a new key adds its value's weight. */
  lemma {:induction false} SumOverInsert<V>(keys: seq<string>, m: map<string, V>, k: string, v: V, w: V -> real)
    requires k !in keys
    ensures SumOver(keys + [k], m[k := v], w) == SumOver(keys, m, w) + w(v)
  {
    if keys == [] {
      assert [k][1..] == [];
    } else {
      assert (keys + [k])[1..] == keys[1..] + [k];
      SumOverInsert(keys[1..], m, k, v, w);
    }
  }

  /** Updating an existing key replaces its weight. */
  lemma {:induction false} SumOverUpdate<V>(keys: seq<string>, m: map<string, V>, k: string, v: V, w: V -> real)
    requires Distinct(keys) && k in keys && k in m
    ensures SumOver(keys, m[k := v], w) == SumOver(keys, m, w) - w(m[k]) + w(v)
  {
    if keys[0] == k {
      assert k !in keys[1..];
      SumOverFrame(keys[1..], m, k, v, w);
    } else {
      SumOverUpdate(keys[1..], m, k, v, w);
    }
  }

  lemma {:induction false} OrderedInsert<V>(keys: seq<string>, m: map<string, V>, k: string, v: V)
    requires Ordered(keys, m) && k !in m
    ensures Ordered(keys + [k], m[k := v])
  {
    var ks := keys + [k];
    forall i, j | 0 <= i < j < |ks| ensures ks[i] != ks[j] {
      if j == |keys| { assert ks[i] in keys; }
    }
  }

  lemma {:induction false} OrderedUpdate<V>(keys: seq<string>, m: map<string, V>, k: string, v: V)
    requires Ordered(keys, m) && k in m
    ensures Ordered(keys, m[k := v])
  {
  }

  /** The distinct elements of `s`, in order of first appearance. */
  function FirstSeen(s: seq<string>): seq<string> {
    if s == [] then []
    else
      var prev := FirstSeen(s[..|s| - 1]);
      if s[|s| - 1] in prev then prev else prev + [s[|s| - 1]]
  }

  lemma {:induction false} FirstSeenMembers(s: seq<string>)
    ensures forall x :: x in FirstSeen(s) <==> x in s
  {
    if s != [] {
      var init := s[..|s| - 1];
      FirstSeenMembers(init);
      assert s == init + [s[|s| - 1]];
    }
  }

  lemma {:induction false} FirstSeenSnoc(s: seq<string>, x: string)
    ensures FirstSeen(s + [x]) == if x in s then FirstSeen(s) else FirstSeen(s) + [x]
  {
    var next := s + [x];
    assert next[..|next| - 1] == s;
    FirstSeenMembers(s);
  }

  /** Where `x` first occurs in `s`. */
  function FirstIndex(s: seq<string>, x: string): (i: nat)
    requires x in s
    ensures i < |s| && s[i] == x
    ensures forall k :: 0 <= k < i ==> s[k] != x
  {
    if s[0] == x then 0 else 1 + FirstIndex(s[1..], x)
  }

  /** Appending never moves the first occurrence of a value already present. */
  lemma {:induction false} FirstIndexSnoc(s: seq<string>, x: string, y: string)
    requires y in s
    ensures FirstIndex(s + [x], y) == FirstIndex(s, y)
  {
    var a, b := FirstIndex(s + [x], y), FirstIndex(s, y);
    assert (s + [x])[b] == y;
    assert s[a] == y;
  }

  /** A value appended for the first time first occurs at the end. */
  lemma {:induction false} FirstIndexNew(s: seq<string>, x: string)
    requires x !in s
    ensures FirstIndex(s + [x], x) == |s|
  {
  }

  /** The order of first occurrences, listed by `f`. */
  ghost predicate InFirstOrder(s: seq<string>, f: seq<string>)
    requires forall x :: x in f ==> x in s
  {
    forall i, j :: 0 <= i < j < |f| ==> FirstIndex(s, f[i]) < FirstIndex(s, f[j])
  }

  /**
   * First-seen order, stated without `FirstSeen`'s recursion: the keys are
   * the elements of `s`, distinct, and a key listed earlier first occurs
   * earlier in `s`.
   */
  lemma {:induction false} FirstSeenOrder(s: seq<string>)
    ensures forall x :: x in FirstSeen(s) <==> x in s
    ensures InFirstOrder(s, FirstSeen(s))
    ensures Distinct(FirstSeen(s))
  {
    FirstSeenMembers(s);
    if s != [] {
      var init, x := s[..|s| - 1], s[|s| - 1];
      assert s == init + [x];
      FirstSeenOrder(init);
      FirstSeenSnoc(init, x);
      FirstOrderSnoc(init, x);
    }
    var f := FirstSeen(s);
    forall i, j | 0 <= i < j < |f| ensures f[i] != f[j] {
      assert FirstIndex(s, f[i]) < FirstIndex(s, f[j]);
    }
  }

  lemma {:induction false} FirstOrderSnoc(s: seq<string>, x: string)
    requires forall y :: y in FirstSeen(s) <==> y in s
    requires InFirstOrder(s, FirstSeen(s))
    ensures forall y :: y in FirstSeen(s) ==> y in s + [x]
    ensures InFirstOrder(s + [x], if x in s then FirstSeen(s) else FirstSeen(s) + [x])
  {
    var f0 := FirstSeen(s);
    var f := if x in s then f0 else f0 + [x];
    forall y | y in f0 ensures FirstIndex(s + [x], y) == FirstIndex(s, y) {
      FirstIndexSnoc(s, x, y);
    }
    if x !in s {
      FirstIndexNew(s, x);
      forall i, j | 0 <= i < j < |f| ensures FirstIndex(s + [x], f[i]) < FirstIndex(s + [x], f[j]) {
        assert f[i] == f0[i];
        if j < |f0| {
          assert f[j] == f0[j];
        }
      }
    }
  }

  function RealId(x: real): real { x }

  /** The keys of a sequence of (key, weight) entries, in order, with repeats. */
  function EntryKeys(entries: seq<(string, real)>): (r: seq<string>)
    ensures |r| == |entries|
  {
    if entries == [] then [] else EntryKeys(entries[..|entries| - 1]) + [entries[|entries| - 1].0]
  }

  /** The total weight of the entries with key `k`. */
  function GroupSum(entries: seq<(string, real)>, k: string): real {
    if entries == [] then 0.0
    else GroupSum(entries[..|entries| - 1], k) + if entries[|entries| - 1].0 == k then entries[|entries| - 1].1 else 0.0
  }

  /** The total weight of all entries. */
  function Total(entries: seq<(string, real)>): real {
    if entries == [] then 0.0 else Total(entries[..|entries| - 1]) + entries[|entries| - 1].1
  }

  lemma {:induction false} GroupSumAbsent(entries: seq<(string, real)>, k: string)
    requires k !in EntryKeys(entries)
    ensures GroupSum(entries, k) == 0.0
  {
    if entries != [] {
      GroupSumAbsent(entries[..|entries| - 1], k);
    }
  }

  /**
   * A dictionary that groups `entries` by key: one entry per key in order of
   * first appearance, whose weight `w` is that key's total; the weights add
   * up to the total of all entries.
   */
  ghost predicate Grouped<V>(entries: seq<(string, real)>, keys: seq<string>, m: map<string, V>, w: V -> real) {
    && Ordered(keys, m)
    && keys == FirstSeen(EntryKeys(entries))
    && (forall k :: k in m <==> k in EntryKeys(entries))
    && (forall k :: k in m ==> w(m[k]) == GroupSum(entries, k))
    && SumOver(keys, m, w) == Total(entries)
  }

  /** Appending an entry adds its weight to its own key's group only. */
  lemma {:induction false} GroupSumStep(entries: seq<(string, real)>, k: string, x: real, j: string)
    ensures GroupSum(entries + [(k, x)], j) == GroupSum(entries, j) + if k == j then x else 0.0
  {
    var next := entries + [(k, x)];
    assert next[..|next| - 1] == entries;
  }

  lemma {:induction false} TotalStep(entries: seq<(string, real)>, k: string, x: real)
    ensures Total(entries + [(k, x)]) == Total(entries) + x
    ensures EntryKeys(entries + [(k, x)]) == EntryKeys(entries) + [k]
  {
    var next := entries + [(k, x)];
    assert next[..|next| - 1] == entries;
  }

  /**
   * Adding an entry `(k, x)` by storing under `k` a value whose weight is the
   * old weight of `k` (0 for a new key) plus `x` keeps a grouping exact.
   */
  lemma {:induction false} GroupedAdd<V>(entries: seq<(string, real)>, k: string, x: real, v: V,
                      keys: seq<string>, m: map<string, V>, w: V -> real, keys': seq<string>, m': map<string, V>)
    requires Grouped(entries, keys, m, w)
    requires w(v) == (if k in m then w(m[k]) else 0.0) + x
    requires keys' == (if k in m then keys else keys + [k]) && m' == m[k := v]
    ensures Grouped(entries + [(k, x)], keys', m', w)
  {
    GroupedKeysStep(entries, k, x, v, keys, m, keys', m');
    GroupedWeightsStep(entries, k, x, v, m, w, m');
    GroupedTotalStep(entries, k, x, v, keys, m, w, keys', m');
  }

  /** The keys stay in first-seen order, one per key of the entries. */
  lemma {:induction false} GroupedKeysStep<V>(entries: seq<(string, real)>, k: string, x: real, v: V,
                      keys: seq<string>, m: map<string, V>, keys': seq<string>, m': map<string, V>)
    requires Ordered(keys, m) && keys == FirstSeen(EntryKeys(entries))
    requires forall j :: j in m <==> j in EntryKeys(entries)
    requires keys' == (if k in m then keys else keys + [k]) && m' == m[k := v]
    ensures Ordered(keys', m') && keys' == FirstSeen(EntryKeys(entries + [(k, x)]))
    ensures forall j :: j in m' <==> j in EntryKeys(entries + [(k, x)])
  {
    TotalStep(entries, k, x);
    FirstSeenSnoc(EntryKeys(entries), k);
    if k in m {
      OrderedUpdate(keys, m, k, v);
    } else {
      OrderedInsert(keys, m, k, v);
    }
  }

  /** Each key's weight is still the total of its entries. */
  lemma {:induction false} GroupedWeightsStep<V>(entries: seq<(string, real)>, k: string, x: real, v: V,
                      m: map<string, V>, w: V -> real, m': map<string, V>)
    requires forall j :: j in m <==> j in EntryKeys(entries)
    requires forall j :: j in m ==> w(m[j]) == GroupSum(entries, j)
    requires w(v) == (if k in m then w(m[k]) else 0.0) + x
    requires m' == m[k := v]
    ensures forall j :: j in m' ==> w(m'[j]) == GroupSum(entries + [(k, x)], j)
  {
    if k !in m {
      GroupSumAbsent(entries, k);
    }
    forall j | j in m' ensures w(m'[j]) == GroupSum(entries + [(k, x)], j) {
      GroupSumStep(entries, k, x, j);
    }
  }

  /** The weights still add up to the total of all entries. */
  lemma {:induction false} GroupedTotalStep<V>(entries: seq<(string, real)>, k: string, x: real, v: V,
                      keys: seq<string>, m: map<string, V>, w: V -> real, keys': seq<string>, m': map<string, V>)
    requires Ordered(keys, m) && SumOver(keys, m, w) == Total(entries)
    requires w(v) == (if k in m then w(m[k]) else 0.0) + x
    requires keys' == (if k in m then keys else keys + [k]) && m' == m[k := v]
    ensures SumOver(keys', m', w) == Total(entries + [(k, x)])
  {
    TotalStep(entries, k, x);
    if k in m {
      SumOverUpdate(keys, m, k, v, w);
    } else {
      SumOverInsert(keys, m, k, v, w);
    }
  }

  /** `d[k] = d.get(k, 0) + x` on a dictionary kept with its key order. */
  function AddOne(keys: seq<string>, m: map<string, real>, k: string, x: real): (seq<string>, map<string, real>) {
    (if k in m then keys else keys + [k], m[k := (if k in m then m[k] else 0.0) + x])
  }

  /** The dictionary after adding the entries one by one. */
  function Accumulated(entries: seq<(string, real)>): (seq<string>, map<string, real>) {
    if entries == [] then ([], map[])
    else
      var prev := Accumulated(entries[..|entries| - 1]);
      var last := entries[|entries| - 1];
      AddOne(prev.0, prev.1, last.0, last.1)
  }

  lemma {:induction false} AccumulatedSnoc(entries: seq<(string, real)>, k: string, x: real)
    ensures var prev := Accumulated(entries); Accumulated(entries + [(k, x)]) == AddOne(prev.0, prev.1, k, x)
  {
    var next := entries + [(k, x)];
    assert next[..|next| - 1] == entries;
  }

  /** Adding the entries one by one groups them exactly. */
  lemma {:induction false} AccumulatedGrouped(entries: seq<(string, real)>)
    ensures Grouped(entries, Accumulated(entries).0, Accumulated(entries).1, RealId)
  {
    if entries != [] {
      var init := entries[..|entries| - 1];
      var last := entries[|entries| - 1];
      var prev := Accumulated(init);
      AccumulatedGrouped(init);
      var v := (if last.0 in prev.1 then prev.1[last.0] else 0.0) + last.1;
      assert init + [(last.0, last.1)] == entries;
      var cur := Accumulated(entries);
      assert cur == AddOne(prev.0, prev.1, last.0, last.1);
      GroupedAdd(init, last.0, last.1, v, prev.0, prev.1, RealId, cur.0, cur.1);
    }
  }
}

=== FILE: text.dfy ===
/**
 * The string operations the dashboard relies on, over ASCII text: Python's
 * `lower()`, `title()`, `startswith`, `in` on strings, `s[-8:]`,
 * `replace('_', ' ')`, `split(sep)`, `strip()` and decimal formatting.
 */
module Text {

  predicate IsUpper(c: char) { 'A' <= c <= 'Z' }

  predicate IsLowerCase(c: char) { 'a' <= c <= 'z' }

  /** A cased character in the sense of `str.title()`, restricted to ASCII. */
  predicate IsLetter(c: char) { IsUpper(c) || IsLowerCase(c) }

  function LowerChar(c: char): (r: char)
    ensures !IsUpper(r)
    ensures IsLetter(c) <==> IsLetter(r)
  {
    if IsUpper(c) then (c as int + 32) as char else c
  }

  function UpperChar(c: char): (r: char)
    ensures !IsLowerCase(r)
    ensures IsLetter(c) <==> IsLetter(r)
  {
    if IsLowerCase(c) then (c as int - 32) as char else c
  }

  /** `s.lower()` */
  function Lower(s: string): (r: string)
    ensures |r| == |s|
    ensures forall i :: 0 <= i < |s| ==> r[i] == LowerChar(s[i])
  {
    if s == [] then [] else [LowerChar(s[0])] + Lower(s[1..])
  }

  lemma {:induction false} LowerConcat(a: string, b: string)
    ensures Lower(a + b) == Lower(a) + Lower(b)
  {
    var l, r := Lower(a + b), Lower(a) + Lower(b);
    assert |l| == |r|;
    forall i | 0 <= i < |l| ensures l[i] == r[i] {
      if i < |a| { assert (a + b)[i] == a[i]; } else { assert (a + b)[i] == b[i - |a|]; }
    }
  }

  /**
   * `str.title()`: a letter is upper-cased when the character before it is not
   * a letter and lower-cased otherwise; other characters are unchanged.
   * `afterLetter` tells whether the character before `s` was a letter.
   */
  function TitleFrom(afterLetter: bool, s: string): (r: string)
    ensures |r| == |s|
    decreases |s|
  {
    if s == [] then []
    else
      var c := s[0];
      var t := if !IsLetter(c) then c else if afterLetter then LowerChar(c) else UpperChar(c);
      [t] + TitleFrom(IsLetter(c), s[1..])
  }

  function Title(s: string): (r: string)
    ensures |r| == |s|
  {
    TitleFrom(false, s)
  }

  /** Characterises `title()` position by position. */
  lemma {:induction false} TitleAt(afterLetter: bool, s: string, i: nat)
    requires i < |s|
    decreases i
    ensures var prevLetter := if i == 0 then afterLetter else IsLetter(s[i - 1]);
      TitleFrom(afterLetter, s)[i] ==
        if !IsLetter(s[i]) then s[i] else if prevLetter then LowerChar(s[i]) else UpperChar(s[i])
  {
    if i > 0 {
      TitleAt(IsLetter(s[0]), s[1..], i - 1);
    }
  }

  /** Title-casing only changes letter case, so it is invisible after `lower()`. */
  lemma {:induction false} LowerTitle(s: string)
    ensures Lower(Title(s)) == Lower(s)
  {
    var t := Title(s);
    forall i | 0 <= i < |s| ensures Lower(t)[i] == Lower(s)[i] {
      TitleAt(false, s, i);
    }
  }

  /** `title()` is idempotent. */
  lemma {:induction false} TitleIdempotent(s: string)
    ensures Title(Title(s)) == Title(s)
  {
    var t := Title(s);
    forall i | 0 <= i < |s| ensures Title(t)[i] == t[i] {
      TitleAt(false, t, i);
      TitleAt(false, s, i);
      if i > 0 { TitleAt(false, s, i - 1); }
    }
  }

  /** `s.startswith(p)` */
  predicate StartsWith(s: string, p: string) {
    |p| <= |s| && s[..|p|] == p
  }

  /** `sub in s` */
  predicate Contains(s: string, sub: string)
    decreases |s|
  {
    StartsWith(s, sub) || (s != [] && Contains(s[1..], sub))
  }

  /** Appending text never removes an occurrence. */
  lemma {:induction false} ContainsExtend(s: string, t: string, sub: string)
    requires Contains(s, sub)
    ensures Contains(s + t, sub)
    decreases |s|
  {
    if StartsWith(s, sub) {
      assert (s + t)[..|sub|] == s[..|sub|];
    } else {
      ContainsExtend(s[1..], t, sub);
      assert (s + t)[1..] == s[1..] + t;
    }
  }

  /** Python's `s[-8:]`: the last eight characters, or all of a shorter string. */
  function Suffix8(s: string): (r: string)
    ensures |r| == if |s| < 8 then |s| else 8
    ensures s == s[..|s| - |r|] + r
  {
    if |s| <= 8 then s else s[|s| - 8..]
  }

  /** `s.replace('_', ' ')` */
  function UnderscoresToSpaces(s: string): (r: string)
    ensures |r| == |s|
    ensures forall i :: 0 <= i < |s| ==> r[i] == (if s[i] == '_' then ' ' else s[i])
  {
    if s == [] then [] else [if s[0] == '_' then ' ' else s[0]] + UnderscoresToSpaces(s[1..])
  }

  /** `s.split(sep)` with an explicit one-character separator. */
  function Split(s: string, sep: char): (r: seq<string>)
    ensures |r| >= 1
    ensures forall k :: 0 <= k < |r| ==> sep !in r[k]
  {
    if s == [] then [""]
    else if s[0] == sep then [""] + Split(s[1..], sep)
    else
      var rest := Split(s[1..], sep);
      [[s[0]] + rest[0]] + rest[1..]
  }

  /** `sep.join(parts)` */
  function Join(parts: seq<string>, sep: char): string {
    if |parts| == 0 then ""
    else if |parts| == 1 then parts[0]
    else parts[0] + [sep] + Join(parts[1..], sep)
  }

  /** Splitting loses nothing: joining the pieces restores the text. */
  lemma {:induction false} JoinSplit(s: string, sep: char)
    ensures Join(Split(s, sep), sep) == s
  {
    if s != [] {
      var rest := Split(s[1..], sep);
      JoinSplit(s[1..], sep);
      if s[0] != sep {
        var parts := [[s[0]] + rest[0]] + rest[1..];
        if |rest| == 1 {
          assert parts == [[s[0]] + rest[0]];
        } else {
          assert parts[1..] == rest[1..];
          assert Join(rest, sep) == rest[0] + [sep] + Join(rest[1..], sep);
        }
      } else {
        assert Split(s, sep) == [""] + rest;
        assert ([""] + rest)[1..] == rest;
      }
    }
  }

  /** ASCII whitespace as Python's `str.strip()` sees it. */
  predicate IsSpace(c: char) {
    c == ' ' || c == '\t' || c == '\n' || c == '\r' || c == '\U{B}' || c == '\U{C}'
    || ('\U{1C}' <= c <= '\U{1F}')
  }

  function StripLeft(s: string): (r: string)
    ensures |r| <= |s|
  {
    if s != [] && IsSpace(s[0]) then StripLeft(s[1..]) else s
  }

  function StripRight(s: string): (r: string)
    ensures |r| <= |s|
  {
    if s != [] && IsSpace(s[|s| - 1]) then StripRight(s[..|s| - 1]) else s
  }

  /** `s.strip()` */
  function Strip(s: string): (r: string)
    ensures |r| <= |s|
    ensures s != [] && IsSpace(s[|s| - 1]) ==> |r| < |s|
  {
    StripLeft(StripRight(s))
  }

  function DigitChar(d: nat): char
    requires d < 10
  {
    ('0' as int + d) as char
  }

  /** The decimal numeral of `n`, as `str(n)` writes it. */
  function Decimal(n: nat): (r: string)
    ensures |r| >= 1
    ensures forall i :: 0 <= i < |r| ==> '0' <= r[i] <= '9'
  {
    if n < 10 then [DigitChar(n)] else Decimal(n / 10) + [DigitChar(n % 10)]
  }

  /** Reads a string of decimal digits back as a number. */
  function ParseDecimal(s: string): nat
    requires forall i :: 0 <= i < |s| ==> '0' <= s[i] <= '9'
  {
    if s == [] then 0 else ParseDecimal(s[..|s| - 1]) * 10 + (s[|s| - 1] as int - '0' as int)
  }

  lemma {:induction false} ParseDecimalRoundTrip(n: nat)
    ensures ParseDecimal(Decimal(n)) == n
  {
    if n >= 10 {
      var s := Decimal(n);
      assert s[..|s| - 1] == Decimal(n / 10);
      ParseDecimalRoundTrip(n / 10);
    }
  }

  /** `n` written with at least `width` digits, padded with leading zeros (`%02d`, `%04d`). */
  function ZeroPad(n: nat, width: nat): (r: string)
    ensures |r| >= width
    ensures forall i :: 0 <= i < |r| ==> '0' <= r[i] <= '9'
    decreases width
  {
    var d := Decimal(n);
    if |d| >= width then d else "0" + ZeroPad(n, width - 1)
  }
}

=== FILE: transactions.dfy ===
/**
 * The decision rules of the transactions dashboard (dashboard/transactions.py):
 * the smart default start date, the status-filter options, the revenue
 * metrics and the two per-charge labels of the transactions table.
 */
module Transactions {
  import opened Wrappers
  import opened Records
  import Money
  import Text
  import Calendar
  import StripeService
  import Formatters

  /**
   * The default start of the date range from the oldest and newest charge
   * times (epoch seconds): the oldest one for a span of at most 30 days,
   * newest minus the span for at most 90 days, newest minus 90 days beyond.
   * The span is a whole number of days, as `timedelta.days` counts it.
   */
  function DefaultStart(oldest: int, newest: int): (start: int)
    ensures Calendar.DaysBetween(oldest, newest) <= 30 ==> start == oldest
    ensures 30 < Calendar.DaysBetween(oldest, newest) <= 90
      ==> start == newest - Calendar.DaysBetween(oldest, newest) * Calendar.SecondsPerDay
    ensures Calendar.DaysBetween(oldest, newest) > 90 ==> start == newest - 90 * Calendar.SecondsPerDay
  {
    var span := Calendar.DaysBetween(oldest, newest);
    if span <= 30 then oldest
    else if span <= 90 then newest - span * Calendar.SecondsPerDay
    else newest - 90 * Calendar.SecondsPerDay
  }

  /**
   * When the oldest charge is not after the newest, the default start lies
   * between them and at most 90 days before the newest.
   */
  lemma {:induction false} DefaultStartWithinRange(oldest: int, newest: int)
    requires oldest <= newest
    ensures oldest <= DefaultStart(oldest, newest) <= newest
    ensures newest - DefaultStart(oldest, newest) <= 90 * Calendar.SecondsPerDay
  {
    var span := Calendar.DaysBetween(oldest, newest);
    var d := newest - oldest;
    assert span * Calendar.SecondsPerDay <= d by {
      assert span == d / Calendar.SecondsPerDay;
    }
    if span <= 30 {
      assert d < (span + 1) * Calendar.SecondsPerDay;
    }
  }

  /** The three choices of the "Transaction Type" selector. */
  datatype FilterOption = AllTransactions | SucceededOnly | OtherOnly

  function WithoutSucceeded(statuses: seq<string>): (r: seq<string>)
    ensures forall s :: s in r <==> s in statuses && s != "succeeded"
  {
    if statuses == [] then []
    else (if statuses[0] == "succeeded" then [] else [statuses[0]]) + WithoutSucceeded(statuses[1..])
  }

  /** Removing a status that is not there changes nothing. */
  lemma {:induction false} WithoutSucceededAbsent(statuses: seq<string>)
    requires "succeeded" !in statuses
    ensures WithoutSucceeded(statuses) == statuses
  {
    if statuses != [] {
      assert statuses == [statuses[0]] + statuses[1..];
      WithoutSucceededAbsent(statuses[1..]);
    }
  }

  /** The status list a filter option selects. */
  function StatusFilterFor(option: FilterOption): (r: seq<string>)
    ensures option.AllTransactions? ==> r == StripeService.AllStatuses
    ensures option.SucceededOnly? ==> r == ["succeeded"]
    ensures option.OtherOnly? ==> forall s :: s in r <==> s in StripeService.AllStatuses && s != "succeeded"
  {
    match option
    case AllTransactions => StripeService.AllStatuses
    case SucceededOnly => ["succeeded"]
    case OtherOnly => WithoutSucceeded(StripeService.AllStatuses)
  }

  /**
   * "Succeeded Only" and "Other Only" partition the statuses of "All
   * Transactions": every status is in exactly one of them.
   */
  lemma {:induction false} FilterOptionsPartition(s: string)
    ensures s in StatusFilterFor(AllTransactions) <==>
      s in StatusFilterFor(SucceededOnly) || s in StatusFilterFor(OtherOnly)
    ensures !(s in StatusFilterFor(SucceededOnly) && s in StatusFilterFor(OtherOnly))
    ensures |StatusFilterFor(OtherOnly)| == |StatusFilterFor(AllTransactions)| - 1
  {
    var all := StripeService.AllStatuses;
    OtherOnlyIsRest();
    SplitOffFirst(all, s);
  }

  lemma {:induction false} SplitOffFirst(all: seq<string>, s: string)
    requires all != [] && all[0] !in all[1..]
    ensures s in all <==> s == all[0] || s in all[1..]
    ensures !(s == all[0] && s in all[1..])
    ensures |all[1..]| == |all| - 1
  {
    assert all == [all[0]] + all[1..];
  }

  /** "Other Only" is the list of known statuses after its first entry, "succeeded". */
  lemma {:induction false} OtherOnlyIsRest()
    ensures var all := StripeService.AllStatuses;
      all[0] == "succeeded" && "succeeded" !in all[1..] && StatusFilterFor(OtherOnly) == all[1..]
  {
    var all := StripeService.AllStatuses;
    SucceededListedFirst();
    WithoutSucceededAbsent(all[1..]);
    assert WithoutSucceeded(all) == [] + WithoutSucceeded(all[1..]);
  }

  /** "succeeded" heads the known statuses and does not occur again. */
  lemma {:induction false} SucceededListedFirst()
    ensures StripeService.AllStatuses[0] == "succeeded" && "succeeded" !in StripeService.AllStatuses[1..]
  {
    var all := StripeService.AllStatuses;
    forall i | 1 <= i < |all| ensures all[i] != "succeeded" {
      assert all[i][0] != 's';
    }
  }

  /** Dollars of the succeeded charges among `charges`. */
  function SucceededRevenue(charges: seq<Charge>): (r: real)
    ensures r >= 0.0
  {
    if charges == [] then 0.0
    else
      var last := charges[|charges| - 1];
      SucceededRevenue(charges[..|charges| - 1]) + if last.status == "succeeded" then Money.Dollars(last.amount) else 0.0
  }

  /** The three headline metrics of the filtered charges. */
  datatype RevenueMetrics = RevenueMetrics(totalRevenue: real, totalTransactions: nat, average: real)

  /**
   * Total revenue counts only succeeded charges, while the average divides
   * it by the number of all filtered charges, or is 0 when there are none.
   */
  function Metrics(filtered: seq<Charge>): (r: RevenueMetrics)
    ensures r.totalTransactions == |filtered|
    ensures r.totalRevenue == SucceededRevenue(filtered)
    ensures filtered == [] ==> r.average == 0.0
    ensures r.average * |filtered| as real == r.totalRevenue || filtered == []
  {
    var total := SucceededRevenue(filtered);
    var n := |filtered|;
    RevenueMetrics(total, n, if n > 0 then total / n as real else 0.0)
  }

  /** Revenue over a concatenation is the sum of the revenues of the parts. */
  lemma {:induction false} SucceededRevenueAppend(a: seq<Charge>, b: seq<Charge>)
    ensures SucceededRevenue(a + b) == SucceededRevenue(a) + SucceededRevenue(b)
  {
    if b == [] {
      assert a + b == a;
    } else {
      var init := b[..|b| - 1];
      assert (a + b)[..|a + b| - 1] == a + init;
      assert (a + b)[|a + b| - 1] == b[|b| - 1];
      SucceededRevenueAppend(a, init);
    }
  }

  /** Charges that did not succeed never change the revenue figure. */
  lemma {:induction false} SucceededRevenueIgnoresOthers(charges: seq<Charge>)
    requires forall c :: c in charges ==> c.status != "succeeded"
    ensures SucceededRevenue(charges) == 0.0
  {
    if charges != [] {
      var init := charges[..|charges| - 1];
      assert forall c :: c in init ==> c in charges;
      assert charges[|charges| - 1] in charges;
      SucceededRevenueIgnoresOthers(init);
    }
  }

  /**
   * The nested `get_customer_name` of the table: like the export name, but a
   * bare customer id is shown by its last eight characters.
   */
  function CustomerName(customer: CustomerRef): (r: string)
    ensures customer.NoCustomer? ==> r == "Guest"
    ensures customer.CustomerId? && customer.id != "" ==> r == Text.Suffix8(customer.id)
    ensures customer.CustomerId? && customer.id == "" ==> r == "Guest"
    ensures customer.CustomerObject? ==> r == Formatters.ExpandedName(customer)
  {
    match customer
    case NoCustomer => "Guest"
    case CustomerId(id) => if id == "" then "Guest" else Text.Suffix8(id)
    case CustomerObject(_, name, email) =>
      if TruthyText(name) then name.value
      else if TruthyText(email) then email.value
      else "Guest"
  }

  /**
   * The table name and the export name agree except for a bare id, where the
   * table shows the last eight characters of the full id the export writes.
   */
  lemma {:induction false} CustomerNameMatchesExport(customer: CustomerRef)
    ensures !customer.CustomerId? ==> CustomerName(customer) == Formatters.CustomerNameForExport(customer)
    ensures customer.CustomerId? ==>
      (CustomerName(customer) == Text.Suffix8(Formatters.CustomerNameForExport(customer))
       || (customer.id == "" && CustomerName(customer) == "Guest"))
    ensures var full := Formatters.CustomerNameForExport(customer);
      var shown := CustomerName(customer);
      full == full[..|full| - |shown|] + shown
  {
    var full := Formatters.CustomerNameForExport(customer);
    var shown := CustomerName(customer);
    if customer.CustomerId? && customer.id != "" {
      assert shown == Text.Suffix8(full);
    } else {
      assert shown == full;
      assert full[..|full| - |shown|] == "";
    }
  }

  /** `get_basic_product_category` */
  function BasicProductCategory(charge: Charge): (r: string)
    ensures TruthyText(charge.invoice) ==> r == "Subscription Update"
    ensures !TruthyText(charge.invoice)
      && ("payment_link" in charge.metadata || "payment_link_id" in charge.metadata || "payment_link_url" in charge.metadata)
      ==> r == "Payment Link"
    ensures r in {"Subscription Update", "Payment Link", "Payment"}
  {
    var md := charge.metadata;
    if TruthyText(charge.invoice) then "Subscription Update"
    else if "payment_link" in md || "payment_link_id" in md || "payment_link_url" in md then "Payment Link"
    else if TruthyText(charge.description) && Text.Contains(Text.Lower(charge.description.value), "payment link") then "Payment Link"
    else if TruthyText(charge.description) && Text.Contains(Text.Lower(charge.description.value), "subscription") then "Subscription Update"
    else "Payment"
  }

  /**
   * Without an invoice or payment-link metadata the description decides: a
   * payment-link mention gives 'Payment Link' (even beside a subscription
   * mention), else a subscription mention gives 'Subscription Update', else
   * (and without a description) the charge is a plain 'Payment'.
   */
  lemma {:induction false} BasicProductCategoryCases(charge: Charge)
    requires !TruthyText(charge.invoice)
    requires "payment_link" !in charge.metadata && "payment_link_id" !in charge.metadata && "payment_link_url" !in charge.metadata
    ensures !TruthyText(charge.description) ==> BasicProductCategory(charge) == "Payment"
    ensures TruthyText(charge.description) && Text.Contains(Text.Lower(charge.description.value), "payment link")
      ==> BasicProductCategory(charge) == "Payment Link"
    ensures TruthyText(charge.description) && !Text.Contains(Text.Lower(charge.description.value), "payment link")
      && Text.Contains(Text.Lower(charge.description.value), "subscription")
      ==> BasicProductCategory(charge) == "Subscription Update"
    ensures TruthyText(charge.description) && !Text.Contains(Text.Lower(charge.description.value), "payment link")
      && !Text.Contains(Text.Lower(charge.description.value), "subscription")
      ==> BasicProductCategory(charge) == "Payment"
    ensures BasicProductCategory(charge) == "Subscription Update"
      ==> TruthyText(charge.description) && Text.Contains(Text.Lower(charge.description.value), "subscription")
  {
  }
}

=== FILE: wrappers.dfy ===
/** Optional values, used wherever a Stripe record may lack an attribute. */
module Wrappers {

  datatype Option<+T> = None | Some(value: T) {

    /** The value, or `default` when absent. */
    function GetOr(default: T): T {
      match this
      case Some(v) => v
      case None => default
    }
  }
}
